=== FILE: README.md ===
# unmonitorr, modelled in Dafny

unmonitorr receives the webhooks Radarr and Sonarr post when a download finishes.
It then either unmonitors what was downloaded or removes it from the library. A
movie is unmonitored or deleted. A series' episodes are unmonitored, and a
finished series (complete and, if configured, ended) is unmonitored or deleted.
The repository holds two generations of the program: the current one under
`src/unmonitorr/` (settings stored as JSON, edited through a web page) and the
legacy one directly under `src/` (settings read from the environment).

This project models the decision engine of both generations and the record,
name-conversion, configuration and request-building logic around it:

- **JSON and open records** (`Json`, `OpenRecord`, `FieldNames`). A body is a JSON
  datatype. An API model reads each field under its camelCase alias or its own
  name and keeps every other key as an extra. Dumping it by alias writes the
  extras back.
- **Name conversion** (`Naming`, `Text`). This covers the pydantic alias generator
  and the two regular-expression conversions of `src/utils.py`.
- **Payloads and classification** (`Webhook`, `WebhookExamples`). The three
  payload shapes are structural matchers. A body is classified movie-first,
  then series, else unrecognised.
- **Records Radarr and Sonarr return** (`RadarrTypes`, `SonarrTypes`). These are
  value datatypes with parse/dump round trips. They are also classes whose
  `unmonitor` methods change only `monitored`.
- **Clients** (`ArrBase`, `RadarrApi`, `LegacyArrs`). This covers the
  `HTTPException` text, the connection settings, and the request each client
  method builds (verb, URL, headers, parameters, body). It also covers what a
  failed request turns into.
- **The servers** (`Gateway`, `Policies`, `Server`, `LegacyServer`). The network
  is a `Gateway` object that records every client call in order. The handlers
  are methods proved to append exactly the calls given by the specification
  functions of `Policies`. The lemmas of `Policies` state which calls happen,
  how many, and in what order.
- **Configuration** (`Config`, `LegacyConfig`). This covers defaults,
  `from_dict`/`to_dict`, the settings label, the log level, the legacy
  environment flags, and the legacy `validate` collector.

The source is Python. Numbers are exact reals (`JNum`), because Python compares
`100 == 100.0` and pydantic accepts an integral float for an `int` field. A
Python `None` or a caught exception is an `Option`, and a raised validation
error is a `Fetch.Invalid` or a `raised` flag.

## Model

| member | source | states |
|---|---|---|
| Json.AsInt | src/unmonitorr/types_/base.py:12-18 | an `int` field accepts exactly the integral JSON numbers, and the int read back is that number (lax coercion is left out) |
| Json.AsReal | src/unmonitorr/types_/sonarr.py:6-10 | a `float` field accepts exactly the JSON numbers, unchanged (lax coercion is left out) |
| Json.AsBool | src/unmonitorr/types_/radarr.py:6-13 | a `bool` field accepts exactly the JSON booleans, unchanged (lax coercion is left out) |
| Json.AsStr | src/unmonitorr/types_/radarr.py:6-13 | a `str` field accepts exactly JSON strings, unchanged |
| Text.Lower | src/utils.py:18 | `lower()` keeps the length and lower-cases each ASCII letter, position by position |
| Text.LowerConcat | src/utils.py:18 | lower-casing distributes over concatenation |
| Text.LowerOfLowercase | src/utils.py:18 | a string with no upper-case letter is its own lower-case form |
| Text.Capitalize | src/unmonitorr/types_/base.py:9 | `capitalize()` keeps the length, upper-cases the first character and lower-cases every later one (ASCII letters) |
| Text.CapitalizeOfLowercase | src/unmonitorr/types_/base.py:9 | a lower-case word is capitalized by upper-casing its first letter alone |
| Text.Split | src/unmonitorr/types_/base.py:8 | `split("_")` gives at least one part and no part holds the separator |
| Text.SplitJoin | src/unmonitorr/types_/base.py:8-9 | splitting a join of separator-free parts gives the parts back |
| Text.JoinSplit | src/unmonitorr/types_/base.py:8-9 | joining the parts of a split gives the string back |
| Text.IntToString | src/arrs/radarr.py:53 | `str(int)` is never empty |
| Text.SplitWithoutSeparator | src/unmonitorr/types_/base.py:8 | a name without "_" splits into itself alone |
| Text.SplitAtSeparator | src/unmonitorr/types_/base.py:8 | splitting at the first "_" gives the part before it, then the split of the rest |
| Text.NatToString | src/arrs/radarr.py:53 | `str` of a natural number is a non-empty string of decimal digits |
| Text.TrimStart | src/unmonitorr/server.py:285-288 | what is left is a suffix of the input, everything removed is white space, and it does not start with white space |
| Text.TrimEnd | src/unmonitorr/server.py:285-288 | what is left is a prefix of the input, everything removed is white space, and it does not end with white space |
| Text.Strip | src/unmonitorr/server.py:285-288 | `strip()` gives a substring of the input with only white space outside it and none at either of its ends |
| Text.Contains | src/unmonitorr/server.py:70 | `needle in hay` holds only when the needle is no longer than the string searched |
| Naming.CamelHasNoUnderscore | src/unmonitorr/types_/base.py:6-9 | the generated alias never contains "_" |
| Naming.CamelOfSegments | src/unmonitorr/types_/base.py:6-9 | the alias of underscore-free segments is the first segment unchanged followed by every later segment capitalized, in order |
| Naming.CamelWithoutUnderscore | src/types_/base.py:4-7 | a name with no "_" is its own alias |
| Naming.CamelIdempotent | src/unmonitorr/types_/base.py:6-9 | generating the alias of an alias changes nothing |
| Naming.CamelOfTwo | src/unmonitorr/types_/base.py:6-9 | the alias of `a_b` is `a` followed by `b` capitalized |
| Naming.CamelOfThree | src/types_/base.py:4-7 | the alias of `a_b_c` is `a` followed by `b` and `c` capitalized |
| Naming.ToCamelCase | src/unmonitorr/types_/base.py:6-9 | the alias starts with the name's first "_"-separated segment, unchanged |
| Naming.SnakeCase | src/utils.py:4-19 | `to_snake_case` output contains no ASCII upper-case letter |
| Naming.SnakeOfLowercase | src/utils.py:18 | a key with no upper-case letter is returned unchanged |
| Naming.SnakeIdempotent | src/utils.py:18 | converting to snake_case twice is converting once |
| Naming.SnakeOfTwoWords | src/utils.py:18 | a lower-case word followed by a capitalized one becomes the two words joined by "_", lower-cased |
| Naming.CapitalizeAllHasNoUnderscore | src/unmonitorr/types_/base.py:9 | capitalizing underscore-free words and joining them introduces no "_" |
| Naming.MarkUpperOfLowercase | src/utils.py:18 | the substitution that inserts "_" before capitals changes nothing in a string without capitals |
| Naming.MarkUpperConcat | src/utils.py:18 | that substitution distributes over concatenation |
| Naming.CamelUndoesMarkUpper | src/utils.py:18-36 | for a string without "_", `to_camel_case` undoes the "_"-insertion and lower-casing of `to_snake_case` |
| Naming.CamelFromSnakeLeavesNoBoundary | src/utils.py:36 | after `to_camel_case` no "_" is followed by a lower-case letter |
| Naming.CamelFromSnakeIdentity | src/utils.py:36 | a string with no "_" followed by a lower-case letter is left alone, so other underscores survive |
| Naming.CamelFromSnakeIdempotent | src/utils.py:22-37 | `to_camel_case` is idempotent |
| Naming.CamelFromSnake | src/utils.py:22-37 | `to_camel_case` never lengthens its input and keeps a non-empty input non-empty |
| Naming.SnakeCamelRoundTrip | src/utils.py:4-37 | for a key with no "_" that does not start upper-case, `to_camel_case(to_snake_case(k)) == k` |
| OpenRecord.OneSegment | src/unmonitorr/types_/base.py:6-9 | a field whose name has no "_" is correctly aliased by its own name |
| OpenRecord.TwoSegments | src/unmonitorr/types_/base.py:6-9 | a two-segment field aliased as first + Capitalize(second) carries the generated alias |
| OpenRecord.ThreeSegments | src/unmonitorr/types_/base.py:6-9 | the same for three segments |
| FieldNames.AliasesGenerated | src/unmonitorr/types_/base.py:6-18 | every alias the model uses (e.g. percent_of_episodes→percentOfEpisodes, size_on_disk→sizeOnDisk) is the generator's output for its field name |
| OpenRecord.Lookup | src/unmonitorr/types_/base.py:13-18 | a field is found iff its alias or its name is a key; the alias wins when both are present |
| OpenRecord.UsedKeys | src/unmonitorr/types_/base.py:13-18 | the keys validation consumes are keys of the input, exactly one per present field |
| OpenRecord.Extras | src/unmonitorr/types_/base.py:13-18 | the extras are exactly the unconsumed input entries, with their values |
| OpenRecord.ExtrasHoldNoAlias | src/unmonitorr/types_/base.py:13-18 | no extra is stored under a field's alias |
| OpenRecord.UnknownKeyIsExtra | src/unmonitorr/types_/base.py:13-18 | a key that is neither a field name nor an alias changes no field value and becomes one more extra |
| OpenRecord.Entries | src/unmonitorr/types_/base.py:13-18 | the dumped field entries have exactly the entries' keys |
| OpenRecord.EntriesValue | src/unmonitorr/types_/base.py:13-18 | with distinct keys each entry's key maps to its own value |
| OpenRecord.EntriesAgree | src/unmonitorr/types_/base.py:13-18 | entries that repeat the input's values agree with the input |
| OpenRecord.UsedKeysAreAliases | src/unmonitorr/types_/base.py:13-18 | when every alias is present the consumed keys are exactly the aliases |
| OpenRecord.DumpRestoresInput | tests/test_api_models.py:220-225 | extras plus every field written under its alias reproduce the input |
| OpenRecord.DumpEntries | tests/test_api_models.py:220-225 | a by-alias dump holds the extras' keys and the aliases, each alias holding its field's value |
| OpenRecord.EntriesKeys | src/unmonitorr/types_/base.py:13-18 | the dumped entries are keyed by exactly the aliases |
| OpenRecord.ExtrasOfDump | src/unmonitorr/types_/base.py:13-18 | reading a dump back gives back its extras, and every alias is present |
| OpenRecord.LookupOfDump | src/unmonitorr/types_/base.py:13-18 | in a dump, field i reads back value i |
| OpenRecord.RawValues | src/unmonitorr/types_/base.py:13-18 | all field values are read, in field order, exactly when every field is present |
| OpenRecord.ParseEach | src/unmonitorr/types_/sonarr.py:45 | a validated `list[...]` has one element per input element |
| OpenRecord.ParseEachAt | src/unmonitorr/types_/sonarr.py:45 | element i of a validated list is what input element i validated to |
| OpenRecord.ParseEachFails | src/unmonitorr/types_/sonarr.py:45 | one element that fails makes the list fail |
| OpenRecord.ParseEachOfAll | src/unmonitorr/types_/sonarr.py:45 | a list whose every element validates validates to those elements |
| OpenRecord.DumpEach | src/unmonitorr/types_/sonarr.py:45 | a dumped list has each element dumped, in order |
| OpenRecord.DumpEachOfParseEach | tests/test_api_models.py:227-232 | dumping a validated list gives the list back when each element round-trips |
| OpenRecord.ParseEachOfDumpEach | src/unmonitorr/types_/sonarr.py:45 | validating a dumped list gives the elements back when each round-trips |
| OpenRecord.EqualByElements | src/unmonitorr/types_/sonarr.py:45 | two value lists equal at every index are equal |
| OpenRecord.Zip | src/unmonitorr/types_/base.py:13-18 | value i is written under alias i |
| OpenRecord.DumpOfRead | tests/test_api_models.py:220-225 | dumping what validation read reproduces an input written by alias, unknown keys included |
| OpenRecord.ReadOfDump | src/unmonitorr/types_/base.py:13-18 | validating a dump gives back the same field values and the same extras |
| OpenRecord.ReadAfterSet | src/unmonitorr/types_/radarr.py:15-17 | writing a new value under one alias changes exactly that field's value |
| OpenRecord.ExtrasAfterSet | src/unmonitorr/types_/radarr.py:15-17 | writing a new value under an alias leaves the extras unchanged |
| RadarrTypes.MovieValues | src/unmonitorr/types_/radarr.py:6-13 | a movie has one value per declared field |
| RadarrTypes.MovieFromValues | src/unmonitorr/types_/radarr.py:6-13 | a type-checked movie holds exactly the values and extras it was built from |
| RadarrTypes.MovieFromOwnValues | src/unmonitorr/types_/radarr.py:6-13 | a movie's own values type-check back to it |
| RadarrTypes.ParseMovie | tests/test_api_models.py:200-205 | a validated movie comes from an object and is well formed; every field is the value read for it (alias first, then name) and the extras are exactly the unread keys |
| RadarrTypes.MovieAliasesDistinct | src/unmonitorr/types_/radarr.py:6-13 | the seven aliases are distinct |
| RadarrTypes.DumpOfParse | tests/test_api_models.py:220-225 | dumping a validated movie by alias reproduces the input dictionary exactly |
| RadarrTypes.DumpMovie | src/unmonitorr/arrs/radarr.py:111 | `model_dump(by_alias=True)` has the extras' keys and the seven aliases, each alias holding its field's value |
| RadarrTypes.ParseOfDump | src/unmonitorr/types_/radarr.py:6-13 | validating a dumped movie gives the movie back |
| RadarrTypes.UnmonitoredMovie | src/unmonitorr/types_/radarr.py:15-17 | unmonitoring sets `monitored` false and changes no other field, extras included |
| RadarrTypes.UnmonitorMovieIdempotent | src/unmonitorr/types_/radarr.py:15-17 | unmonitoring twice is unmonitoring once |
| RadarrTypes.MovieFromValuesUnmonitored | src/unmonitorr/types_/radarr.py:15-17 | type-checking with `monitored` set to false gives the unmonitored movie |
| RadarrTypes.UnmonitoredParse | src/unmonitorr/types_/radarr.py:15-17 | an input with "monitored" set to false validates to the unmonitored movie |
| RadarrTypes.UnmonitoredDump | src/unmonitorr/types_/radarr.py:15-17 | the unmonitored movie dumps to Radarr's answer with "monitored" false and nothing else changed |
| RadarrTypes.RadarrAPIMovie.Value | src/unmonitorr/types_/radarr.py:6-13 | the object's value carries its id and monitored flag |
| RadarrTypes.RadarrAPIMovie.constructor | src/unmonitorr/types_/radarr.py:6-13 | a new object holds the given record |
| RadarrTypes.RadarrAPIMovie.Unmonitor | src/unmonitorr/types_/radarr.py:15-17 | `unmonitor` changes the object to the unmonitored record |
| RadarrTypes.BoolToString | src/unmonitorr/types_/radarr.py:25 | a bool is written "True" exactly when true and "False" exactly when false |
| RadarrTypes.RadarrAPIMovie.ToString | src/unmonitorr/types_/radarr.py:22-26 | `__str__` starts with the id and the title label and ends with the monitored flag in Python's spelling |
| SonarrTypes.SeasonCompleteIsStatsComplete | src/unmonitorr/types_/sonarr.py:12-26 | `Season.is_complete` and `SeasonStatistics.is_complete` are the same exact-100 test |
| SonarrTypes.SeasonStatsAliasesDistinct | src/unmonitorr/types_/sonarr.py:6-10 | the season statistics aliases are distinct |
| SonarrTypes.SeasonStatsValues | src/unmonitorr/types_/sonarr.py:6-10 | season statistics have one value per declared field |
| SonarrTypes.SeasonStatsFromValues | src/unmonitorr/types_/sonarr.py:6-10 | type-checked season statistics hold exactly their values and extras |
| SonarrTypes.SeasonStatsFromOwnValues | src/unmonitorr/types_/sonarr.py:6-10 | season statistics type-check back from their own values |
| SonarrTypes.ParseSeasonStats | src/unmonitorr/types_/sonarr.py:6-10 | validated season statistics are well formed and hold the input's percentOfEpisodes |
| SonarrTypes.DumpOfParseSeasonStats | tests/test_api_models.py:227-232 | dumping validated season statistics reproduces their input |
| SonarrTypes.ParseOfDumpSeasonStats | src/unmonitorr/types_/sonarr.py:6-10 | validating dumped season statistics gives them back |
| SonarrTypes.SeasonAliasesDistinct | src/unmonitorr/types_/sonarr.py:18-21 | the season aliases are distinct |
| SonarrTypes.SeasonValues | src/unmonitorr/types_/sonarr.py:18-21 | a season has one value per declared field |
| SonarrTypes.SeasonFromValues | src/unmonitorr/types_/sonarr.py:18-21 | a type-checked season holds its number, monitored flag, validated statistics and extras |
| SonarrTypes.SeasonStatsValueOfFromValues | src/unmonitorr/types_/sonarr.py:18-21 | a season's statistics dump back to the nested input |
| SonarrTypes.SeasonValuesOfFromValues | src/unmonitorr/types_/sonarr.py:18-21 | a type-checked season's values are its inputs |
| SonarrTypes.SeasonFromValuesOf | src/unmonitorr/types_/sonarr.py:18-21 | a season with valid statistics type-checks to the record of those parts |
| SonarrTypes.SeasonFromOwnValues | src/unmonitorr/types_/sonarr.py:18-21 | a season type-checks back from its own values |
| SonarrTypes.ParseSeason | src/unmonitorr/types_/sonarr.py:18-21 | a validated season is well formed and holds the input's monitored flag |
| SonarrTypes.DumpOfParseSeason | tests/test_api_models.py:227-232 | dumping a validated season reproduces its input |
| SonarrTypes.ParseOfDumpSeason | src/unmonitorr/types_/sonarr.py:18-21 | validating a dumped season gives it back |
| SonarrTypes.SeasonDumpsBack | tests/test_api_models.py:227-232 | every validated season dumps back to its input |
| SonarrTypes.SeasonParsesBack | src/unmonitorr/types_/sonarr.py:18-21 | every well-formed season validates back from its dump |
| SonarrTypes.DumpOfParseSeasonList | tests/test_api_models.py:227-232 | a validated season list dumps back to the input list |
| SonarrTypes.DumpSeasonAt | tests/test_api_models.py:227-232 | season i of a validated list dumps back to input element i |
| SonarrTypes.ParseOfDumpSeasonList | src/unmonitorr/types_/sonarr.py:45 | a dumped season list validates back to the seasons |
| SonarrTypes.SeriesStatsAliasesDistinct | src/unmonitorr/types_/sonarr.py:33-38 | the series statistics aliases are distinct |
| SonarrTypes.SeriesStatsValues | src/unmonitorr/types_/sonarr.py:33-38 | series statistics have one value per declared field |
| SonarrTypes.SeriesStatsFromValues | src/unmonitorr/types_/sonarr.py:33-38 | type-checked series statistics hold exactly their values and extras |
| SonarrTypes.SeriesStatsFromOwnValues | src/unmonitorr/types_/sonarr.py:33-38 | series statistics type-check back from their own values |
| SonarrTypes.ParseSeriesStats | src/unmonitorr/types_/sonarr.py:33-38 | validated series statistics are well formed and hold the input's percentOfEpisodes |
| SonarrTypes.DumpOfParseSeriesStats | tests/test_api_models.py:227-232 | dumping validated series statistics reproduces their input |
| SonarrTypes.ParseOfDumpSeriesStats | src/unmonitorr/types_/sonarr.py:33-38 | validating dumped series statistics gives them back |
| SonarrTypes.SeriesAliasesDistinct | src/unmonitorr/types_/sonarr.py:41-51 | the series aliases are distinct |
| SonarrTypes.SeriesValuesWith | src/unmonitorr/types_/sonarr.py:41-51 | a series has one value per declared field |
| SonarrTypes.SeriesValues | src/unmonitorr/types_/sonarr.py:41-51 | a series has one value per declared field |
| SonarrTypes.SeasonsOf | src/unmonitorr/types_/sonarr.py:45 | the seasons value is a list whose every element validates as a season |
| SonarrTypes.SeriesFromValues | src/unmonitorr/types_/sonarr.py:41-51 | a type-checked series holds its scalar values, validated seasons and statistics, and extras |
| SonarrTypes.SeriesSeasonsOfFromValues | src/unmonitorr/types_/sonarr.py:41-51 | a series' seasons dump back to the nested input list |
| SonarrTypes.SeriesStatsOfFromValues | src/unmonitorr/types_/sonarr.py:41-51 | a series' statistics dump back to the nested input |
| SonarrTypes.SeriesValuesWithOf | src/unmonitorr/types_/sonarr.py:41-51 | values that repeat a series' fields are that series' values |
| SonarrTypes.SeriesValuesOfFromValues | src/unmonitorr/types_/sonarr.py:41-51 | a type-checked series' values are its inputs |
| SonarrTypes.SeriesFromValuesOf | src/unmonitorr/types_/sonarr.py:41-51 | a series with valid nested parts type-checks back to itself |
| SonarrTypes.SeriesFromOwnValues | src/unmonitorr/types_/sonarr.py:41-51 | a well-formed series type-checks back from its own values |
| SonarrTypes.ParseSeries | src/unmonitorr/types_/sonarr.py:41-51 | a validated series comes from an object, and its id, title, monitored and ended are the values read from the input |
| SonarrTypes.ParseSeriesReadsFields | src/unmonitorr/types_/sonarr.py:41-51 | every field of a validated series is the value read for it: scalars as read, seasons and statistics validated from the nested values, the unread keys as extras |
| SonarrTypes.ParsedSeriesWellFormed | src/unmonitorr/types_/sonarr.py:41-51 | what validation produces is well formed at every level |
| SonarrTypes.FromValuesWellFormed | src/unmonitorr/types_/sonarr.py:41-51 | the nested records of a type-checked series are well formed |
| SonarrTypes.ParsedSeasonsWellFormed | src/unmonitorr/types_/sonarr.py:45 | every validated season is well formed |
| SonarrTypes.DumpOfParseSeries | tests/test_api_models.py:227-232 | dumping a validated series by alias reproduces the input dictionary, nested records and unknown keys included |
| SonarrTypes.DumpSeries | tests/test_api_models.py:227-232 | `model_dump(by_alias=True)` has the extras' keys and the ten aliases, each alias holding its field's value |
| SonarrTypes.ParseOfDumpSeries | src/unmonitorr/types_/sonarr.py:41-51 | validating a dumped series gives it back |
| SonarrTypes.UnmonitoredSeries | src/unmonitorr/types_/sonarr.py:63-65 | `unmonitor_series` sets `monitored` false and changes no other field, extras and seasons included |
| SonarrTypes.UnmonitorSeriesIdempotent | src/unmonitorr/types_/sonarr.py:63-65 | unmonitoring a series twice is unmonitoring it once |
| SonarrTypes.SeriesFromValuesUnmonitored | src/unmonitorr/types_/sonarr.py:63-65 | type-checking with `monitored` false gives the unmonitored series |
| SonarrTypes.UnmonitoredSeriesParse | tests/test_api_models.py:216-218 | an input with "monitored" false validates to the unmonitored series |
| SonarrTypes.UnmonitoredSeriesDump | src/unmonitorr/types_/sonarr.py:63-65 | the unmonitored series dumps to Sonarr's answer with "monitored" false and nothing else changed |
| SonarrTypes.Season.Value | src/unmonitorr/types_/sonarr.py:18-21 | the object's value carries its monitored flag |
| SonarrTypes.Season.constructor | src/unmonitorr/types_/sonarr.py:18-21 | a new season object holds the given record |
| SonarrTypes.Season.IsComplete | src/unmonitorr/types_/sonarr.py:23-26 | a season is complete iff its statistics say exactly 100 percent |
| SonarrTypes.Season.Unmonitor | src/unmonitorr/types_/sonarr.py:28-30 | `unmonitor` sets only this season's `monitored` to false |
| SonarrTypes.SonarrAPISeries.Value | src/unmonitorr/types_/sonarr.py:41-51 | the object's value carries its monitored flag, id and ended flag |
| SonarrTypes.SonarrAPISeries.constructor | src/unmonitorr/types_/sonarr.py:41-51 | a new series object holds the given record, with fresh season objects |
| SonarrTypes.SonarrAPISeries.IsComplete | src/unmonitorr/types_/sonarr.py:53-56 | a series is complete iff its statistics say exactly 100 percent (tests/test_api_models.py:214) |
| SonarrTypes.SonarrAPISeries.IsEnded | src/unmonitorr/types_/sonarr.py:58-61 | `is_ended` is the `ended` field |
| SonarrTypes.SonarrAPISeries.UnmonitorSeries | src/unmonitorr/types_/sonarr.py:63-65 | `unmonitor_series` changes the object to the unmonitored record |
| Webhook.ParseWebhookMovie | src/unmonitorr/types_/webhook.py:12-22 | a validated movie holds the id, title, year and folderPath the object gave |
| Webhook.WebhookMovieValidates | src/unmonitorr/types_/webhook.py:12-22 | an object with those four fields of the declared kinds validates to them, whatever else it holds |
| Webhook.ParseRadarrPayload | src/unmonitorr/types_/webhook.py:25-29 | a validated movie payload has a valid "movie" object and the eventType, instanceName and applicationUrl strings |
| Webhook.RadarrPayloadValidates | src/unmonitorr/types_/webhook.py:25-29 | a body with a valid movie object and the three envelope strings validates to them |
| Webhook.ParseWebhookSeries | src/unmonitorr/types_/webhook.py:32-42 | a validated series holds the id, title, path and year the object gave |
| Webhook.WebhookSeriesValidates | src/unmonitorr/types_/webhook.py:32-42 | an object with those four fields validates to them |
| Webhook.ParseWebhookEpisode | src/unmonitorr/types_/webhook.py:45-59 | a validated episode holds the id, episodeNumber, seasonNumber, title and seriesId the object gave |
| Webhook.WebhookEpisodeValidates | src/unmonitorr/types_/webhook.py:45-59 | an object with those five fields validates to them |
| Webhook.ParseEpisodeList | src/unmonitorr/types_/webhook.py:64 | an episode list validates iff every element does, keeping length and order |
| Webhook.ParseSingletonEpisodeList | src/unmonitorr/types_/webhook.py:64 | a one-element list validates iff its element does |
| Webhook.ParseSonarrPayload | src/unmonitorr/types_/webhook.py:62-67 | a validated series payload has a valid series object, an episodes list of valid episodes, and the three envelope strings |
| Webhook.SonarrPayloadValidates | src/unmonitorr/types_/webhook.py:62-67 | a body with those parts validates to them |
| Webhook.EpisodeIdsToUnmonitor | src/unmonitorr/types_/webhook.py:69-71 | one id per episode |
| Webhook.EpisodeIdsFollowBody | src/unmonitorr/types_/webhook.py:69-71 | the ids are the "id" values of the body's episode objects, in body order |
| Webhook.Classify | src/unmonitorr/server.py:104-115 | the movie shape is tried first: movie iff it validates, series iff only the series shape does, otherwise unrecognised |
| Webhook.IsTestEvent | src/unmonitorr/server.py:70 | `"test" in event_type.lower()`: the lower-cased event type contains "test"; its contract adds that such an event type has at least four characters |
| Webhook.NoMovieKeyNoMovie | src/unmonitorr/types_/webhook.py:25-29 | a body without "movie" never validates as a movie payload |
| Webhook.NoSeriesKeysNoSeries | src/unmonitorr/types_/webhook.py:62-67 | a body without "series" or "episodes" never validates as a series payload |
| WebhookExamples.RadarrTestPayloadValidates | tests/test_webhook_payloads.py:12-41 | the Radarr test body, extra keys included, validates with event type "Test" and its title and year |
| WebhookExamples.SonarrTestEpisodeValidates | tests/test_webhook_payloads.py:44-78 | the test episode validates to its values |
| WebhookExamples.SonarrTestSeriesValidates | tests/test_webhook_payloads.py:44-78 | the test series validates to its values |
| WebhookExamples.SonarrTestPayloadValidates | tests/test_webhook_payloads.py:44-78 | the Sonarr test body validates with its series, episode id and event type |
| WebhookExamples.TestBodiesClassified | tests/test_webhook_payloads.py:12-78 | the Radarr test body is a movie payload and the Sonarr one a series payload |
| WebhookExamples.TestEventRecognised | src/unmonitorr/server.py:70-73 | "Test" counts as a test event |
| ArrBase.NewHttpException | src/unmonitorr/arrs/arrbase.py:15-29 | the exception copies status, url, method and reason; its text is "HTTP {status} {reason} for {method} {url}", followed by " \| Details: {message}" iff the message is non-empty |
| ArrBase.NoMessageDetails | src/unmonitorr/arrs/arrbase.py:25-29 | without a message the text is the head alone |
| ArrBase.BaseArrClient.constructor | src/unmonitorr/arrs/arrbase.py:39-54 | a client holds the given uri and api key |
| ArrBase.BaseArrClient.BaseUrl | src/unmonitorr/arrs/arrbase.py:61-64 | `base_url` is the uri followed by "/api/v3" |
| ArrBase.BaseArrClient.Headers | src/unmonitorr/arrs/arrbase.py:66-69 | the headers are exactly X-API-Key (the api key) and Accept (application/json) |
| ArrBase.BaseArrClient.UpdateClientConfig | src/unmonitorr/arrs/arrbase.py:71-74 | after the update the uri and api key are the new ones, `disabled` holds iff one is empty, and `base_url` and `headers` follow them |
| RadarrApi.MovieUrl | src/unmonitorr/arrs/radarr.py:58 | the movie URL is the base URL, "/movie/", then the id |
| RadarrApi.GetMovieByIdRequest | src/unmonitorr/arrs/radarr.py:58-62 | `get_movie_by_id` sends GET to the movie URL with the client headers and no body |
| RadarrApi.DeleteMovieRequest | src/unmonitorr/arrs/radarr.py:83-87 | `delete_movie` sends DELETE to the movie URL with no body |
| RadarrApi.PutUpdatedMovieRequest | src/unmonitorr/arrs/radarr.py:105-111 | `put_updated_movie` sends PUT to the movie URL with the by-alias dump as body |
| RadarrApi.PutBodyValidates | src/unmonitorr/arrs/radarr.py:105-111 | the PUT body validates back to the movie it was built from |
| RadarrApi.MovieFetch | src/unmonitorr/arrs/radarr.py:58-72 | an HTTP error gives None, an answer that does not validate raises, one that validates gives the record |
| RadarrApi.FetchedMovieFields | tests/test_api_models.py:200-205 | a fetched movie carries the id, title and monitored the answer gave |
| Gateway.SeriesFetch | src/unmonitorr/server.py:181-185 | the Sonarr fetch behaves as the Radarr one: error→None, invalid→raise, valid→record |
| Gateway.Gateway.constructor | src/unmonitorr/server.py:27-37 | a new gateway has recorded no call and answers fetches from the given server answers |
| Gateway.Gateway.GetMovieById | src/unmonitorr/arrs/radarr.py:44-72 | records GetMovie(id) and gives a fresh record object exactly when the answer validates |
| Gateway.Gateway.DeleteMovieById | src/unmonitorr/arrs/radarr.py:74-94 | records DeleteMovie(id) |
| Gateway.Gateway.PutUpdatedMovie | src/unmonitorr/arrs/radarr.py:96-119 | records PutMovie of the record as it is at the call |
| Gateway.Gateway.UnmonitorEpisodesOf | src/unmonitorr/server.py:167-169 | records UnmonitorEpisodes with the payload's ids in order |
| Gateway.Gateway.GetSeriesById | src/unmonitorr/server.py:181-185 | records GetSeries(id) and gives fresh series and season objects exactly when the answer validates |
| Gateway.Gateway.DeleteSeriesOf | src/unmonitorr/server.py:197-201 | records DeleteSeries of the webhook's series id with the exclusion argument given |
| Gateway.Gateway.PutUpdatedSeries | src/unmonitorr/server.py:202-205 | records PutSeries of the record as it is at the call |
| Gateway.Gateway.PingServer | src/unmonitorr/server.py:355-359 | records the ping and gives the server's answer |
| Policies.Count | src/unmonitorr/server.py:151-207 | a count of calls never exceeds the number of calls |
| Policies.CountConcat | src/unmonitorr/server.py:151-207 | counting a concatenation adds the counts |
| Policies.CountNone | src/unmonitorr/server.py:151-207 | no matching call means a count of zero |
| Policies.MovieCalls | src/unmonitorr/server.py:133-149 | `handle_movie` with Radarr enabled makes one or two calls, all of them Radarr calls |
| Policies.MovieRemoveMediaDeletesOnly | src/unmonitorr/server.py:133-136 | with remove_media the only call is DeleteMovie(movie.id), and nothing raises |
| Policies.MovieUnmonitorFetchesThenPuts | src/unmonitorr/server.py:139-149 | without remove_media the movie is fetched once, and a PutMovie follows iff the fetch gave a record, which is put with monitored false |
| Policies.MoviePutIsAnswerUnmonitored | src/unmonitorr/server.py:139-149 | the body put back is Radarr's answer with "monitored" false and every other key as sent |
| Policies.SeriesCallsWithoutRecord | src/unmonitorr/server.py:181-185 | with series handled and no record fetched, the calls are the episode call (if any) and the fetch |
| Policies.SeriesCallsWithRecord | src/unmonitorr/server.py:181-207 | with a record fetched, the fetch is followed by the one mutation exactly when the record is eligible |
| Policies.Eligible | src/unmonitorr/server.py:186-196 | only a complete series is handled, and with handle_series_ended_only only an ended one |
| Policies.SeriesCalls | src/unmonitorr/server.py:164-207 | `handle_series` with Sonarr enabled makes at most three calls, all of them Sonarr calls |
| Policies.StageHasNoEpisodeCall | src/unmonitorr/server.py:174-207 | the series stage never unmonitors episodes |
| Policies.EpisodesIffHandleEpisodes | src/unmonitorr/server.py:167-169 | UnmonitorEpisodes is made iff handle_episodes, at most once, first, with the payload's ids, whatever handle_series is |
| Policies.NoSeriesStageWithoutHandleSeries | src/unmonitorr/server.py:174-178 | without handle_series no fetch or mutation follows the episode call |
| Policies.AtMostOneSeriesMutation | src/unmonitorr/server.py:187-207 | at most one series mutation, made iff series are handled, the fetch gave a record and `(!ended_only \|\| ended) && complete` |
| Policies.SeriesMutationKind | src/unmonitorr/server.py:197-207 | the mutation is the last call, right after the fetch: DeleteSeries(id, exclude) under remove_media, else PutSeries of the record with monitored false |
| Policies.SeriesPutIsAnswerUnmonitored | src/unmonitorr/server.py:202-205 | the series put back is Sonarr's answer with "monitored" false and every other key, nested ones included, as sent |
| Policies.RouteOf | src/unmonitorr/server.py:61-85 | unrecognised bodies are dropped, recognised ones whose event type contains "test" in any case are acknowledged, others go to the handler of their kind |
| Policies.RouteCalls | src/unmonitorr/server.py:61-85 | a dropped or acknowledged body makes no call; a movie body only Radarr calls, a series body only Sonarr calls |
| Policies.NoCallsForDroppedOrTest | src/unmonitorr/server.py:61-73 | a dropped or test body makes no client call and raises nothing |
| Policies.DisabledMeansNoCalls | src/unmonitorr/server.py:125-161 | a disabled client means its handler makes no call |
| Policies.OneHandlerPerBody | src/unmonitorr/server.py:81-85 | a movie body makes only Radarr calls, any other body only Sonarr calls, and a body matching both shapes is a movie |
| Server.TryShape | src/unmonitorr/server.py:104-113 | trying one model gives that model's payload iff it validates, never the other kind |
| Server.ValidatePayload | src/unmonitorr/server.py:90-115 | the loop over the models returns the classification: first match wins, none gives Unrecognized |
| Server.RunMoviePolicy | src/unmonitorr/server.py:128-149 | appends exactly the movie policy's calls and raises exactly when the fetched answer is invalid |
| Server.RunSeriesPolicy | src/unmonitorr/server.py:162-207 | appends exactly the series policy's calls and raises exactly when a needed fetch is invalid |
| Server.AppendCalls | src/unmonitorr/server.py:162-207 | calls appended piece by piece are the concatenation of the pieces |
| Server.HandlerPolicy | src/unmonitorr/server.py:197-201 | the current server reads the rules from the config and always passes `exclude` |
| Server.WebhookHandler.constructor | src/unmonitorr/server.py:27-37 | two separate, newly built clients, each from its server's uri and api key in the config |
| Server.WebhookHandler.HandleMovie | src/unmonitorr/server.py:117-149 | the calls and the raise are those of the movie route, gated on the Radarr client |
| Server.WebhookHandler.HandleSeries | src/unmonitorr/server.py:151-207 | the calls and the raise are those of the series route, gated on the Sonarr client |
| Server.WebhookHandler.GenericHandler | src/unmonitorr/server.py:39-88 | the route is `RouteOf(body)` and the calls and raise are exactly that route's |
| Server.FormText | src/unmonitorr/server.py:285-288 | a form text is the stripped value, or "" when absent |
| Server.GroupsCoverSettings | src/unmonitorr/server.py:297-324 | the three groups compared cover every setting: some group changed iff the values differ |
| Server.ValueOrMissing | src/unmonitorr/server.py:337-338 | an absent or empty value becomes "MISSING" |
| Server.PingRequest | src/unmonitorr/server.py:350-351 | the connection test is GET "{uri}/api" with exactly the JSON content type and the api key |
| Server.Configurator.constructor | src/unmonitorr/server.py:244-246 | the configurator holds the config and handler |
| Server.Configurator.UpdateRadarrClient | src/unmonitorr/server.py:248-258 | the Radarr client takes the new uri and api key |
| Server.Configurator.UpdateSonarrClient | src/unmonitorr/server.py:260-270 | the Sonarr client takes the new uri and api key |
| Server.Configurator.SaveRadarrSettings | src/unmonitorr/server.py:297-302 | the Radarr group is stored, and the client updated, iff it changed |
| Server.Configurator.SaveSonarrSettings | src/unmonitorr/server.py:304-309 | the Sonarr group is stored, and the client updated, iff it changed |
| Server.Configurator.SaveRules | src/unmonitorr/server.py:311-324 | the five flags are stored together iff any differs |
| Server.Configurator.StoreForm | src/unmonitorr/server.py:295-324 | the settings become the form's; `is_updated` holds iff some setting differed; a client is updated only when its group changed |
| Server.Configurator.ApplyForm | src/unmonitorr/server.py:295-328 | as StoreForm, and `save()` is called iff some group changed |
| Server.Configurator.SaveConfig | src/unmonitorr/server.py:280-332 | a POST sets each flag iff its form value is "on", applies the form and answers 200; any other method answers 405 and changes nothing |
| Server.Configurator.PingArrServer | src/unmonitorr/server.py:334-363 | a missing uri or api key is answered 401 without any request; otherwise one ping is made and its error status and reason, or its answer, are passed back |
| Config.ToDict | src/unmonitorr/config.py:76-87 | `to_dict` has exactly the nine keys, each with its setting's value |
| Config.TextOr | src/unmonitorr/config.py:62-74 | a text setting takes the dictionary's string when present and keeps its value when absent |
| Config.FlagOr | src/unmonitorr/config.py:62-74 | a flag takes the dictionary's boolean when present and keeps its value when absent |
| Config.FromDictOfToDict | src/unmonitorr/config.py:62-87 | `from_dict(to_dict())` gives the settings back, whatever was there before |
| Config.FromDictWithoutKeys | src/unmonitorr/config.py:62-74 | a dictionary with none of the keys changes nothing |
| Config.FromDict | src/unmonitorr/config.py:62-74 | each of the nine settings either keeps its value or takes the dictionary's value under its key |
| Config.SettingsName | src/unmonitorr/config.py:44-46 | "Unmonitor Only" iff not remove_media, "Remove Item" iff remove_media |
| Config.LogLevel | src/unmonitorr/config.py:90-102 | a known level name gives its mapped value, any other gives 20 |
| Config.LogLevelsByName | src/unmonitorr/config.py:94-102 | the five names map to 10–50; unknown spellings such as "INFO" give 20 |
| Config.Config.constructor | src/unmonitorr/config.py:24-60 | defaults are applied (empty uris and keys, episodes on, series off, ended only on, exclude on, remove off), then a stored dictionary is read, or the defaults are saved |
| Config.Config.Settings | src/unmonitorr/config.py:44-46 | the label of the current remove_media |
| Config.Config.Dict | src/unmonitorr/config.py:76-87 | the dictionary reads back to the current settings |
| Config.Config.Save | src/unmonitorr/config.py:48-51 | `save` writes the current dictionary and changes no setting |
| Config.Config.FromDictInPlace | src/unmonitorr/config.py:62-74 | each field takes the dictionary's value for its key or keeps its own |
| LegacyConfig.EnvOr | src/config.py:13-22 | `os.getenv(key, default)` |
| LegacyConfig.PortOr | src/config.py:15-21 | an unset port is the default, a set one is converted |
| LegacyConfig.EnvFlag | src/config.py:25-31 | `os.getenv(key, default).lower() == "true"`; its contract adds that only a four-character value can set a flag, and LegacyConfig.FlagFromSetVariable states the iff for a set variable |
| LegacyConfig.FromEnv | src/config.py:13-31 | the settings exist iff both ports convert, and hold the converted ports |
| LegacyConfig.DefaultsWithoutEnv | src/config.py:13-31 | with nothing set: http on 7878/8989, no hosts or keys, episodes, ended only and exclude on, series and remove off |
| LegacyConfig.FlagFromSetVariable | src/config.py:25-31 | a set flag is true iff its value lower-cased is "true" |
| LegacyConfig.FlagSpellings | src/config.py:25-31 | "True" and "TRUE" switch a flag on; "1" and "yes" do not |
| LegacyConfig.RequiredVars | src/config.py:36-44 | `validate` checks four variables |
| LegacyConfig.EmptyNames | src/config.py:36-44 | at most one name is reported per variable checked |
| LegacyConfig.Validate | src/config.py:33-47 | passes iff nothing is missing; otherwise fails with "Missing required environment variables: " and the missing names joined by ", " |
| LegacyConfig.EmptyNamesIff | src/config.py:36-44 | a name is reported iff its variable is empty |
| LegacyConfig.EmptyNamesInOrder | src/config.py:36-44 | reported names keep the order of the checks |
| LegacyConfig.MissingVarsUnrolled | src/config.py:36-44 | RADARR_HOST, RADARR_API_KEY, SONARR_HOST, SONARR_API_KEY, each iff empty, in that order |
| LegacyConfig.MissingExtremes | src/config.py:36-47 | all present: nothing missing; all empty: all four, in order |
| LegacyConfig.OnlySonarrKeyMissing | src/config.py:46-47 | the message names SONARR_API_KEY alone when only it is unset |
| LegacyConfig.LogLevelOf | src/config.py:54-66 | LOG_LEVEL unset or unknown gives 20; a known name gives its mapped value |
| LegacyConfig.SettingsLabel | src/config.py:49-51 | "Unmonitor Only" iff not REMOVE_MEDIA, else "Remove Item" |
| LegacyTypes.OneWordSnakeNames | src/types_.py:6-31 | the one-word allowed keys are their own snake_case names |
| LegacyTypes.ShortSnakeNames | src/types_.py:6-31 | the short allowed keys are their own snake_case names |
| LegacyTypes.SnakeOfCamelPair | src/utils.py:18 | `aB…` becomes `a_b…` |
| LegacyTypes.TmdbIdSnake | src/types_.py:6-13 | tmdbId→tmdb_id |
| LegacyTypes.FolderPathSnake | src/types_.py:6-13 | folderPath→folder_path |
| LegacyTypes.EpisodeNumberSnake | src/types_.py:23-31 | episodeNumber→episode_number |
| LegacyTypes.SeasonNumberSnake | src/types_.py:23-31 | seasonNumber→season_number |
| LegacyTypes.SeriesIdSnake | src/types_.py:23-31 | seriesId→series_id |
| LegacyTypes.AirDateSnake | src/types_.py:23-31 | airDate→air_date |
| LegacyTypes.SnakeInjectiveOnCamelKeys | src/utils.py:4-37 | no two camelCase keys share a snake_case name |
| LegacyTypes.MovieKeysInjective | src/types_.py:6-13 | the allowed movie keys have distinct snake_case names |
| LegacyTypes.SeriesKeysInjective | src/types_.py:15-21 | the allowed series keys have distinct snake_case names |
| LegacyTypes.EpisodeKeysInjective | src/types_.py:23-31 | the allowed episode keys have distinct snake_case names |
| LegacyTypes.SnakeImage7 | src/types_.py:23-31 | the snake_case names of seven keys |
| LegacyTypes.SnakeImage5 | src/types_.py:15-21 | the snake_case names of five keys |
| LegacyTypes.SnakeImage6 | src/types_.py:6-13 | the snake_case names of six keys |
| LegacyTypes.MovieSnakeNames | src/types_.py:6-49 | the snake_case names of the allowed movie keys are exactly the Movie fields |
| LegacyTypes.SeriesSnakeNames | src/types_.py:15-88 | the same for Series (without episodes) |
| LegacyTypes.EpisodeSnakeNames | src/types_.py:23-68 | the same for Episode |
| LegacyTypes.Kwargs | src/types_.py:46-48 | the keyword arguments are exactly the snake_case names of the allowed keys present, each with its key's value |
| LegacyTypes.KwargsCoverFields | src/types_.py:35-49 | every field gets a value iff every allowed key is in the payload |
| LegacyTypes.KwargsIgnoreOthers | src/types_.py:46-48 | keys outside the allowed set do not reach the arguments |
| LegacyTypes.MovieOfKwargs | src/types_.py:34-41 | `Movie(**kw)` succeeds iff exactly the fields are given |
| LegacyTypes.EpisodeOfKwargs | src/types_.py:52-61 | `Episode(**kw)` succeeds iff exactly the fields are given |
| LegacyTypes.SeriesOfKwargs | src/types_.py:71-79 | `Series(**kw, episodes=…)` succeeds iff exactly the fields are given, with those episodes |
| LegacyTypes.MapOrFail | src/types_.py:87 | the comprehension succeeds iff no element fails, giving one result per element in order |
| LegacyTypes.MovieFromPayload | src/types_.py:43-49 | a movie is built only from a dictionary under "movie" |
| LegacyTypes.MovieFromPayloadSpec | src/types_.py:43-49 | a movie is built iff `data["movie"]` is a dictionary holding every allowed key; each field holds its camelCase key's value |
| LegacyTypes.EpisodeFromPayloadSpec | src/types_.py:63-68 | an episode is built iff every allowed key is present; each field holds its key's value |
| LegacyTypes.EpisodeFromPayload | src/types_.py:63-68 | a built episode holds the payload's "id" |
| LegacyTypes.MovieIgnoresOtherKeys | src/types_.py:43-49 | a key outside the allowed set does not change the movie built |
| LegacyTypes.EpisodeIgnoresOtherKeys | src/types_.py:63-68 | a key outside the allowed set does not change the episode built |
| LegacyTypes.SeriesFromPayloadSpec | src/types_.py:81-88 | a series is built iff `data["series"]` holds every allowed key and `data["episodes"]` gives episodes, one per element in order |
| LegacyTypes.EpisodesOf | src/types_.py:83-87 | a list gives one episode per element; any other iterable value gives no episodes |
| LegacyTypes.SeriesFromPayload | src/types_.py:81-88 | a built series holds the episodes of `data["episodes"]` |
| LegacyTypes.KwargsOfFive | src/types_.py:84-86 | the keyword arguments of five keys with distinct snake_case names |
| LegacyTypes.SeriesKwargs | src/types_.py:84-88 | `Series(**kwargs, episodes=…)` for a series dictionary |
| LegacyArrs.ServerUri | src/arrs/radarr.py:34 | the server address is "{proto}://{host}:{port}" |
| LegacyArrs.SonarrBaseUrl | src/arrs/sonarr.py:32 | the Sonarr base URL is the uri followed by "/api/v3" |
| LegacyArrs.RadarrBaseUrl | src/arrs/radarr.py:34 | the Radarr base URL is "{proto}://{host}:{port}/api/v3" |
| LegacyArrs.ClientHeaders | src/arrs/radarr.py:35 | the headers are exactly X-API-Key and Accept: application/json |
| LegacyArrs.HeadersAgree | src/arrs/sonarr.py:33 | the legacy headers are the current client's headers |
| LegacyArrs.RadarrClient.constructor | src/arrs/radarr.py:26-37 | the client keeps its settings and derives its base URL and headers from them |
| LegacyArrs.SonarrClient.constructor | src/arrs/sonarr.py:26-35 | the client keeps its uri and key and derives its base URL and headers from them |
| LegacyArrs.ResponseOrNone | src/arrs/sonarr.py:54-64 | an HTTP error gives None; otherwise the response unchanged |
| LegacyArrs.IdText | src/arrs/radarr.py:99 | an id is formatted as its integer or its string; other values cannot be formatted |
| LegacyArrs.ItemUrl | src/arrs/radarr.py:53 | an item URL is the base, the resource path, then the id |
| LegacyArrs.ItemUrlInjective | src/arrs/radarr.py:53 | different ids give different item URLs |
| LegacyArrs.GetMovieRequest | src/arrs/radarr.py:53-66 | `get_movie` sends GET to "/movie/{id}" with the client headers |
| LegacyArrs.DeleteMovieRequest | src/arrs/radarr.py:77-88 | `delete_movie` sends DELETE to the same URL |
| LegacyArrs.UnmonitorMovieRequest | src/arrs/radarr.py:99-104 | `unmonitor_movie` sends PUT to "/movie/{data['id']}" with `data` as the body; no request without a formattable id |
| LegacyArrs.MovieRequestsAgree | src/arrs/radarr.py:53-88 | the legacy GET and DELETE are the current client's requests for the same server |
| LegacyArrs.UnmonitorMoviePutsWhereFetched | src/arrs/radarr.py:53-104 | a movie is put back to the URL it was fetched from |
| LegacyArrs.GetEpisodeRequest | src/arrs/sonarr.py:52-64 | `get_episode` sends GET to "/episode/{id}" |
| LegacyArrs.GetSeriesRequest | src/arrs/sonarr.py:135-147 | `get_series` sends GET to "/series/{id}" |
| LegacyArrs.DeleteSeriesParams | src/arrs/sonarr.py:77-80 | deleteFiles is false and addImportListExclusion is the exclude setting |
| LegacyArrs.DeleteSeriesRequest | src/arrs/sonarr.py:75-83 | `delete_series` sends DELETE to the series URL with those parameters |
| LegacyArrs.EpisodeIds | src/arrs/sonarr.py:106-109 | one id per episode, in order |
| LegacyArrs.UnmonitorEpisodesBody | src/arrs/sonarr.py:106-109 | the body is exactly {episodeIds: the ids, monitor: false} |
| LegacyArrs.UnmonitorEpisodesRequest | src/arrs/sonarr.py:103-112 | `unmonitor_episodes` sends PUT to "/episode/monitor" with includeImages="false" |
| LegacyArrs.UnmonitorEpisodesSendsPayloadIds | src/arrs/sonarr.py:92-119 | the ids sent are the "id" values of the payload's episode objects, one per object, in order |
| LegacyArrs.SeriesEpisodesFromList | src/types_.py:81-88 | a series' episodes are those built from the episode list |
| LegacyArrs.SeriesEpisodes | src/types_.py:81-88 | a built series' episodes come from `data["episodes"]` |
| LegacyArrs.EpisodesOfList | src/types_.py:87 | iterating a list gives its items |
| LegacyArrs.EpisodeIdOfItem | src/types_.py:63-68 | an episode's id is its item's "id" |
| LegacyArrs.UnmonitorSeriesRequest | src/arrs/sonarr.py:157-162 | `unmonitor_series` sends PUT to "/series/{data['id']}" with `data` unmodified |
| LegacyArrs.UnmonitorSeriesPutsWhereFetched | src/arrs/sonarr.py:75-162 | the series is put back to, and deleted at, the URL it was fetched from |
| LegacyArrs.SeriesIsEnded | src/arrs/sonarr.py:171-186 | the "ended" value, or False when absent |
| LegacyArrs.SeriesIsComplete | src/arrs/sonarr.py:188-204 | true iff statistics.percentOfEpisodes == 100; a missing statistics object or field counts as 0 |
| LegacyArrs.CompletenessCases | src/arrs/sonarr.py:188-204 | no statistics or no percentage is incomplete; 100 is complete; 99.5 is not |
| LegacyServer.LegacyPolicy | src/server.py:154-205 | the legacy rules are the settings' flags, with no exclusion argument |
| LegacyServer.WebhookHandler.constructor | src/server.py:28-37 | the handler holds the settings and the gateway |
| LegacyServer.WebhookHandler.HandleMovie | src/server.py:123-152 | the movie route's calls with no disabled gate |
| LegacyServer.WebhookHandler.HandleSeries | src/server.py:154-205 | the series route's calls with no disabled gate |
| LegacyServer.WebhookHandler.GenericHandler | src/server.py:40-89 | the same routing as the current server: drop, acknowledge test events, or exactly one handler |
| LegacyServer.MovieRemoveMediaDeletesOnly | src/server.py:136-139 | with REMOVE_MEDIA only DeleteMovie(movie.id) is called |
| LegacyServer.SeriesDeletedWithoutExclude | src/server.py:197-202 | the legacy delete is DeleteSeries(id) without an exclusion argument, and is the last call |
| LegacyServer.SameCallsAsServer | src/server.py:123-205 | with both clients enabled the legacy server makes the current server's calls for every movie body and, without REMOVE_MEDIA, every series body |

## Left out

- Json.AsInt: only JSON numbers with no fractional part are accepted. pydantic's lax mode also coerces numeric strings such as "1" and booleans to `int`; that coercion is not modelled, so such a body is unrecognised here where the program validates it.
- Json.AsReal: only JSON numbers are accepted. pydantic's lax coercion of numeric strings and booleans to `float` is not modelled.
- Json.AsBool: only JSON booleans are accepted. pydantic's lax coercion of 0/1 and strings such as "true", "yes" or "off" to `bool` is not modelled.
- Text.Lower: maps ASCII letters only. Python's `lower()` also maps other alphabets ('É' to 'é') and is context-sensitive for a final sigma. The program lower-cases only its own ASCII keys and event types.
- Text.LowerConcat: holds for the ASCII mapping. Python's `lower()` is not a per-character map ("ΑΣ".lower() is "ας"), so the equation is not claimed for non-ASCII text.
- Text.LowerOfLowercase: "no upper-case letter" means no ASCII capital. Python would also lower-case a non-ASCII capital such as 'É'.
- Text.Capitalize: maps ASCII letters only. Python's `capitalize()` also maps other alphabets and can change the length ("ß".capitalize() is "Ss"). The program capitalizes only its own ASCII field-name segments.
- Text.CapitalizeOfLowercase: "lower-case" means no ASCII capital. Python would also lower-case a non-ASCII capital in the tail ("aÉ" gives "Aé").
- Naming.SnakeOfLowercase: the hypothesis allows non-ASCII capitals, which Python lower-cases (`to_snake_case("É")` is "é"). The program converts only its ASCII allowed keys.
- Naming.SnakeOfTwoWords: a non-ASCII capital in the first word is kept here and lower-cased by Python.
- Naming.CamelUndoesMarkUpper: holds for the ASCII mapping. Python also lower-cases non-ASCII capitals, which `to_camel_case` does not restore.
- Naming.SnakeCamelRoundTrip: holds for the ASCII mapping. For a key such as "aÉ" Python gives back "aé".
- LegacyTypes.SnakeOfCamelPair: a non-ASCII capital in the word is kept here and lower-cased by Python.
- LegacyTypes.SnakeInjectiveOnCamelKeys: holds for the ASCII mapping. "aÉ" and "aé" are both camelCase keys that Python maps to one snake_case name. The three allowed key sets are ASCII, and the model proves them injective separately.
- LegacyServer.WebhookHandler.HandleMovie: the legacy Radarr client has no `get_movie_by_id` or `put_updated_movie` (see the src/server.py line below). The movie route is modelled with the calls the handler intends, against the abstract gateway.
- LegacyServer.WebhookHandler.GenericHandler: src/server.py:10 imports `RadarrWebhookPayload` and `SonarrWebhookPayload` from `types_`, but the legacy tree defines neither (src/types_.py has only `Movie`, `Episode` and `Series`, src/types_/base.py only `SharedBaseModel`), so the import fails. The two payload classes are taken to be those of src/unmonitorr/types_/webhook.py (module `Webhook`), and legacy bodies are validated with `Server.ValidatePayload`.
- LegacyServer.SameCallsAsServer: its movie half compares the intended legacy movie route, whose fetch and put do not exist on the legacy Radarr client, with the current server's calls.
- Server.ValueOrMissing: the form values are modelled as strings only. In Python a JSON `null`, `0` or `false` uri or key is also "MISSING", and a number would be formatted into the URL.
- Server.Configurator.PingArrServer: takes the uri and api key as strings only, as Server.ValueOrMissing does.
- HTTP I/O is not modelled: `BaseArrClient.request`, the aiohttp sessions and src/arrs/__init__.py. A request is a described `Request` value, and what the server answers is an input to the `Gateway`.
- The Sonarr client of src/unmonitorr is not part of this model. Its calls are recorded under the names src/unmonitorr/server.py uses, and `get_series_by_id` is taken to behave as Radarr's `get_movie_by_id`.
- src/unmonitorr/arrs/radarr.py:26 calls `super().__init__()` without the arguments `BaseArrClient.__init__` requires. Lines 34-35 assign the read-only properties `base_url` and `headers`. The model takes the client to be a `BaseArrClient` built from the configured uri and api key. `is_disabled` (39-42) is the same test as `disabled` and is modelled once, as `BaseArrClient.Disabled`.
- `update_client_config` is modelled as replacing the uri and api key. The source's assignment to a `headers` dictionary built on the fly has no lasting effect and is not modelled.
- Config.TextOr and Config.FlagOr keep the current value when the dictionary holds a value of the wrong JSON kind. Python would store that value as it is, which the typed model cannot hold.
- Floating point: `percent_of_episodes` is an exact real, compared for equality with 100 with no rounding.
- Concurrency: each handler call reads one snapshot of the configuration. Async scheduling and the configuration page changing settings while a handler runs are not modelled.
- Logging is not modelled: src/log.py and every `logger` call.
- Web routing and bootstrap are not modelled: `init_web_application`, the endpoint wrappers, `setup_page` with its Jinja rendering, and src/main.py.
- Config file I/O is not modelled. `save` appends the dictionary it would write to `Config.saved`, and the constructor receives what `load` would read: None when `load` catches FileNotFoundError or JSONDecodeError and saves the defaults. Other failures of `load` (a PermissionError, a JSON file whose top level is not an object) propagate in Python and are not modelled.
- The environment of src/config.py is an input map. Python's `int(...)` of a port variable is the input `intOf`.
- `__repr__` exists only for logging and is not modelled; RadarrTypes.RadarrAPIMovie.ToString states the start and the end of `__str__`, not where the path and the size sit in between.
- Python exception kinds are collapsed: a caught HTTP error is None / `NotFound`, and a validation error that escapes a handler is `Invalid` / `raised`.
- LegacyArrs.IdText: only integral numbers and strings are formatted into URLs. The single number constructor cannot tell 5 from 5.0, so an id of `5.0` is written "5" where Python's f-string writes "5.0". Other id values (floats with a fraction, booleans) give no request, where Python would format them with `str`.
- LegacyArrs.UnmonitorMovieRequest: inherits IdText's formatting of the id. A dictionary without "id" gives no request, where `data['id']` raises KeyError in Python; in both cases nothing is sent.
- LegacyArrs.GetEpisodeRequest: inherits IdText's formatting of the id (an id of `5.0` gives "/episode/5").
- LegacyArrs.UnmonitorSeriesRequest: inherits IdText's formatting of the id. A dictionary without "id" gives no request, where `data['id']` raises KeyError in Python; in both cases nothing is sent.
- LegacyArrs.SeriesIsEnded returns the raw "ended" value. The truthiness the legacy server applies to it is taken to be that of a boolean.
- LegacyTypes.Kwargs requires the allowed keys to have distinct snake_case names, which the model proves for the three allowed sets. The order in which Python would overwrite clashing keys is therefore not modelled.
- src/server.py does not run against the legacy clients as written. Line 10 imports two payload classes that the legacy `types_` does not define (see the GenericHandler line above). Lines 30-37 read `RADARR_URI` and `SONARR_URI`, which src/config.py:10-21 does not define. Lines 30-33 build `RadarrClient` from two arguments, but src/arrs/radarr.py:26 takes four (proto, host, port, api_key). Lines 142 and 152 call `get_movie_by_id` and `put_updated_movie`, which the legacy Radarr client does not define (it has `get_movie` at :39 and `unmonitor_movie` at :90). The series route calls `get_series_by_id`, `put_updated_series` and `delete_series(series)`, which the legacy Sonarr client does not define (it has `get_series`, `unmonitor_series(data)` and `delete_series(id)`). The legacy handler is therefore modelled against the same abstract gateway as the current one. The legacy client requests are modelled separately in `LegacyArrs`.
- src/unmonitorr/types_/episode.py is not part of this model: it declares fields only. src/unmonitorr/arrs/__init__.py only re-exports.
- The browser scripts (validate.js, toast.js) are not part of this model.

=== FILE: arrbase.dfy ===
/**
 * The pieces of src/unmonitorr/arrs/arrbase.py that are not network I/O: the
 * message an `HTTPException` carries, and the connection settings of a client
 * (`disabled`, `base_url`, `headers`, `update_client_config`). The request
 * itself is performed by the gateway (module Gateway); here a request is only
 * described.
 */
module ArrBase {
  import opened Wrappers
  import opened Json
  import opened Text

  /** The parts of an HTTP response an `HTTPException` copies. */
  datatype HttpResponse = HttpResponse(status: int, url: string, verb: string, reason: string)

  /** `HTTPException`: the copied response parts, the optional message and the rendered text. */
  datatype HttpException = HttpException(
    status: int,
    url: string,
    verb: string,
    reason: string,
    message: Option<string>,
    details: string)

  /** What a request gives back: the decoded body, or the exception it raised. */
  type Answer = Result<Json, HttpException>

  /**
   * What a fetch by id gives its caller: None after an HTTP error, a validation
   * error raised for a body that does not validate, or the validated record.
   */
  datatype Fetch<T> = NotFound | Invalid | Found(value: T)

  /** "HTTP {status} {reason} for {method} {url}". */
  function ErrorHead(r: HttpResponse): string {
    "HTTP " + IntToString(r.status) + " " + r.reason + " for " + r.verb + " " + r.url
  }

  /** `if message:` for an optional string. */
  predicate HasMessage(message: Option<string>) {
    message.Some? && message.value != ""
  }

  /** `HTTPException(response, message)`. */
  function NewHttpException(r: HttpResponse, message: Option<string>): (e: HttpException)
    ensures e.status == r.status && e.url == r.url && e.verb == r.verb && e.reason == r.reason
    ensures e.message == message
    ensures |ErrorHead(r)| <= |e.details| && e.details[..|ErrorHead(r)|] == ErrorHead(r)
    ensures HasMessage(message) <==> |e.details| > |ErrorHead(r)|
    ensures HasMessage(message) ==> e.details[|ErrorHead(r)|..] == " | Details: " + message.value
  {
    var head := ErrorHead(r);
    var details := if HasMessage(message) then head + " | Details: " + message.value else head;
    HttpException(r.status, r.url, r.verb, r.reason, message, details)
  }

  /** The text of an exception without a message is the head alone. */
  lemma NoMessageDetails(r: HttpResponse, message: Option<string>)
    requires !HasMessage(message)
    ensures NewHttpException(r, message).details == ErrorHead(r)
  {
  }

  /** A request as the client hands it to the session: method, URL, headers, query parameters and JSON body. */
  datatype Request = Request(
    verb: string,
    url: string,
    headers: map<string, string>,
    params: map<string, Json>,
    body: Option<Json>)

  const ApiSuffix: string := "/api/v3"

  /** `BaseArrClient`: the connection settings shared by the Radarr and Sonarr clients. */
  class BaseArrClient {
    var uri: string
    var apiKey: string

    constructor (uri: string, apiKey: string)
      ensures this.uri == uri && this.apiKey == apiKey
    {
      this.uri := uri;
      this.apiKey := apiKey;
    }

    /** `disabled`: the uri or the api key is missing. */
    predicate Disabled()
      reads this
    {
      uri == "" || apiKey == ""
    }

    /** `base_url`: the uri followed by "/api/v3". */
    function BaseUrl(): (url: string)
      reads this
      ensures |url| == |uri| + |ApiSuffix|
      ensures url[..|uri|] == uri && url[|uri|..] == ApiSuffix
    {
      uri + ApiSuffix
    }

    /** `headers`: exactly the api key and the JSON accept header. */
    function Headers(): (h: map<string, string>)
      reads this
      ensures h.Keys == {"X-API-Key", "Accept"}
      ensures h["X-API-Key"] == apiKey && h["Accept"] == "application/json"
    {
      map["X-API-Key" := apiKey, "Accept" := "application/json"]
    }

    /**
     * `update_client_config`: the new uri and api key replace the old ones, so that
     * `disabled`, `base_url` and `headers` follow them.
     */
    method UpdateClientConfig(uri: string, apiKey: string)
      modifies this
      ensures this.uri == uri && this.apiKey == apiKey
      ensures Disabled() <==> uri == "" || apiKey == ""
      ensures BaseUrl() == uri + ApiSuffix
      ensures Headers()["X-API-Key"] == apiKey
    {
      this.uri := uri;
      this.apiKey := apiKey;
    }
  }
}

=== FILE: config.dfy ===
/**
 * The configuration of src/unmonitorr/config.py: nine settings with their
 * defaults, read from and written to a JSON dictionary (`from_dict`, `to_dict`),
 * the `settings` label, and the log level lookup of `LogConfig`. The file the
 * dictionary is stored in is not modelled: `save` appends the dictionary it would
 * write to `saved`, and the constructor receives what `load` would read.
 */
module Config {
  import opened Wrappers
  import opened Json

  /** The nine settings as a value. */
  datatype ConfigValues = ConfigValues(
    radarrUri: string,
    radarrApiKey: string,
    sonarrUri: string,
    sonarrApiKey: string,
    handleEpisodes: bool,
    handleSeries: bool,
    handleSeriesEndedOnly: bool,
    excludeSeries: bool,
    removeMedia: bool)

  /** The values `Config.__init__` assigns before loading. */
  const Defaults: ConfigValues := ConfigValues("", "", "", "", true, false, true, true, false)

  /** The keys of the stored dictionary. */
  const ConfigKeys: set<string> := {
    "radarr_uri", "radarr_api_key", "sonarr_uri", "sonarr_api_key", "handle_episodes",
    "handle_series", "handle_series_ended_only", "exclude_series", "remove_media"}

  /** `to_dict`: each setting under its own key. */
  function ToDict(v: ConfigValues): (d: Object)
    ensures d.Keys == ConfigKeys
    ensures d["radarr_uri"] == JStr(v.radarrUri) && d["radarr_api_key"] == JStr(v.radarrApiKey)
    ensures d["sonarr_uri"] == JStr(v.sonarrUri) && d["sonarr_api_key"] == JStr(v.sonarrApiKey)
    ensures d["handle_episodes"] == JBool(v.handleEpisodes) && d["handle_series"] == JBool(v.handleSeries)
    ensures d["handle_series_ended_only"] == JBool(v.handleSeriesEndedOnly)
    ensures d["exclude_series"] == JBool(v.excludeSeries) && d["remove_media"] == JBool(v.removeMedia)
  {
    map[
      "radarr_uri" := JStr(v.radarrUri),
      "radarr_api_key" := JStr(v.radarrApiKey),
      "sonarr_uri" := JStr(v.sonarrUri),
      "sonarr_api_key" := JStr(v.sonarrApiKey),
      "handle_episodes" := JBool(v.handleEpisodes),
      "handle_series" := JBool(v.handleSeries),
      "handle_series_ended_only" := JBool(v.handleSeriesEndedOnly),
      "exclude_series" := JBool(v.excludeSeries),
      "remove_media" := JBool(v.removeMedia)]
  }

  /** `data.get(key, current)` for a text setting. */
  function TextOr(data: Object, key: string, current: string): (r: string)
    ensures key !in data ==> r == current
    ensures key in data && data[key].JStr? ==> r == data[key].s
  {
    if key in data && data[key].JStr? then data[key].s else current
  }

  /** `data.get(key, current)` for a flag. */
  function FlagOr(data: Object, key: string, current: bool): (r: bool)
    ensures key !in data ==> r == current
    ensures key in data && data[key].JBool? ==> r == data[key].b
  {
    if key in data && data[key].JBool? then data[key].b else current
  }

  /** A setting after `from_dict` is the dictionary's value under its key, or the one it had. */
  predicate TakenOrKept(data: Object, key: string, before: Json, after: Json) {
    after == before || (key in data && data[key] == after)
  }

  /** `from_dict`: each setting is taken from the dictionary when its key is there, and kept otherwise. */
  function FromDict(v: ConfigValues, data: Object): (r: ConfigValues)
    ensures TakenOrKept(data, "radarr_uri", JStr(v.radarrUri), JStr(r.radarrUri))
    ensures TakenOrKept(data, "radarr_api_key", JStr(v.radarrApiKey), JStr(r.radarrApiKey))
    ensures TakenOrKept(data, "sonarr_uri", JStr(v.sonarrUri), JStr(r.sonarrUri))
    ensures TakenOrKept(data, "sonarr_api_key", JStr(v.sonarrApiKey), JStr(r.sonarrApiKey))
    ensures TakenOrKept(data, "handle_episodes", JBool(v.handleEpisodes), JBool(r.handleEpisodes))
    ensures TakenOrKept(data, "handle_series", JBool(v.handleSeries), JBool(r.handleSeries))
    ensures TakenOrKept(data, "handle_series_ended_only", JBool(v.handleSeriesEndedOnly), JBool(r.handleSeriesEndedOnly))
    ensures TakenOrKept(data, "exclude_series", JBool(v.excludeSeries), JBool(r.excludeSeries))
    ensures TakenOrKept(data, "remove_media", JBool(v.removeMedia), JBool(r.removeMedia))
  {
    ConfigValues(
      TextOr(data, "radarr_uri", v.radarrUri),
      TextOr(data, "radarr_api_key", v.radarrApiKey),
      TextOr(data, "sonarr_uri", v.sonarrUri),
      TextOr(data, "sonarr_api_key", v.sonarrApiKey),
      FlagOr(data, "handle_episodes", v.handleEpisodes),
      FlagOr(data, "handle_series", v.handleSeries),
      FlagOr(data, "handle_series_ended_only", v.handleSeriesEndedOnly),
      FlagOr(data, "exclude_series", v.excludeSeries),
      FlagOr(data, "remove_media", v.removeMedia))
  }

  /** Reading back a written dictionary restores every setting, whatever was there before. */
  lemma FromDictOfToDict(before: ConfigValues, v: ConfigValues)
    ensures FromDict(before, ToDict(v)) == v
  {
  }

  /** A dictionary without any of the keys changes nothing. */
  lemma FromDictWithoutKeys(v: ConfigValues, data: Object)
    requires data.Keys !! ConfigKeys
    ensures FromDict(v, data) == v
  {
  }

  /** `settings`: the label of the handling mode. */
  function SettingsName(removeMedia: bool): (s: string)
    ensures s == "Unmonitor Only" <==> !removeMedia
    ensures s == "Remove Item" <==> removeMedia
  {
    if !removeMedia then "Unmonitor Only" else "Remove Item"
  }

  /** `LOG_LEVEL_MAP`. */
  const LogLevels: map<string, int> := map["debug" := 10, "info" := 20, "warn" := 30, "error" := 40, "critical" := 50]

  /** `LOG_LEVEL_MAP.get(level, 20)`. */
  function LogLevel(name: string): (level: int)
    ensures name in LogLevels ==> level == LogLevels[name]
    ensures name !in LogLevels ==> level == 20
    ensures level in {10, 20, 30, 40, 50}
  {
    if name in LogLevels then LogLevels[name] else 20
  }

  /** The level names and the default: "info" is 20, and so is any unknown name. */
  lemma LogLevelsByName()
    ensures LogLevel("debug") == 10 && LogLevel("info") == 20 && LogLevel("warn") == 30
    ensures LogLevel("error") == 40 && LogLevel("critical") == 50
    ensures LogLevel("INFO") == 20 && LogLevel("warning") == 20
  {
  }

  /** `Config`: the settings the handlers and the configuration page share. */
  class Config {
    var radarrUri: string
    var radarrApiKey: string
    var sonarrUri: string
    var sonarrApiKey: string
    var handleEpisodes: bool
    var handleSeries: bool
    var handleSeriesEndedOnly: bool
    var excludeSeries: bool
    var removeMedia: bool
    /** The dictionaries written by `save`, oldest first. */
    var saved: seq<Object>

    function Values(): ConfigValues
      reads this
    {
      ConfigValues(radarrUri, radarrApiKey, sonarrUri, sonarrApiKey,
                   handleEpisodes, handleSeries, handleSeriesEndedOnly, excludeSeries, removeMedia)
    }

    /**
     * `__init__`: the defaults, then `load`: a stored dictionary is read with
     * `from_dict`; without one (missing or unreadable file) the defaults are saved.
     */
    constructor (stored: Option<Object>)
      ensures stored.Some? ==> Values() == FromDict(Defaults, stored.value) && saved == []
      ensures stored.None? ==> Values() == Defaults && saved == [ToDict(Defaults)]
    {
      radarrUri, radarrApiKey, sonarrUri, sonarrApiKey := "", "", "", "";
      handleEpisodes, handleSeries, handleSeriesEndedOnly, excludeSeries := true, false, true, true;
      removeMedia := false;
      saved := [];
      new;
      if stored.Some? {
        FromDictInPlace(stored.value);
      } else {
        Save();
      }
    }

    /** `settings`. */
    function Settings(): (s: string)
      reads this
      ensures s == "Unmonitor Only" <==> !removeMedia
    {
      SettingsName(removeMedia)
    }

    /** `to_dict`. */
    function Dict(): (d: Object)
      reads this
      ensures FromDict(Defaults, d) == Values()
    {
      FromDictOfToDict(Defaults, Values());
      ToDict(Values())
    }

    /** `save`: the current dictionary is written; the settings stay as they are. */
    method Save()
      modifies this
      ensures saved == old(saved) + [ToDict(old(Values()))]
      ensures Values() == old(Values())
    {
      saved := saved + [ToDict(Values())];
    }

    /**
     * `from_dict`: each field takes the dictionary's value for its key, or keeps
     * its own; as no field's new value depends on another field, the nine new
     * values are worked out first and then assigned.
     */
    method FromDictInPlace(data: Object)
      modifies this
      ensures Values() == FromDict(old(Values()), data)
      ensures saved == old(saved)
    {
      var next := FromDict(Values(), data);
      radarrUri, radarrApiKey := next.radarrUri, next.radarrApiKey;
      sonarrUri, sonarrApiKey := next.sonarrUri, next.sonarrApiKey;
      handleEpisodes, handleSeries := next.handleEpisodes, next.handleSeries;
      handleSeriesEndedOnly, excludeSeries := next.handleSeriesEndedOnly, next.excludeSeries;
      removeMedia := next.removeMedia;
    }
  }
}

=== FILE: field_names.dfy ===
/**
 * The declared fields of the API models and the aliases they are read and dumped
 * under. Every alias is proved to be the one the alias generator produces from the
 * field name, so the table below is the generator's output, not a second source
 * of truth.
 */
module FieldNames {
  import opened Text
  import opened OpenRecord

  const Id: Field := Field("id", "id")
  const Title: Field := Field("title", "title")
  const Year: Field := Field("year", "year")
  const Path: Field := Field("path", "path")
  const Movie: Field := Field("movie", "movie")
  const Series: Field := Field("series", "series")
  const Episodes: Field := Field("episodes", "episodes")
  const Monitored: Field := Field("monitored", "monitored")
  const Statistics: Field := Field("statistics", "statistics")
  const Status: Field := Field("status", "status")
  const Ended: Field := Field("ended", "ended")
  const Seasons: Field := Field("seasons", "seasons")
  const FolderPath: Field := Field("folder_path", "folderPath")
  const EventType: Field := Field("event_type", "eventType")
  const InstanceName: Field := Field("instance_name", "instanceName")
  const ApplicationUrl: Field := Field("application_url", "applicationUrl")
  const EpisodeNumber: Field := Field("episode_number", "episodeNumber")
  const SeasonNumber: Field := Field("season_number", "seasonNumber")
  const SeriesId: Field := Field("series_id", "seriesId")
  const EpisodeCount: Field := Field("episode_count", "episodeCount")
  const TotalEpisodeCount: Field := Field("total_episode_count", "totalEpisodeCount")
  const SizeOnDisk: Field := Field("size_on_disk", "sizeOnDisk")
  const PercentOfEpisodes: Field := Field("percent_of_episodes", "percentOfEpisodes")
  const SeasonCount: Field := Field("season_count", "seasonCount")
  const MonitorNewItems: Field := Field("monitor_new_items", "monitorNewItems")

  /** A field name without "_" is its own alias. */
  lemma IdAlias()
    ensures Generated(Id)
  {
    OneSegment(Id);
  }

  lemma TitleAlias()
    ensures Generated(Title)
  {
    OneSegment(Title);
  }

  lemma YearAlias()
    ensures Generated(Year)
  {
    OneSegment(Year);
  }

  lemma PathAlias()
    ensures Generated(Path)
  {
    OneSegment(Path);
  }

  lemma MovieAlias()
    ensures Generated(Movie)
  {
    OneSegment(Movie);
  }

  lemma SeriesAlias()
    ensures Generated(Series)
  {
    OneSegment(Series);
  }

  lemma EpisodesAlias()
    ensures Generated(Episodes)
  {
    OneSegment(Episodes);
  }

  lemma MonitoredAlias()
    ensures Generated(Monitored)
  {
    OneSegment(Monitored);
  }

  lemma StatisticsAlias()
    ensures Generated(Statistics)
  {
    OneSegment(Statistics);
  }

  lemma StatusAlias()
    ensures Generated(Status)
  {
    OneSegment(Status);
  }

  lemma EndedAlias()
    ensures Generated(Ended)
  {
    OneSegment(Ended);
  }

  lemma SeasonsAlias()
    ensures Generated(Seasons)
  {
    OneSegment(Seasons);
  }

  lemma FolderPathAlias()
    ensures Generated(FolderPath)
  {
    CapitalizeOfLowercase("path");
    TwoSegments(FolderPath, "folder", "path");
  }

  lemma EventTypeAlias()
    ensures Generated(EventType)
  {
    CapitalizeOfLowercase("type");
    TwoSegments(EventType, "event", "type");
  }

  lemma InstanceNameAlias()
    ensures Generated(InstanceName)
  {
    CapitalizeOfLowercase("name");
    TwoSegments(InstanceName, "instance", "name");
  }

  lemma ApplicationUrlAlias()
    ensures Generated(ApplicationUrl)
  {
    CapitalizeOfLowercase("url");
    TwoSegments(ApplicationUrl, "application", "url");
  }

  lemma EpisodeNumberAlias()
    ensures Generated(EpisodeNumber)
  {
    CapitalizeOfLowercase("number");
    TwoSegments(EpisodeNumber, "episode", "number");
  }

  lemma SeasonNumberAlias()
    ensures Generated(SeasonNumber)
  {
    CapitalizeOfLowercase("number");
    TwoSegments(SeasonNumber, "season", "number");
  }

  lemma SeriesIdAlias()
    ensures Generated(SeriesId)
  {
    CapitalizeOfLowercase("id");
    TwoSegments(SeriesId, "series", "id");
  }

  lemma EpisodeCountAlias()
    ensures Generated(EpisodeCount)
  {
    CapitalizeOfLowercase("count");
    TwoSegments(EpisodeCount, "episode", "count");
  }

  lemma TotalEpisodeCountParts()
    ensures TotalEpisodeCount.name == "total" + "_" + "episode" + "_" + "count"
    ensures TotalEpisodeCount.alias == "total" + Capitalize("episode") + Capitalize("count")
  {
    CapitalizeOfLowercase("episode");
    CapitalizeOfLowercase("count");
  }

  lemma TotalEpisodeCountAlias()
    ensures Generated(TotalEpisodeCount)
  {
    TotalEpisodeCountParts();
    ThreeSegments(TotalEpisodeCount, "total", "episode", "count");
  }

  lemma SizeOnDiskAlias()
    ensures Generated(SizeOnDisk)
  {
    CapitalizeOfLowercase("on");
    CapitalizeOfLowercase("disk");
    ThreeSegments(SizeOnDisk, "size", "on", "disk");
  }

  lemma PercentOfEpisodesParts()
    ensures PercentOfEpisodes.name == "percent" + "_" + "of" + "_" + "episodes"
    ensures PercentOfEpisodes.alias == "percent" + Capitalize("of") + Capitalize("episodes")
  {
    CapitalizeOfLowercase("of");
    CapitalizeOfLowercase("episodes");
  }

  lemma PercentOfEpisodesAlias()
    ensures Generated(PercentOfEpisodes)
  {
    PercentOfEpisodesParts();
    ThreeSegments(PercentOfEpisodes, "percent", "of", "episodes");
  }

  lemma SeasonCountAlias()
    ensures Generated(SeasonCount)
  {
    CapitalizeOfLowercase("count");
    TwoSegments(SeasonCount, "season", "count");
  }

  lemma MonitorNewItemsAlias()
    ensures Generated(MonitorNewItems)
  {
    CapitalizeOfLowercase("new");
    CapitalizeOfLowercase("items");
    ThreeSegments(MonitorNewItems, "monitor", "new", "items");
  }

  /** Each alias in the table is `_to_camel_case` of its field name. */
  lemma AliasesGenerated()
    ensures Generated(Id)
    ensures Generated(Title)
    ensures Generated(Year)
    ensures Generated(Path)
    ensures Generated(Movie)
    ensures Generated(Series)
    ensures Generated(Episodes)
    ensures Generated(Monitored)
    ensures Generated(Statistics)
    ensures Generated(Status)
    ensures Generated(Ended)
    ensures Generated(Seasons)
    ensures Generated(FolderPath)
    ensures Generated(EventType)
    ensures Generated(InstanceName)
    ensures Generated(ApplicationUrl)
    ensures Generated(EpisodeNumber)
    ensures Generated(SeasonNumber)
    ensures Generated(SeriesId)
    ensures Generated(EpisodeCount)
    ensures Generated(TotalEpisodeCount)
    ensures Generated(SizeOnDisk)
    ensures Generated(PercentOfEpisodes)
    ensures Generated(SeasonCount)
    ensures Generated(MonitorNewItems)
  {
    IdAlias();
    TitleAlias();
    YearAlias();
    PathAlias();
    MovieAlias();
    SeriesAlias();
    EpisodesAlias();
    MonitoredAlias();
    StatisticsAlias();
    StatusAlias();
    EndedAlias();
    SeasonsAlias();
    FolderPathAlias();
    EventTypeAlias();
    InstanceNameAlias();
    ApplicationUrlAlias();
    EpisodeNumberAlias();
    SeasonNumberAlias();
    SeriesIdAlias();
    EpisodeCountAlias();
    TotalEpisodeCountAlias();
    SizeOnDiskAlias();
    PercentOfEpisodesAlias();
    SeasonCountAlias();
    MonitorNewItemsAlias();
  }
}

=== FILE: gateway.dfy ===
/**
 * The Radarr and Sonarr servers as the handlers see them. Every client call the
 * handlers make is recorded, in order, in `calls`; what a GET of a movie or a
 * series answers is fixed by the functions the gateway is built with. The
 * mutating calls (delete, put, unmonitor episodes) log and swallow an HTTP error
 * in the source, so their answers change nothing the handlers do.
 *
 * The Sonarr client of src/unmonitorr is not part of this model: its calls are
 * recorded under the names src/unmonitorr/server.py uses, with the arguments it
 * passes, and `get_series_by_id` is taken to behave as Radarr's
 * `get_movie_by_id` does.
 */
module Gateway {
  import opened Wrappers
  import opened Json
  import opened ArrBase
  import opened RadarrApi
  import opened RadarrTypes
  import opened SonarrTypes
  import opened Webhook

  /** One client call, with what it sends. */
  datatype Call =
    | GetMovie(movieId: int)
    | DeleteMovie(movieId: int)
    | PutMovie(movie: MovieRecord)
    | UnmonitorEpisodes(episodeIds: seq<int>)
    | GetSeries(seriesId: int)
    | DeleteSeries(seriesId: int, exclude: Option<bool>)
    | PutSeries(series: SeriesRecord)
    | Ping(url: string, apiKey: string)

  /** `get_series_by_id` after the request, as `MovieFetch` is for movies. */
  function SeriesFetch(answer: Answer): (f: Fetch<SeriesRecord>)
    ensures f.NotFound? <==> answer.Err?
    ensures f.Invalid? <==> answer.Ok? && ParseSeries(answer.value).None?
    ensures f.Found? ==> answer.Ok? && ParseSeries(answer.value) == Some(f.value)
  {
    match answer
    case Err(_) => NotFound
    case Ok(body) =>
      match ParseSeries(body)
      case None => Invalid
      case Some(s) => Found(s)
  }

  class Gateway {
    /** Every call made so far, oldest first. */
    var calls: seq<Call>
    /** What `get_movie_by_id` gives for a given id. */
    const movies: int -> Fetch<MovieRecord>
    /** What `get_series_by_id` gives for a given id. */
    const series: int -> Fetch<SeriesRecord>
    /** What a GET of a server's "/api" URL with a given api key answers. */
    const pings: (string, string) -> Answer

    /** Built from what Radarr and Sonarr answer to a GET of each movie and series id. */
    constructor (movieAnswers: int -> Answer, seriesAnswers: int -> Answer, pings: (string, string) -> Answer)
      ensures calls == [] && this.pings == pings
      ensures forall id :: movies(id) == MovieFetch(movieAnswers(id))
      ensures forall id :: series(id) == SeriesFetch(seriesAnswers(id))
    {
      calls := [];
      movies := (id: int) => MovieFetch(movieAnswers(id));
      series := (id: int) => SeriesFetch(seriesAnswers(id));
      this.pings := pings;
    }

    /** `get_movie_by_id`: a fresh record object when the answer validates. */
    method GetMovieById(id: int) returns (f: Fetch<RadarrAPIMovie>)
      modifies this
      ensures calls == old(calls) + [GetMovie(id)]
      ensures f.NotFound? <==> movies(id).NotFound?
      ensures f.Invalid? <==> movies(id).Invalid?
      ensures f.Found? ==> movies(id).Found? && fresh(f.value) && f.value.Value() == movies(id).value
    {
      calls := calls + [GetMovie(id)];
      match movies(id)
      case NotFound => f := NotFound;
      case Invalid => f := Invalid;
      case Found(m) =>
        var obj := new RadarrAPIMovie(m);
        f := Found(obj);
    }

    /** `delete_movie`. */
    method DeleteMovieById(id: int)
      modifies this
      ensures calls == old(calls) + [DeleteMovie(id)]
    {
      calls := calls + [DeleteMovie(id)];
    }

    /** `put_updated_movie`: sends the record as it is now. */
    method PutUpdatedMovie(m: RadarrAPIMovie)
      modifies this
      ensures calls == old(calls) + [PutMovie(m.Value())]
    {
      calls := calls + [PutMovie(m.Value())];
    }

    /** `unmonitor_episodes(payload)`: the payload's episode ids, in payload order. */
    method UnmonitorEpisodesOf(p: SonarrPayload)
      modifies this
      ensures calls == old(calls) + [UnmonitorEpisodes(EpisodeIdsToUnmonitor(p))]
    {
      calls := calls + [UnmonitorEpisodes(EpisodeIdsToUnmonitor(p))];
    }

    /** `get_series_by_id`: a fresh record object, seasons included, when the answer validates. */
    method GetSeriesById(id: int) returns (f: Fetch<SonarrAPISeries>)
      modifies this
      ensures calls == old(calls) + [GetSeries(id)]
      ensures f.NotFound? <==> series(id).NotFound?
      ensures f.Invalid? <==> series(id).Invalid?
      ensures f.Found? ==> series(id).Found? && fresh(f.value) && f.value.Value() == series(id).value
      ensures f.Found? ==> forall i :: 0 <= i < |f.value.seasons| ==> fresh(f.value.seasons[i])
    {
      calls := calls + [GetSeries(id)];
      match series(id)
      case NotFound => f := NotFound;
      case Invalid => f := Invalid;
      case Found(s) =>
        var obj := new SonarrAPISeries(s);
        f := Found(obj);
    }

    /** `delete_series(series, exclude=...)`, or without `exclude` (None). */
    method DeleteSeriesOf(s: WebhookSeries, exclude: Option<bool>)
      modifies this
      ensures calls == old(calls) + [DeleteSeries(s.id, exclude)]
    {
      calls := calls + [DeleteSeries(s.id, exclude)];
    }

    /** `put_updated_series`: sends the record as it is now. */
    method PutUpdatedSeries(s: SonarrAPISeries)
      modifies this
      ensures calls == old(calls) + [PutSeries(s.Value())]
    {
      calls := calls + [PutSeries(s.Value())];
    }

    /** `request("GET", url, headers=...)` of the configuration page's connection test. */
    method PingServer(url: string, apiKey: string) returns (a: Answer)
      modifies this
      ensures calls == old(calls) + [Ping(url, apiKey)]
      ensures a == pings(url, apiKey)
    {
      calls := calls + [Ping(url, apiKey)];
      a := pings(url, apiKey);
    }
  }
}

=== FILE: json.dfy ===
/**
 * JSON values as the Python side sees them after `json.loads` / `request.json()`.
 * There is a single number constructor: Python compares 100 and 100.0 as equal,
 * and a pydantic `int` field accepts a float whose fractional part is zero.
 */
module Json {
  import opened Wrappers

  datatype Json =
    | JNull
    | JBool(b: bool)
    | JNum(n: real)
    | JStr(s: string)
    | JArr(items: seq<Json>)
    | JObj(fields: map<string, Json>)

  /** A JSON object (a Python dict with string keys). */
  type Object = map<string, Json>

  predicate IsIntegral(r: real) {
    r.Floor as real == r
  }

  function IntNum(i: int): Json {
    JNum(i as real)
  }

  /** The value of an `int` field: an integral number. */
  function AsInt(j: Json): (r: Option<int>)
    ensures r.Some? <==> j.JNum? && IsIntegral(j.n)
    ensures r.Some? ==> IntNum(r.value) == j
  {
    if j.JNum? && IsIntegral(j.n) then Some(j.n.Floor) else None
  }

  /** The value of a `float` field: any number. */
  function AsReal(j: Json): (r: Option<real>)
    ensures r.Some? <==> j.JNum?
    ensures r.Some? ==> JNum(r.value) == j
  {
    if j.JNum? then Some(j.n) else None
  }

  function AsBool(j: Json): (r: Option<bool>)
    ensures r.Some? <==> j.JBool?
    ensures r.Some? ==> JBool(r.value) == j
  {
    if j.JBool? then Some(j.b) else None
  }

  function AsStr(j: Json): (r: Option<string>)
    ensures r.Some? <==> j.JStr?
    ensures r.Some? ==> JStr(r.value) == j
  {
    if j.JStr? then Some(j.s) else None
  }

  /** Python's `d.get(key, default)`. */
  function GetOr(o: Object, key: string, default: Json): Json {
    if key in o then o[key] else default
  }
}

=== FILE: legacy_arrs.dfy ===
/**
 * The clients of src/arrs/radarr.py and src/arrs/sonarr.py: the base URL and
 * headers each builds once, the request each method sends, what the GET methods
 * make of the answer, and Sonarr's two tests on a series dictionary. The request
 * itself is network I/O and is only described here (ArrBase.Request); an HTTP
 * error is an `Err` answer.
 */
module LegacyArrs {
  import opened Wrappers
  import opened Json
  import opened Text
  import opened ArrBase
  import opened LegacyTypes
  import RadarrApi

  // ---------------------------------------------------------------------------
  // Connection settings.

  /** The server root "{proto}://{host}:{port}" the Radarr client is built from. */
  function ServerUri(proto: string, host: string, port: int): (uri: string)
    ensures |uri| > |proto| + 3 + |host| + 1
    ensures uri[..|proto|] == proto && uri[|proto|..|proto| + 3] == "://"
    ensures uri[|proto| + 3..|proto| + 3 + |host|] == host
    ensures uri[|proto| + 3 + |host|] == ':' && uri[|proto| + 3 + |host| + 1..] == IntToString(port)
  {
    proto + "://" + host + ":" + IntToString(port)
  }

  /** `base_url` of the Sonarr client: the uri followed by "/api/v3". */
  function SonarrBaseUrl(uri: string): (url: string)
    ensures |url| == |uri| + |ApiSuffix|
    ensures url[..|uri|] == uri && url[|uri|..] == ApiSuffix
  {
    uri + ApiSuffix
  }

  /** `base_url` of the Radarr client, from its protocol, host and port. */
  function RadarrBaseUrl(proto: string, host: string, port: int): (url: string)
    ensures url == SonarrBaseUrl(ServerUri(proto, host, port))
  {
    proto + "://" + host + ":" + IntToString(port) + "/api/v3"
  }

  /** `headers` of both clients: the api key and the JSON accept header, nothing else. */
  function ClientHeaders(apiKey: string): (h: map<string, string>)
    ensures h.Keys == {"X-API-Key", "Accept"}
    ensures h["X-API-Key"] == apiKey && h["Accept"] == "application/json"
  {
    map["X-API-Key" := apiKey, "Accept" := "application/json"]
  }

  /** The headers are those of `BaseArrClient` with the same api key. */
  lemma HeadersAgree(apiKey: string, c: BaseArrClient)
    requires c.apiKey == apiKey
    ensures ClientHeaders(apiKey) == c.Headers()
  {
  }

  /** `RadarrClient`: the settings it is built with and the base URL and headers worked out from them. */
  class RadarrClient {
    const proto: string
    const host: string
    const port: int
    const apiKey: string
    const baseUrl: string
    const headers: map<string, string>

    constructor (proto: string, host: string, port: int, apiKey: string)
      ensures this.proto == proto && this.host == host && this.port == port && this.apiKey == apiKey
      ensures baseUrl == RadarrBaseUrl(proto, host, port) && headers == ClientHeaders(apiKey)
    {
      this.proto := proto;
      this.host := host;
      this.port := port;
      this.apiKey := apiKey;
      baseUrl := proto + "://" + host + ":" + IntToString(port) + "/api/v3";
      headers := map["X-API-Key" := apiKey, "Accept" := "application/json"];
    }
  }

  /** `SonarrClient`: the uri and api key, and the base URL and headers worked out from them. */
  class SonarrClient {
    const uri: string
    const apiKey: string
    const baseUrl: string
    const headers: map<string, string>

    constructor (uri: string, apiKey: string)
      ensures this.uri == uri && this.apiKey == apiKey
      ensures baseUrl == SonarrBaseUrl(uri) && headers == ClientHeaders(apiKey)
    {
      this.uri := uri;
      this.apiKey := apiKey;
      baseUrl := uri + "/api/v3";
      headers := map["X-API-Key" := apiKey, "Accept" := "application/json"];
    }
  }

  // ---------------------------------------------------------------------------
  // Answers.

  /** A GET method after the request: the HTTP error is logged and gives None, any answer is passed on as it is. */
  function ResponseOrNone(answer: Answer): (r: Option<Json>)
    ensures r.None? <==> answer.Err?
    ensures r.Some? ==> answer == Ok(r.value)
  {
    match answer
    case Err(_) => None
    case Ok(body) => Some(body)
  }

  // ---------------------------------------------------------------------------
  // Ids in URLs.

  /**
   * `f"{x}"` for an id taken from a dictionary: the decimal digits of an integral
   * number, a string as it is; None for the other values, which are not modelled.
   */
  function IdText(j: Json): (r: Option<string>)
    ensures AsInt(j).Some? ==> r == Some(IntToString(AsInt(j).value))
    ensures j.JStr? ==> r == Some(j.s)
    ensures r.Some? <==> AsInt(j).Some? || j.JStr?
  {
    match AsInt(j)
    case Some(i) => Some(IntToString(i))
    case None => if j.JStr? then Some(j.s) else None
  }

  /** "{base_url}{resource}{id}". */
  function ItemUrl(base: string, resource: string, id: string): (url: string)
    ensures |url| == |base| + |resource| + |id|
    ensures url[..|base|] == base && url[|base|..|base| + |resource|] == resource
    ensures url[|base| + |resource|..] == id
  {
    base + resource + id
  }

  /** Within one resource of one server, different ids give different URLs. */
  lemma ItemUrlInjective(base: string, resource: string, a: string, b: string)
    requires ItemUrl(base, resource, a) == ItemUrl(base, resource, b)
    ensures a == b
  {
    assert a == ItemUrl(base, resource, a)[|base| + |resource|..];
  }

  // ---------------------------------------------------------------------------
  // RadarrClient requests.

  /** `get_movie`: GET "{base_url}/movie/{id}" with the client headers, nothing else. */
  function GetMovieRequest(c: RadarrClient, id: int): (r: Request)
    ensures r.verb == "GET" && r.url == ItemUrl(c.baseUrl, "/movie/", IntToString(id))
    ensures r.headers == c.headers && r.params == map[] && r.body.None?
  {
    Request("GET", c.baseUrl + "/movie/" + IntToString(id), c.headers, map[], None)
  }

  /** `delete_movie`: DELETE of the same URL, nothing else; an HTTP error is swallowed. */
  function DeleteMovieRequest(c: RadarrClient, id: int): (r: Request)
    ensures r.verb == "DELETE" && r.url == GetMovieRequest(c, id).url
    ensures r.headers == c.headers && r.params == map[] && r.body.None?
  {
    Request("DELETE", c.baseUrl + "/movie/" + IntToString(id), c.headers, map[], None)
  }

  /**
   * `unmonitor_movie`: PUT "{base_url}/movie/{data['id']}" with `data`, unmodified,
   * as the body; None where `data['id']` raises (no "id" key).
   */
  function UnmonitorMovieRequest(c: RadarrClient, data: Object): (r: Option<Request>)
    ensures r.Some? <==> "id" in data && IdText(data["id"]).Some?
    ensures r.Some? ==> r.value.verb == "PUT" && r.value.url == ItemUrl(c.baseUrl, "/movie/", IdText(data["id"]).value)
    ensures r.Some? ==> r.value.headers == c.headers && r.value.params == map[] && r.value.body == Some(JObj(data))
  {
    if "id" in data then
      match IdText(data["id"])
      case Some(id) => Some(Request("PUT", c.baseUrl + "/movie/" + id, c.headers, map[], Some(JObj(data))))
      case None => None
    else None
  }

  /**
   * The legacy Radarr client sends the same GET and DELETE as the `BaseArrClient`
   * of src/unmonitorr whose uri is "{proto}://{host}:{port}" and whose api key is the same.
   */
  lemma MovieRequestsAgree(c: RadarrClient, n: BaseArrClient, id: int)
    requires c.baseUrl == RadarrBaseUrl(c.proto, c.host, c.port) && c.headers == ClientHeaders(c.apiKey)
    requires n.uri == ServerUri(c.proto, c.host, c.port) && n.apiKey == c.apiKey
    ensures GetMovieRequest(c, id) == RadarrApi.GetMovieByIdRequest(n, id)
    ensures DeleteMovieRequest(c, id) == RadarrApi.DeleteMovieRequest(n, id)
  {
    assert c.baseUrl == n.BaseUrl();
    assert c.baseUrl + "/movie/" + IntToString(id) == RadarrApi.MovieUrl(n.BaseUrl(), id);
  }

  /** A movie dictionary with an integer id is put to the URL of that id, as `get_movie` fetched it. */
  lemma UnmonitorMoviePutsWhereFetched(c: RadarrClient, data: Object, id: int)
    requires "id" in data && data["id"] == IntNum(id)
    ensures UnmonitorMovieRequest(c, data).Some?
    ensures UnmonitorMovieRequest(c, data).value.url == GetMovieRequest(c, id).url
  {
    assert AsInt(IntNum(id)) == Some(id);
  }

  // ---------------------------------------------------------------------------
  // SonarrClient requests.

  /** `get_episode`: GET "{base_url}/episode/{episode.id}"; None where the id is not modelled. */
  function GetEpisodeRequest(c: SonarrClient, e: Episode): (r: Option<Request>)
    ensures r.Some? <==> IdText(e.id).Some?
    ensures r.Some? ==> r.value.verb == "GET" && r.value.url == ItemUrl(c.baseUrl, "/episode/", IdText(e.id).value)
    ensures r.Some? ==> r.value.headers == c.headers && r.value.params == map[] && r.value.body.None?
  {
    match IdText(e.id)
    case Some(id) => Some(Request("GET", c.baseUrl + "/episode/" + id, c.headers, map[], None))
    case None => None
  }

  /** `get_series`: GET "{base_url}/series/{id}", nothing else. */
  function GetSeriesRequest(c: SonarrClient, id: int): (r: Request)
    ensures r.verb == "GET" && r.url == ItemUrl(c.baseUrl, "/series/", IntToString(id))
    ensures r.headers == c.headers && r.params == map[] && r.body.None?
  {
    Request("GET", c.baseUrl + "/series/" + IntToString(id), c.headers, map[], None)
  }

  /** The query of `delete_series`: files are kept, and the exclusion follows EXCLUDE_SERIES. */
  function DeleteSeriesParams(excludeSeries: bool): (params: map<string, Json>)
    ensures params.Keys == {"deleteFiles", "addImportListExclusion"}
    ensures params["deleteFiles"] == JBool(false) && params["addImportListExclusion"] == JBool(excludeSeries)
  {
    map["deleteFiles" := JBool(false), "addImportListExclusion" := JBool(excludeSeries)]
  }

  /**
   * `delete_series(id)`: DELETE of the series URL with the query above; the
   * setting is an input because the source reads it from the class `Config`.
   */
  function DeleteSeriesRequest(c: SonarrClient, id: int, excludeSeries: bool): (r: Request)
    ensures r.verb == "DELETE" && r.url == GetSeriesRequest(c, id).url
    ensures r.headers == c.headers && r.params == DeleteSeriesParams(excludeSeries) && r.body.None?
  {
    Request("DELETE", c.baseUrl + "/series/" + IntToString(id), c.headers, DeleteSeriesParams(excludeSeries), None)
  }

  /** `[e.id for e in series.episodes]`. */
  function EpisodeIds(s: Series): (ids: seq<Json>)
    ensures |ids| == |s.episodes|
    ensures forall i :: 0 <= i < |ids| ==> ids[i] == s.episodes[i].id
  {
    seq(|s.episodes|, i requires 0 <= i < |s.episodes| => s.episodes[i].id)
  }

  /** The body of `unmonitor_episodes`. */
  function UnmonitorEpisodesBody(s: Series): (body: Object)
    ensures body.Keys == {"episodeIds", "monitor"}
    ensures body["episodeIds"] == JArr(EpisodeIds(s)) && body["monitor"] == JBool(false)
  {
    map["episodeIds" := JArr(EpisodeIds(s)), "monitor" := JBool(false)]
  }

  /**
   * `unmonitor_episodes(series)`: PUT "{base_url}/episode/monitor" with
   * includeImages "false" and the body naming every episode of the series, in order.
   */
  function UnmonitorEpisodesRequest(c: SonarrClient, s: Series): (r: Request)
    ensures r.verb == "PUT" && r.url == c.baseUrl + "/episode/monitor"
    ensures r.headers == c.headers && r.params == map["includeImages" := JStr("false")]
    ensures r.body == Some(JObj(UnmonitorEpisodesBody(s)))
  {
    Request("PUT", c.baseUrl + "/episode/monitor", c.headers, map["includeImages" := JStr("false")],
            Some(JObj(UnmonitorEpisodesBody(s))))
  }

  /**
   * For a series built by `Series.from_payload` from a list of episode objects, the
   * ids sent are the "id" values of those objects, one each and in list order.
   */
  lemma {:induction false} UnmonitorEpisodesSendsPayloadIds(c: SonarrClient, data: Object, items: seq<Json>)
    requires SeriesFromPayload(data).Some? && "episodes" in data && data["episodes"] == JArr(items)
    ensures var ids := UnmonitorEpisodesRequest(c, SeriesFromPayload(data).value).body.value.fields["episodeIds"].items;
            |ids| == |items|
            && forall i :: 0 <= i < |items| ==> items[i].JObj? && "id" in items[i].fields && ids[i] == items[i].fields["id"]
  {
    SeriesEpisodesFromList(data, items);
    var episodes := EpisodesFrom(items).value;
    var ids := EpisodeIds(SeriesFromPayload(data).value);
    forall i | 0 <= i < |items|
      ensures items[i].JObj? && "id" in items[i].fields && ids[i] == items[i].fields["id"]
    {
      EpisodeIdOfItem(items[i], episodes[i]);
    }
  }

  /** The episodes of a series built from a list are the episodes of that list's items. */
  lemma SeriesEpisodesFromList(data: Object, items: seq<Json>)
    requires SeriesFromPayload(data).Some? && "episodes" in data && data["episodes"] == JArr(items)
    ensures EpisodesFrom(items).Some? && SeriesFromPayload(data).value.episodes == EpisodesFrom(items).value
  {
    SeriesEpisodes(data);
    EpisodesOfList(items);
  }

  /** The episodes of a built series are those of `data["episodes"]`. */
  lemma SeriesEpisodes(data: Object)
    requires SeriesFromPayload(data).Some?
    ensures "episodes" in data && EpisodesOf(data["episodes"]).Some?
    ensures SeriesFromPayload(data).value.episodes == EpisodesOf(data["episodes"]).value
  {
    SeriesFromPayloadSpec(data);
  }

  /** A list of episode objects is converted item by item. */
  lemma EpisodesOfList(items: seq<Json>)
    ensures EpisodesOf(JArr(items)) == EpisodesFrom(items)
  {
  }

  /** An episode built from a list item carries that item's "id". */
  lemma EpisodeIdOfItem(item: Json, e: Episode)
    requires EpisodeOfItem(item) == Some(e)
    ensures item.JObj? && "id" in item.fields && e.id == item.fields["id"]
  {
    EpisodeFromPayloadSpec(item.fields);
  }

  /**
   * `unmonitor_series(data)`: PUT "{base_url}/series/{data['id']}" with `data`,
   * unmodified, as the body; None where `data['id']` raises.
   */
  function UnmonitorSeriesRequest(c: SonarrClient, data: Object): (r: Option<Request>)
    ensures r.Some? <==> "id" in data && IdText(data["id"]).Some?
    ensures r.Some? ==> r.value.verb == "PUT" && r.value.url == ItemUrl(c.baseUrl, "/series/", IdText(data["id"]).value)
    ensures r.Some? ==> r.value.headers == c.headers && r.value.params == map[] && r.value.body == Some(JObj(data))
  {
    if "id" in data then
      match IdText(data["id"])
      case Some(id) => Some(Request("PUT", c.baseUrl + "/series/" + id, c.headers, map[], Some(JObj(data))))
      case None => None
    else None
  }

  /** A series dictionary with an integer id is put to the URL it was fetched from and deleted at. */
  lemma UnmonitorSeriesPutsWhereFetched(c: SonarrClient, data: Object, id: int, excludeSeries: bool)
    requires "id" in data && data["id"] == IntNum(id)
    ensures UnmonitorSeriesRequest(c, data).Some?
    ensures UnmonitorSeriesRequest(c, data).value.url == GetSeriesRequest(c, id).url
    ensures DeleteSeriesRequest(c, id, excludeSeries).url == GetSeriesRequest(c, id).url
  {
    assert AsInt(IntNum(id)) == Some(id);
  }

  // ---------------------------------------------------------------------------
  // Series tests.

  /** `series_is_ended`: the "ended" value itself, or False when the key is absent. */
  function SeriesIsEnded(series: Object): (ended: Json)
    ensures "ended" in series ==> ended == series["ended"]
    ensures "ended" !in series ==> ended == JBool(false)
  {
    GetOr(series, "ended", JBool(false))
  }

  /**
   * `series_is_complete`: percentOfEpisodes of the statistics equals 100, a missing
   * statistics object or field counting as 0. None where the statistics value is
   * not a dictionary, on which `.get` raises.
   */
  function SeriesIsComplete(series: Object): (complete: Option<bool>)
    ensures complete.None? <==> "statistics" in series && !series["statistics"].JObj?
    ensures complete == Some(true) <==>
              "statistics" in series && series["statistics"].JObj?
              && "percentOfEpisodes" in series["statistics"].fields
              && series["statistics"].fields["percentOfEpisodes"] == JNum(100.0)
  {
    match GetOr(series, "statistics", JObj(map[]))
    case JObj(stats) => Some(GetOr(stats, "percentOfEpisodes", JNum(0.0)) == JNum(100.0))
    case _ => None
  }

  /**
   * Without statistics, or without percentOfEpisodes in them, a series is not
   * complete; 100.0 and 100 are the same number, and 99.5 is not complete.
   */
  lemma CompletenessCases(series: Object)
    ensures "statistics" !in series ==> SeriesIsComplete(series) == Some(false)
    ensures "statistics" in series && series["statistics"].JObj? && "percentOfEpisodes" !in series["statistics"].fields
            ==> SeriesIsComplete(series) == Some(false)
    ensures SeriesIsComplete(map["statistics" := JObj(map["percentOfEpisodes" := IntNum(100)])]) == Some(true)
    ensures SeriesIsComplete(map["statistics" := JObj(map["percentOfEpisodes" := JNum(99.5)])]) == Some(false)
  {
  }
}

=== FILE: legacy_config.dfy ===
/**
 * The environment-based configuration of src/config.py: every setting is read
 * once from the process environment, `validate` reports the connection settings
 * that are missing, and `settings` labels the handling mode. The environment is
 * an input (a map from variable name to value); Python's `int(...)` on a port
 * variable is the input `intOf`, which gives None where `int` raises.
 */
module LegacyConfig {
  import opened Wrappers
  import opened Text
  import Config

  /** `os.getenv(key, default)`. */
  function EnvOr(env: map<string, string>, key: string, default: string): (r: string)
    ensures key in env ==> r == env[key]
    ensures key !in env ==> r == default
  {
    if key in env then env[key] else default
  }

  /** `os.getenv(key, default).lower() == "true"`. */
  predicate EnvFlag(env: map<string, string>, key: string, default: string)
    ensures EnvFlag(env, key, default) ==> |EnvOr(env, key, default)| == 4
  {
    Lower(EnvOr(env, key, default)) == "true"
  }

  /** The class attributes of `Config`. */
  datatype Settings = Settings(
    radarrProtocol: string,
    radarrHost: string,
    radarrPort: int,
    radarrApiKey: string,
    sonarrProtocol: string,
    sonarrHost: string,
    sonarrPort: int,
    sonarrApiKey: string,
    handleEpisodes: bool,
    handleSeries: bool,
    handleSeriesEndedOnly: bool,
    excludeSeries: bool,
    removeMedia: bool)

  /** `int(os.getenv(key, default))`: the default is already a number; a set variable is converted. */
  function PortOr(env: map<string, string>, intOf: string -> Option<int>, key: string, default: int): (r: Option<int>)
    ensures key !in env ==> r == Some(default)
    ensures key in env ==> r == intOf(env[key])
  {
    if key in env then intOf(env[key]) else Some(default)
  }

  /**
   * The class body of `Config` evaluated against `env`; None when a port variable
   * does not convert to a number (the class body raises).
   */
  function FromEnv(env: map<string, string>, intOf: string -> Option<int>): (r: Option<Settings>)
    ensures r.Some? <==> PortOr(env, intOf, "RADARR_PORT", 7878).Some? && PortOr(env, intOf, "SONARR_PORT", 8989).Some?
    ensures r.Some? ==> r.value.radarrPort == PortOr(env, intOf, "RADARR_PORT", 7878).value
    ensures r.Some? ==> r.value.sonarrPort == PortOr(env, intOf, "SONARR_PORT", 8989).value
  {
    var radarrPort := PortOr(env, intOf, "RADARR_PORT", 7878);
    var sonarrPort := PortOr(env, intOf, "SONARR_PORT", 8989);
    if radarrPort.None? || sonarrPort.None? then None
    else
      Some(Settings(
        EnvOr(env, "RADARR_PROTOCOL", "http"),
        EnvOr(env, "RADARR_HOST", ""),
        radarrPort.value,
        EnvOr(env, "RADARR_API_KEY", ""),
        EnvOr(env, "SONARR_PROTOCOL", "http"),
        EnvOr(env, "SONARR_HOST", ""),
        sonarrPort.value,
        EnvOr(env, "SONARR_API_KEY", ""),
        EnvFlag(env, "HANDLE_EPISODES", "true"),
        EnvFlag(env, "HANDLE_SERIES", "false"),
        EnvFlag(env, "HANDLE_SERIES_ENDED_ONLY", "true"),
        EnvFlag(env, "EXCLUDE_SERIES", "true"),
        EnvFlag(env, "REMOVE_MEDIA", "false")))
  }

  /**
   * With nothing set: http on ports 7878 and 8989, no hosts or keys, episodes
   * handled, series not handled, ended series only, series excluded, media kept.
   */
  lemma DefaultsWithoutEnv(intOf: string -> Option<int>)
    ensures FromEnv(map[], intOf)
         == Some(Settings("http", "", 7878, "", "http", "", 8989, "", true, false, true, true, false))
  {
    assert Lower("true") == "true";
    assert Lower("false") != "true" by {
      assert Lower("false")[0] == 'f';
    }
  }

  /** A set flag variable is true exactly when it reads "true" in any case. */
  lemma FlagFromSetVariable(env: map<string, string>, key: string, default: string)
    requires key in env
    ensures EnvFlag(env, key, default) <==> Lower(env[key]) == "true"
  {
  }

  /** "True" and "TRUE" switch a flag on; "1" and "yes" do not. */
  lemma FlagSpellings(key: string, default: string)
    ensures EnvFlag(map[key := "True"], key, default) && EnvFlag(map[key := "TRUE"], key, default)
    ensures !EnvFlag(map[key := "1"], key, default) && !EnvFlag(map[key := "yes"], key, default)
  {
    assert Lower("True") == "true";
    assert Lower("TRUE") == "true";
    assert |Lower("1")| == 1;
    assert Lower("yes")[0] == 'y';
  }

  /** The variables `validate` requires, with their values, in the order it checks them. */
  function RequiredVars(s: Settings): (vars: seq<(string, string)>)
    ensures |vars| == 4
  {
    [("RADARR_HOST", s.radarrHost), ("RADARR_API_KEY", s.radarrApiKey),
     ("SONARR_HOST", s.sonarrHost), ("SONARR_API_KEY", s.sonarrApiKey)]
  }

  /** The names of the variables in `vars` whose value is empty, in the order of `vars`. */
  function EmptyNames(vars: seq<(string, string)>): (names: seq<string>)
    ensures |names| <= |vars|
  {
    if |vars| == 0 then []
    else
      var last := vars[|vars| - 1];
      EmptyNames(vars[..|vars| - 1]) + (if last.1 == "" then [last.0] else [])
  }

  /** What `validate` reports missing. */
  function MissingVars(s: Settings): seq<string> {
    EmptyNames(RequiredVars(s))
  }

  const MissingPrefix: string := "Missing required environment variables: "

  /**
   * `validate`: each required variable that is empty is appended in turn; the
   * check fails, naming them joined by ", ", exactly when one was.
   */
  method Validate(s: Settings) returns (r: Outcome<string>)
    ensures r.Pass? <==> MissingVars(s) == []
    ensures r.Fail? ==> r.error == MissingPrefix + Join(MissingVars(s), ", ")
  {
    ghost var vars := RequiredVars(s);
    var missing: seq<string> := [];
    assert missing == EmptyNames(vars[..0]);
    if s.radarrHost == "" {
      missing := missing + ["RADARR_HOST"];
    }
    assert vars[..1][..0] == vars[..0];
    assert missing == EmptyNames(vars[..1]);
    if s.radarrApiKey == "" {
      missing := missing + ["RADARR_API_KEY"];
    }
    assert vars[..2][..1] == vars[..1];
    assert missing == EmptyNames(vars[..2]);
    if s.sonarrHost == "" {
      missing := missing + ["SONARR_HOST"];
    }
    assert vars[..3][..2] == vars[..2];
    assert missing == EmptyNames(vars[..3]);
    if s.sonarrApiKey == "" {
      missing := missing + ["SONARR_API_KEY"];
    }
    assert vars[..4][..3] == vars[..3] && vars[..4] == vars;
    assert missing == MissingVars(s);
    if |missing| > 0 {
      return Fail(MissingPrefix + Join(missing, ", "));
    }
    return Pass;
  }

  /** A name is reported exactly when some variable of that name has an empty value. */
  lemma {:induction false} EmptyNamesIff(vars: seq<(string, string)>, name: string)
    ensures name in EmptyNames(vars) <==> exists i :: 0 <= i < |vars| && vars[i] == (name, "")
  {
    if |vars| > 0 {
      var init := vars[..|vars| - 1];
      EmptyNamesIff(init, name);
      if name in EmptyNames(init) {
        var i :| 0 <= i < |init| && init[i] == (name, "");
        assert vars[i] == (name, "");
      }
      if exists i :: 0 <= i < |vars| && vars[i] == (name, "") {
        var i :| 0 <= i < |vars| && vars[i] == (name, "");
        if i < |init| {
          assert init[i] == (name, "");
        }
      }
    }
  }

  /** Reported names keep the order of the checks: an earlier report is an earlier check. */
  lemma {:induction false} EmptyNamesInOrder(vars: seq<(string, string)>, i: int, j: int)
    requires 0 <= i < j < |EmptyNames(vars)|
    ensures exists a, b :: 0 <= a < b < |vars| && vars[a] == (EmptyNames(vars)[i], "") && vars[b] == (EmptyNames(vars)[j], "")
  {
    var init := vars[..|vars| - 1];
    var m := EmptyNames(vars);
    var front := EmptyNames(init);
    var last := vars[|vars| - 1];
    assert m == front + (if last.1 == "" then [last.0] else []);
    if j < |front| {
      EmptyNamesInOrder(init, i, j);
      var a, b :| 0 <= a < b < |init| && init[a] == (front[i], "") && init[b] == (front[j], "");
      assert vars[a] == (m[i], "") && vars[b] == (m[j], "");
    } else {
      assert m[i] == front[i] && m[j] == last.0 && last.1 == "";
      EmptyNamesIff(init, front[i]);
      var a :| 0 <= a < |init| && init[a] == (front[i], "");
      assert vars[a] == (m[i], "") && vars[|vars| - 1] == (m[j], "");
    }
  }

  /** The missing list, check by check. */
  lemma MissingVarsUnrolled(s: Settings)
    ensures MissingVars(s)
         == (if s.radarrHost == "" then ["RADARR_HOST"] else [])
            + (if s.radarrApiKey == "" then ["RADARR_API_KEY"] else [])
            + (if s.sonarrHost == "" then ["SONARR_HOST"] else [])
            + (if s.sonarrApiKey == "" then ["SONARR_API_KEY"] else [])
  {
    var vars := RequiredVars(s);
    var a := if s.radarrHost == "" then ["RADARR_HOST"] else [];
    var b := if s.radarrApiKey == "" then ["RADARR_API_KEY"] else [];
    var c := if s.sonarrHost == "" then ["SONARR_HOST"] else [];
    assert vars[..1][..0] == [];
    assert EmptyNames(vars[..1]) == a;
    assert vars[..2][..1] == vars[..1];
    assert EmptyNames(vars[..2]) == a + b;
    assert vars[..3][..2] == vars[..2];
    assert EmptyNames(vars[..3]) == a + b + c;
    assert vars[..4][..3] == vars[..3] && vars[..4] == vars;
  }

  /** With every connection setting present, nothing is missing; with none, all four are, in order. */
  lemma MissingExtremes(s: Settings)
    ensures s.radarrHost != "" && s.radarrApiKey != "" && s.sonarrHost != "" && s.sonarrApiKey != ""
            ==> MissingVars(s) == []
    ensures s.radarrHost == "" && s.radarrApiKey == "" && s.sonarrHost == "" && s.sonarrApiKey == ""
            ==> MissingVars(s) == ["RADARR_HOST", "RADARR_API_KEY", "SONARR_HOST", "SONARR_API_KEY"]
  {
    MissingVarsUnrolled(s);
  }

  /** With only the Sonarr api key unset, the message names it alone. */
  lemma OnlySonarrKeyMissing(s: Settings)
    requires s.radarrHost != "" && s.radarrApiKey != "" && s.sonarrHost != "" && s.sonarrApiKey == ""
    ensures MissingPrefix + Join(MissingVars(s), ", ") == "Missing required environment variables: SONARR_API_KEY"
  {
    MissingVarsUnrolled(s);
  }

  /**
   * `LogConfig.LOG_LEVEL`: the level named by LOG_LEVEL ("info" when unset), 20
   * for a name the map does not know.
   */
  function LogLevelOf(env: map<string, string>): (level: int)
    ensures "LOG_LEVEL" !in env ==> level == 20
    ensures "LOG_LEVEL" in env && env["LOG_LEVEL"] in Config.LogLevels ==> level == Config.LogLevels[env["LOG_LEVEL"]]
    ensures "LOG_LEVEL" in env && env["LOG_LEVEL"] !in Config.LogLevels ==> level == 20
  {
    Config.LogLevel(EnvOr(env, "LOG_LEVEL", "info"))
  }

  /** `settings`: the label of the handling mode. */
  function SettingsLabel(s: Settings): (name: string)
    ensures name == "Unmonitor Only" <==> !s.removeMedia
    ensures name == "Remove Item" <==> s.removeMedia
  {
    Config.SettingsName(s.removeMedia)
  }
}

=== FILE: legacy_server.dfy ===
/**
 * The webhook handler of src/server.py. It validates, acknowledges and routes a
 * body as src/unmonitorr/server.py does, and its two handlers run the same
 * steps, with two differences: they have no gate on a disabled client, and the
 * series is deleted without an `exclude` argument. Its settings are the class
 * attributes of src/config.py (module LegacyConfig), read-only while it runs.
 * src/server.py:10 imports `RadarrWebhookPayload` and `SonarrWebhookPayload`
 * from `types_`, which defines neither in this tree; they are taken to be the
 * payload models of src/unmonitorr/types_/webhook.py (module Webhook).
 */
module LegacyServer {
  import opened Wrappers
  import opened Json
  import opened Webhook
  import opened Gateway
  import opened Policies
  import opened LegacyConfig
  import opened ArrBase
  import opened RadarrTypes
  import opened SonarrTypes
  import Server
  import Config

  /** The handling rules of the legacy settings; no exclusion is passed when a series is deleted. */
  function LegacyPolicy(s: Settings): (p: Policy)
    ensures p.exclude.None?
    ensures p.handleEpisodes == s.handleEpisodes && p.handleSeries == s.handleSeries
    ensures p.endedOnly == s.handleSeriesEndedOnly && p.removeMedia == s.removeMedia
  {
    Policy(s.handleEpisodes, s.handleSeries, s.handleSeriesEndedOnly, None, s.removeMedia)
  }

  class WebhookHandler {
    const config: Settings
    const gateway: Gateway

    /** `__init__`: the settings and the clients, here the gateway. */
    constructor (config: Settings, gateway: Gateway)
      ensures this.config == config && this.gateway == gateway
    {
      this.config := config;
      this.gateway := gateway;
    }

    /** `handle_movie`: runs whatever the Radarr connection settings are. */
    method HandleMovie(payload: RadarrPayload) returns (raised: bool)
      modifies gateway
      ensures gateway.calls == old(gateway.calls) + RouteCalls(LegacyPolicy(config), false, false, ToMovie(payload),
                gateway.movies, gateway.series)
      ensures raised == RouteRaises(LegacyPolicy(config), false, false, ToMovie(payload), gateway.movies, gateway.series)
    {
      raised := Server.RunMoviePolicy(gateway, config.removeMedia, payload.movie);
    }

    /** `handle_series`: runs whatever the Sonarr connection settings are. */
    method HandleSeries(payload: SonarrPayload) returns (raised: bool)
      modifies gateway
      ensures gateway.calls == old(gateway.calls) + RouteCalls(LegacyPolicy(config), false, false, ToSeries(payload),
                gateway.movies, gateway.series)
      ensures raised == RouteRaises(LegacyPolicy(config), false, false, ToSeries(payload), gateway.movies, gateway.series)
    {
      raised := Server.RunSeriesPolicy(gateway, LegacyPolicy(config), payload);
    }

    /**
     * `generic_handler`: validate, acknowledge a test event, otherwise run the one
     * handler of the payload's kind.
     */
    method GenericHandler(body: Json) returns (route: Route, raised: bool)
      modifies gateway
      ensures route == RouteOf(body)
      ensures gateway.calls == old(gateway.calls) + RouteCalls(LegacyPolicy(config), false, false, route,
                gateway.movies, gateway.series)
      ensures raised == RouteRaises(LegacyPolicy(config), false, false, route, gateway.movies, gateway.series)
    {
      var validated := Server.ValidatePayload(body);
      if validated.Unrecognized? {
        route, raised := Dropped, false;
        return;
      }
      if IsTestEvent(EventOf(validated)) {
        route, raised := Acknowledged, false;
        return;
      }
      if validated.Movie? {
        route := ToMovie(validated.movie);
        raised := HandleMovie(validated.movie);
      } else {
        route := ToSeries(validated.series);
        raised := HandleSeries(validated.series);
      }
    }
  }

  /**
   * With REMOVE_MEDIA a movie body makes exactly one call, the delete of the
   * webhook's movie id, whatever the rest of the settings are.
   */
  lemma MovieRemoveMediaDeletesOnly(s: Settings, payload: RadarrPayload,
                                    movies: int -> Fetch<MovieRecord>, series: int -> Fetch<SeriesRecord>)
    requires s.removeMedia
    ensures RouteCalls(LegacyPolicy(s), false, false, ToMovie(payload), movies, series) == [DeleteMovie(payload.movie.id)]
    ensures !RouteRaises(LegacyPolicy(s), false, false, ToMovie(payload), movies, series)
  {
    Policies.MovieRemoveMediaDeletesOnly(payload.movie.id, movies(payload.movie.id));
  }

  /** A series deleted by the legacy handler is deleted by its webhook id, with no exclusion argument. */
  lemma {:induction false} SeriesDeletedWithoutExclude(s: Settings, payload: SonarrPayload, fetch: Fetch<SeriesRecord>)
    requires s.handleSeries && s.removeMedia && fetch.Found? && Eligible(s.handleSeriesEndedOnly, fetch.value)
    ensures var calls := SeriesCalls(LegacyPolicy(s), payload, fetch);
            |calls| >= 1 && calls[|calls| - 1] == DeleteSeries(payload.series.id, None)
  {
    SeriesMutationKind(LegacyPolicy(s), payload, fetch);
  }

  /**
   * The legacy handler makes the calls the handler of src/unmonitorr makes with
   * both clients enabled and the same rules, except for the exclusion argument of
   * a delete: every movie body and, without REMOVE_MEDIA, every series body gives
   * the same calls, and the same bodies end in a validation error.
   */
  lemma {:induction false} SameCallsAsServer(s: Settings, v: Config.ConfigValues, r: Route,
                                             movies: int -> Fetch<MovieRecord>, series: int -> Fetch<SeriesRecord>)
    requires v.handleEpisodes == s.handleEpisodes && v.handleSeries == s.handleSeries
    requires v.handleSeriesEndedOnly == s.handleSeriesEndedOnly && v.removeMedia == s.removeMedia
    ensures r.ToMovie? || !s.removeMedia ==>
              RouteCalls(LegacyPolicy(s), false, false, r, movies, series)
              == RouteCalls(Server.HandlerPolicy(v), false, false, r, movies, series)
    ensures RouteRaises(LegacyPolicy(s), false, false, r, movies, series)
            == RouteRaises(Server.HandlerPolicy(v), false, false, r, movies, series)
  {
    var legacy := LegacyPolicy(s);
    var current := Server.HandlerPolicy(v);
    if r.ToSeries? && !s.removeMedia {
      var payload := r.series;
      var fetch := series(payload.series.id);
      assert EpisodeCalls(legacy, payload) == EpisodeCalls(current, payload);
      if fetch.Found? {
        assert SeriesMutation(legacy, payload.series, fetch.value) == SeriesMutation(current, payload.series, fetch.value);
      }
      assert SeriesStageCalls(legacy, payload, fetch) == SeriesStageCalls(current, payload, fetch);
    }
  }
}

=== FILE: legacy_types.dfy ===
/**
 * The dataclasses of src/types_.py. Each `from_payload` keeps the payload keys of
 * its allowed set, renames them with `to_snake_case` and passes them as keyword
 * arguments; construction fails when a field is left without a value. Dataclasses
 * do not check the types of their values, so every field holds the JSON value it
 * was given. Every failure (a missing key, a value that is not a dictionary, a
 * missing field) is None.
 */
module LegacyTypes {
  import opened Wrappers
  import opened Json
  import opened Text
  import opened Naming

  const AllowedMovieKeys: set<string> := {"id", "title", "tmdbId", "year", "folderPath", "tags"}
  const AllowedSeriesKeys: set<string> := {"id", "title", "path", "year", "tags"}
  const AllowedEpisodeKeys: set<string> :=
    {"id", "episodeNumber", "seasonNumber", "seriesId", "title", "overview", "airDate"}

  /** The fields of `Movie`, `Series` (without `episodes`) and `Episode`. */
  const MovieFields: set<string> := {"id", "title", "tmdb_id", "year", "folder_path", "tags"}
  const SeriesFields: set<string> := {"id", "title", "path", "year", "tags"}
  const EpisodeFields: set<string> :=
    {"id", "episode_number", "season_number", "series_id", "title", "overview", "air_date"}

  datatype Movie = Movie(id: Json, title: Json, tmdbId: Json, year: Json, tags: Json, folderPath: Json)

  datatype Episode = Episode(
    id: Json, episodeNumber: Json, seasonNumber: Json, seriesId: Json,
    title: Json, overview: Json, airDate: Json)

  datatype Series = Series(id: Json, tags: Json, title: Json, year: Json, path: Json, episodes: seq<Episode>)

  // ---------------------------------------------------------------------------
  // The snake_case names of the allowed keys

  /** A key without upper-case letters is its own snake_case name. */
  lemma OneWordSnakeNames()
    ensures SnakeCase("id") == "id" && SnakeCase("title") == "title" && SnakeCase("year") == "year"
    ensures SnakeCase("tags") == "tags" && SnakeCase("path") == "path" && SnakeCase("overview") == "overview"
  {
    ShortSnakeNames();
    SnakeOfLowercase("title");
    SnakeOfLowercase("overview");
  }

  lemma ShortSnakeNames()
    ensures SnakeCase("id") == "id" && SnakeCase("year") == "year"
    ensures SnakeCase("tags") == "tags" && SnakeCase("path") == "path"
  {
    SnakeOfLowercase("id");
    SnakeOfLowercase("year");
    SnakeOfLowercase("tags");
    SnakeOfLowercase("path");
  }

  /** `to_snake_case` of a lower-case word followed by a capitalized one. */
  lemma SnakeOfCamelPair(a: string, b: string, lowerB: string)
    requires |a| > 0 && |b| > 0 && IsUpper(b[0])
    requires forall i :: 0 <= i < |a| ==> !IsUpper(a[i])
    requires forall i :: 1 <= i < |b| ==> !IsUpper(b[i])
    requires Lower(b) == lowerB
    ensures SnakeCase(a + b) == a + "_" + lowerB
  {
    SnakeOfTwoWords(a, b);
  }

  lemma TmdbIdSnake()
    ensures SnakeCase("tmdbId") == "tmdb_id"
  {
    SnakeOfCamelPair("tmdb", "Id", "id");
    assert "tmdb" + "Id" == "tmdbId";
    assert "tmdb" + "_" + "id" == "tmdb_id";
  }

  lemma FolderPathSnake()
    ensures SnakeCase("folderPath") == "folder_path"
  {
    SnakeOfCamelPair("folder", "Path", "path");
    assert "folder" + "Path" == "folderPath";
    assert "folder" + "_" + "path" == "folder_path";
  }

  lemma EpisodeNumberSnake()
    ensures SnakeCase("episodeNumber") == "episode_number"
  {
    SnakeOfCamelPair("episode", "Number", "number");
    assert "episode" + "Number" == "episodeNumber";
    assert "episode" + "_" + "number" == "episode_number";
  }

  lemma SeasonNumberSnake()
    ensures SnakeCase("seasonNumber") == "season_number"
  {
    SnakeOfCamelPair("season", "Number", "number");
    assert "season" + "Number" == "seasonNumber";
    assert "season" + "_" + "number" == "season_number";
  }

  lemma SeriesIdSnake()
    ensures SnakeCase("seriesId") == "series_id"
  {
    SnakeOfCamelPair("series", "Id", "id");
    assert "series" + "Id" == "seriesId";
    assert "series" + "_" + "id" == "series_id";
  }

  lemma AirDateSnake()
    ensures SnakeCase("airDate") == "air_date"
  {
    SnakeOfCamelPair("air", "Date", "date");
    assert "air" + "Date" == "airDate";
    assert "air" + "_" + "date" == "air_date";
  }

  /** A camelCase key: no "_", and not starting with an upper-case letter. */
  predicate CamelKey(k: string) {
    '_' !in k && (|k| > 0 ==> !IsUpper(k[0]))
  }

  /** `to_snake_case` is undone by `to_camel_case` on camelCase keys, so it sends no two of them to one name. */
  lemma SnakeInjectiveOnCamelKeys(allowed: set<string>)
    requires forall k :: k in allowed ==> CamelKey(k)
    ensures SnakeInjective(allowed)
  {
    forall a, b | a in allowed && b in allowed && SnakeCase(a) == SnakeCase(b)
      ensures a == b
    {
      SnakeCamelRoundTrip(a);
      SnakeCamelRoundTrip(b);
    }
  }

  /** The allowed keys are camelCase keys, so their snake_case names are distinct. */
  lemma MovieKeysInjective()
    ensures SnakeInjective(AllowedMovieKeys)
  {
    assert forall k :: k in AllowedMovieKeys ==> CamelKey(k);
    SnakeInjectiveOnCamelKeys(AllowedMovieKeys);
  }

  lemma SeriesKeysInjective()
    ensures SnakeInjective(AllowedSeriesKeys)
  {
    assert forall k :: k in AllowedSeriesKeys ==> CamelKey(k);
    SnakeInjectiveOnCamelKeys(AllowedSeriesKeys);
  }

  lemma EpisodeKeysInjective()
    ensures SnakeInjective(AllowedEpisodeKeys)
  {
    assert forall k :: k in AllowedEpisodeKeys ==> CamelKey(k);
    SnakeInjectiveOnCamelKeys(AllowedEpisodeKeys);
  }

  /** The snake_case names of a set of keys. */
  function SnakeNames(keys: set<string>): set<string> {
    set k | k in keys :: SnakeCase(k)
  }

  /** The snake_case names of seven keys, given the name of each. */
  lemma SnakeImage7(k1: string, k2: string, k3: string, k4: string, k5: string, k6: string, k7: string,
                   n1: string, n2: string, n3: string, n4: string, n5: string, n6: string, n7: string)
    requires SnakeCase(k1) == n1 && SnakeCase(k2) == n2 && SnakeCase(k3) == n3 && SnakeCase(k4) == n4
    requires SnakeCase(k5) == n5 && SnakeCase(k6) == n6 && SnakeCase(k7) == n7
    ensures SnakeNames({k1, k2, k3, k4, k5, k6, k7}) == {n1, n2, n3, n4, n5, n6, n7}
  {
  }

  /** The snake_case names of five keys, given the name of each. */
  lemma SnakeImage5(k1: string, k2: string, k3: string, k4: string, k5: string,
                    n1: string, n2: string, n3: string, n4: string, n5: string)
    requires SnakeCase(k1) == n1 && SnakeCase(k2) == n2 && SnakeCase(k3) == n3
    requires SnakeCase(k4) == n4 && SnakeCase(k5) == n5
    ensures SnakeNames({k1, k2, k3, k4, k5}) == {n1, n2, n3, n4, n5}
  {
  }

  /** The snake_case names of six keys, given the name of each. */
  lemma SnakeImage6(k1: string, k2: string, k3: string, k4: string, k5: string, k6: string,
                    n1: string, n2: string, n3: string, n4: string, n5: string, n6: string)
    requires SnakeCase(k1) == n1 && SnakeCase(k2) == n2 && SnakeCase(k3) == n3
    requires SnakeCase(k4) == n4 && SnakeCase(k5) == n5 && SnakeCase(k6) == n6
    ensures SnakeNames({k1, k2, k3, k4, k5, k6}) == {n1, n2, n3, n4, n5, n6}
  {
  }

  /** The snake_case names of the allowed keys are exactly the field names. */
  lemma MovieSnakeNames()
    ensures SnakeNames(AllowedMovieKeys) == MovieFields
  {
    OneWordSnakeNames();
    TmdbIdSnake();
    FolderPathSnake();
    SnakeImage6("id", "title", "tmdbId", "year", "folderPath", "tags",
                "id", "title", "tmdb_id", "year", "folder_path", "tags");
  }

  lemma SeriesSnakeNames()
    ensures SnakeNames(AllowedSeriesKeys) == SeriesFields
  {
    OneWordSnakeNames();
    SnakeImage5("id", "title", "path", "year", "tags", "id", "title", "path", "year", "tags");
  }

  lemma EpisodeSnakeNames()
    ensures SnakeNames(AllowedEpisodeKeys) == EpisodeFields
  {
    OneWordSnakeNames();
    EpisodeNumberSnake();
    SeasonNumberSnake();
    SeriesIdSnake();
    AirDateSnake();
    SnakeImage7("id", "episodeNumber", "seasonNumber", "seriesId", "title", "overview", "airDate",
                "id", "episode_number", "season_number", "series_id", "title", "overview", "air_date");
  }

  // ---------------------------------------------------------------------------
  // Keyword arguments

  /** No two keys of `allowed` share a snake_case name. */
  predicate SnakeInjective(allowed: set<string>) {
    forall a, b :: a in allowed && b in allowed && SnakeCase(a) == SnakeCase(b) ==> a == b
  }

  /**
   * `{to_snake_case(k): v for k, v in data.items() if k in allowed}`. No value is
   * overwritten by a later key with the same name, as the allowed keys have
   * distinct snake_case names.
   */
  function Kwargs(data: Object, allowed: set<string>): (kw: Object)
    requires SnakeInjective(allowed)
    ensures kw.Keys == set k | k in data && k in allowed :: SnakeCase(k)
    ensures forall k :: k in data && k in allowed ==> kw[SnakeCase(k)] == data[k]
  {
    map k | k in data && k in allowed :: SnakeCase(k) := data[k]
  }

  /**
   * With the allowed keys renamed onto the fields, every field has a value exactly
   * when every allowed key is in the payload.
   */
  lemma KwargsCoverFields(data: Object, allowed: set<string>, fields: set<string>)
    requires SnakeInjective(allowed)
    requires SnakeNames(allowed) == fields
    ensures Kwargs(data, allowed).Keys == fields <==> allowed <= data.Keys
  {
    var kw := Kwargs(data, allowed);
    if kw.Keys == fields {
      forall k | k in allowed
        ensures k in data
      {
        assert SnakeCase(k) in fields;
        var k' :| k' in data && k' in allowed && SnakeCase(k') == SnakeCase(k);
      }
    }
  }

  /** Keys outside the allowed set do not reach the keyword arguments. */
  lemma KwargsIgnoreOthers(data: Object, allowed: set<string>, key: string, value: Json)
    requires SnakeInjective(allowed) && key !in allowed
    ensures Kwargs(data[key := value], allowed) == Kwargs(data, allowed)
  {
    var a := Kwargs(data[key := value], allowed);
    var b := Kwargs(data, allowed);
    assert a.Keys == b.Keys;
    forall f | f in a
      ensures a[f] == b[f]
    {
      var k :| k in data[key := value] && k in allowed && SnakeCase(k) == f;
      assert k != key && k in data;
    }
  }

  // ---------------------------------------------------------------------------
  // Constructors

  /** `Movie(**kwargs)`: construction fails unless exactly the fields are given. */
  function MovieOfKwargs(kw: Object): (r: Option<Movie>)
    ensures r.Some? <==> kw.Keys == MovieFields
  {
    if kw.Keys == MovieFields then
      Some(Movie(kw["id"], kw["title"], kw["tmdb_id"], kw["year"], kw["tags"], kw["folder_path"]))
    else None
  }

  function EpisodeOfKwargs(kw: Object): (r: Option<Episode>)
    ensures r.Some? <==> kw.Keys == EpisodeFields
  {
    if kw.Keys == EpisodeFields then
      Some(Episode(kw["id"], kw["episode_number"], kw["season_number"], kw["series_id"],
                   kw["title"], kw["overview"], kw["air_date"]))
    else None
  }

  /** `Series(**kwargs, episodes=episodes)`. */
  function SeriesOfKwargs(kw: Object, episodes: seq<Episode>): (r: Option<Series>)
    ensures r.Some? <==> kw.Keys == SeriesFields
    ensures r.Some? ==> r.value.episodes == episodes
  {
    if kw.Keys == SeriesFields then
      Some(Series(kw["id"], kw["tags"], kw["title"], kw["year"], kw["path"], episodes))
    else None
  }

  /** `Movie.from_payload`: the allowed keys of `data["movie"]`. */
  function MovieFromPayload(data: Object): (r: Option<Movie>)
    ensures r.Some? ==> "movie" in data && data["movie"].JObj?
  {
    if "movie" in data && data["movie"].JObj? then
      MovieKeysInjective();
      MovieOfKwargs(Kwargs(data["movie"].fields, AllowedMovieKeys))
    else None
  }

  /** `Episode.from_payload`: the allowed keys of `data` itself. */
  function EpisodeFromPayload(data: Object): (r: Option<Episode>)
    ensures r.Some? ==> "id" in data && r.value.id == data["id"]
  {
    EpisodeKeysInjective();
    EpisodeSnakeNames();
    KwargsCoverFields(data, AllowedEpisodeKeys, EpisodeFields);
    OneWordSnakeNames();
    EpisodeOfKwargs(Kwargs(data, AllowedEpisodeKeys))
  }

  /** `Episode.from_payload(item)` for an item of the episode list, which must be a dictionary. */
  function EpisodeOfItem(item: Json): Option<Episode> {
    if item.JObj? then EpisodeFromPayload(item.fields) else None
  }

  /**
   * A list comprehension whose element expression may raise: the results in order
   * when no element raises, None otherwise.
   */
  function MapOrFail<T>(items: seq<Json>, f: Json -> Option<T>): (r: Option<seq<T>>)
    ensures r.Some? <==> forall i :: 0 <= i < |items| ==> f(items[i]).Some?
    ensures r.Some? ==> |r.value| == |items|
    ensures r.Some? ==> forall i :: 0 <= i < |items| ==> Some(r.value[i]) == f(items[i])
  {
    if |items| == 0 then Some([])
    else
      var first := f(items[0]);
      var rest := MapOrFail(items[1..], f);
      if first.Some? && rest.Some? then
        assert forall i :: 1 <= i < |items| ==> items[1..][i - 1] == items[i];
        Some([first.value] + rest.value)
      else None
  }

  /** `[Episode.from_payload(item) for item in items]`: one episode per item, in order. */
  function EpisodesFrom(items: seq<Json>): Option<seq<Episode>> {
    MapOrFail(items, EpisodeOfItem)
  }

  /**
   * Iterating `data["episodes"]`: a list gives its items; an empty dictionary or
   * string gives nothing; a non-empty dictionary or string gives keys or characters,
   * which are not dictionaries; any other value is not iterable.
   */
  function EpisodesOf(j: Json): (r: Option<seq<Episode>>)
    ensures r.Some? && j.JArr? ==> |r.value| == |j.items|
    ensures r.Some? && !j.JArr? ==> r.value == []
  {
    match j
    case JArr(items) => EpisodesFrom(items)
    case JObj(fields) => if fields == map[] then Some([]) else None
    case JStr(s) => if s == "" then Some([]) else None
    case _ => None
  }

  /** `Series.from_payload`: the allowed keys of `data["series"]`, then the episodes of `data["episodes"]`. */
  function SeriesFromPayload(data: Object): (r: Option<Series>)
    ensures r.Some? ==> "episodes" in data && EpisodesOf(data["episodes"]) == Some(r.value.episodes)
  {
    if "series" in data && data["series"].JObj? && "episodes" in data then
      SeriesKeysInjective();
      var kw := Kwargs(data["series"].fields, AllowedSeriesKeys);
      var episodes := EpisodesOf(data["episodes"]);
      if episodes.Some? then SeriesOfKwargs(kw, episodes.value) else None
    else None
  }

  // ---------------------------------------------------------------------------
  // What the constructors promise

  /**
   * A movie is built exactly when `data["movie"]` is a dictionary holding every
   * allowed key; each field holds the value of its camelCase key.
   */
  lemma MovieFromPayloadSpec(data: Object)
    ensures MovieFromPayload(data).Some?
        <==> "movie" in data && data["movie"].JObj? && AllowedMovieKeys <= data["movie"].fields.Keys
    ensures MovieFromPayload(data).Some? ==>
      var m := data["movie"].fields;
      MovieFromPayload(data).value == Movie(m["id"], m["title"], m["tmdbId"], m["year"], m["tags"], m["folderPath"])
  {
    MovieKeysInjective();
    MovieSnakeNames();
    if "movie" in data && data["movie"].JObj? {
      var m := data["movie"].fields;
      KwargsCoverFields(m, AllowedMovieKeys, MovieFields);
      OneWordSnakeNames();
      TmdbIdSnake();
      FolderPathSnake();
    }
  }

  /** An episode is built exactly when every allowed key is present. */
  lemma EpisodeFromPayloadSpec(data: Object)
    ensures EpisodeFromPayload(data).Some? <==> AllowedEpisodeKeys <= data.Keys
    ensures EpisodeFromPayload(data).Some? ==>
      EpisodeFromPayload(data).value
        == Episode(data["id"], data["episodeNumber"], data["seasonNumber"], data["seriesId"],
                   data["title"], data["overview"], data["airDate"])
  {
    EpisodeKeysInjective();
    EpisodeSnakeNames();
    KwargsCoverFields(data, AllowedEpisodeKeys, EpisodeFields);
    OneWordSnakeNames();
    EpisodeNumberSnake();
    SeasonNumberSnake();
    SeriesIdSnake();
    AirDateSnake();
  }

  /** A key outside the allowed set changes nothing about the movie built. */
  lemma MovieIgnoresOtherKeys(data: Object, key: string, value: Json)
    requires "movie" in data && data["movie"].JObj? && key !in AllowedMovieKeys
    ensures MovieFromPayload(data["movie" := JObj(data["movie"].fields[key := value])]) == MovieFromPayload(data)
  {
    MovieKeysInjective();
    KwargsIgnoreOthers(data["movie"].fields, AllowedMovieKeys, key, value);
  }

  /** A key outside the allowed set changes nothing about the episode built. */
  lemma EpisodeIgnoresOtherKeys(data: Object, key: string, value: Json)
    requires key !in AllowedEpisodeKeys
    ensures EpisodeFromPayload(data[key := value]) == EpisodeFromPayload(data)
  {
    EpisodeKeysInjective();
    KwargsIgnoreOthers(data, AllowedEpisodeKeys, key, value);
  }

  /**
   * A series is built exactly when `data["series"]` is a dictionary holding every
   * allowed key and `data["episodes"]` gives episodes; each field holds the value of
   * its key.
   */
  lemma SeriesFromPayloadSpec(data: Object)
    ensures SeriesFromPayload(data).Some?
        <==> "series" in data && data["series"].JObj? && AllowedSeriesKeys <= data["series"].fields.Keys
             && "episodes" in data && EpisodesOf(data["episodes"]).Some?
    ensures SeriesFromPayload(data).Some? ==>
      var m := data["series"].fields;
      SeriesFromPayload(data).value
        == Series(m["id"], m["tags"], m["title"], m["year"], m["path"], EpisodesOf(data["episodes"]).value)
  {
    SeriesKeysInjective();
    if "series" in data && data["series"].JObj? && "episodes" in data && EpisodesOf(data["episodes"]).Some? {
      var m := data["series"].fields;
      var episodes := EpisodesOf(data["episodes"]).value;
      assert SeriesFromPayload(data) == SeriesOfKwargs(Kwargs(m, AllowedSeriesKeys), episodes);
      SeriesKwargs(m, episodes);
    } else {
      assert SeriesFromPayload(data) == None;
    }
  }

  /** The keyword arguments of five allowed keys with distinct snake_case names. */
  lemma KwargsOfFive(m: Object, k1: string, k2: string, k3: string, k4: string, k5: string,
                     n1: string, n2: string, n3: string, n4: string, n5: string)
    requires SnakeCase(k1) == n1 && SnakeCase(k2) == n2 && SnakeCase(k3) == n3
    requires SnakeCase(k4) == n4 && SnakeCase(k5) == n5
    requires SnakeInjective({k1, k2, k3, k4, k5})
    ensures Kwargs(m, {k1, k2, k3, k4, k5}).Keys == {n1, n2, n3, n4, n5} <==> {k1, k2, k3, k4, k5} <= m.Keys
    ensures {k1, k2, k3, k4, k5} <= m.Keys ==>
      var kw := Kwargs(m, {k1, k2, k3, k4, k5});
      kw[n1] == m[k1] && kw[n2] == m[k2] && kw[n3] == m[k3] && kw[n4] == m[k4] && kw[n5] == m[k5]
  {
    SnakeImage5(k1, k2, k3, k4, k5, n1, n2, n3, n4, n5);
    KwargsCoverFields(m, {k1, k2, k3, k4, k5}, {n1, n2, n3, n4, n5});
  }

  /** `Series(**kwargs, episodes=...)` for the keyword arguments of a series dictionary. */
  lemma SeriesKwargs(m: Object, episodes: seq<Episode>)
    requires SnakeInjective(AllowedSeriesKeys)
    ensures SeriesOfKwargs(Kwargs(m, AllowedSeriesKeys), episodes).Some? <==> AllowedSeriesKeys <= m.Keys
    ensures SeriesOfKwargs(Kwargs(m, AllowedSeriesKeys), episodes).Some? ==>
      SeriesOfKwargs(Kwargs(m, AllowedSeriesKeys), episodes).value
        == Series(m["id"], m["tags"], m["title"], m["year"], m["path"], episodes)
  {
    ShortSnakeNames();
    SnakeOfLowercase("title");
    KwargsOfFive(m, "id", "title", "path", "year", "tags", "id", "title", "path", "year", "tags");
  }
}

=== FILE: naming.dfy ===
/**
 * Name conversions between the snake_case attribute names of the models and the
 * camelCase keys the Sonarr and Radarr APIs use.
 *
 * - ToCamelCase is the pydantic alias generator (`_to_camel_case` in
 *   src/unmonitorr/types_/base.py, `to_camel_case` in src/types_/base.py):
 *   split on "_", keep the first segment, capitalize the rest, join.
 * - SnakeCase and CamelFromSnake are the two regular-expression conversions of
 *   src/utils.py.
 */
module Naming {
  import opened Text

  /** `"".join(word.capitalize() for word in words)`. */
  function CapitalizeAll(words: seq<string>): string
    decreases |words|
  {
    if |words| == 0 then "" else Capitalize(words[0]) + CapitalizeAll(words[1..])
  }

  /** The alias generator of the shared pydantic base model. */
  function ToCamelCase(name: string): (r: string)
    ensures Split(name, '_')[0] <= r
  {
    var parts := Split(name, '_');
    parts[0] + CapitalizeAll(parts[1..])
  }

  lemma {:induction false} CapitalizeAllHasNoUnderscore(words: seq<string>)
    requires forall k :: 0 <= k < |words| ==> '_' !in words[k]
    ensures '_' !in CapitalizeAll(words)
    decreases |words|
  {
    if |words| > 0 {
      CapitalizeAllHasNoUnderscore(words[1..]);
      var w := words[0];
      if |w| > 0 {
        assert w[0] != '_';
        assert forall i :: 0 <= i < |w| - 1 ==> w[1..][i] != '_';
      }
    }
  }

  /** The alias never contains an underscore. */
  lemma CamelHasNoUnderscore(name: string)
    ensures '_' !in ToCamelCase(name)
  {
    var parts := Split(name, '_');
    CapitalizeAllHasNoUnderscore(parts[1..]);
  }

  /**
   * For a name made of underscore-free segments, the alias is the first segment
   * unchanged followed by every later segment capitalized, in order.
   */
  lemma CamelOfSegments(first: string, rest: seq<string>)
    requires '_' !in first
    requires forall k :: 0 <= k < |rest| ==> '_' !in rest[k]
    ensures ToCamelCase(Join([first] + rest, "_")) == first + CapitalizeAll(rest)
  {
    var parts := [first] + rest;
    assert parts[0] == first && parts[1..] == rest;
    SplitJoin(parts, '_');
  }

  /** A name with no underscore is its own alias. */
  lemma CamelWithoutUnderscore(name: string)
    requires '_' !in name
    ensures ToCamelCase(name) == name
  {
    SplitWithoutSeparator(name, '_');
  }

  /** Generating the alias of an alias changes nothing. */
  lemma CamelIdempotent(name: string)
    ensures ToCamelCase(ToCamelCase(name)) == ToCamelCase(name)
  {
    CamelHasNoUnderscore(name);
    CamelWithoutUnderscore(ToCamelCase(name));
  }

  /** The alias of a name with exactly two underscore-separated segments. */
  lemma CamelOfTwo(a: string, b: string)
    requires '_' !in a && '_' !in b
    ensures ToCamelCase(a + "_" + b) == a + Capitalize(b)
  {
    CamelOfSegments(a, [b]);
    assert Join([a] + [b], "_") == a + "_" + b;
    assert CapitalizeAll([b]) == Capitalize(b) + CapitalizeAll([]);
  }

  /** The alias of a name with exactly three underscore-separated segments. */
  lemma CamelOfThree(a: string, b: string, c: string)
    requires '_' !in a && '_' !in b && '_' !in c
    ensures ToCamelCase(a + "_" + b + "_" + c) == a + Capitalize(b) + Capitalize(c)
  {
    var x := a + "_" + b + "_" + c;
    var bc := b + ['_'] + c;
    assert x == a + ['_'] + bc;
    SplitWithoutSeparator(c, '_');
    SplitAtSeparator(b, '_', c);
    SplitAtSeparator(a, '_', bc);
    var parts := Split(x, '_');
    assert parts == [a, b, c];
    assert parts[1..] == [b, c] && [b, c][1..] == [c];
    assert CapitalizeAll([c]) == Capitalize(c);
    assert CapitalizeAll([b, c]) == Capitalize(b) + Capitalize(c);
  }

  // ---------------------------------------------------------------------------
  // src/utils.py

  /** Insert "_" before every ASCII upper-case letter. */
  function MarkUpper(s: string): string
    decreases |s|
  {
    if |s| == 0 then ""
    else (if IsUpper(s[0]) then ['_', s[0]] else [s[0]]) + MarkUpper(s[1..])
  }

  /**
   * `to_snake_case`: "_" goes before every ASCII upper-case letter that is not at
   * index 0, then the whole string is lower-cased.
   */
  function SnakeCase(key: string): (r: string)
    ensures forall i :: 0 <= i < |r| ==> !IsUpper(r[i])
  {
    if |key| == 0 then "" else Lower([key[0]] + MarkUpper(key[1..]))
  }

  lemma {:induction false} MarkUpperOfLowercase(s: string)
    requires forall i :: 0 <= i < |s| ==> !IsUpper(s[i])
    ensures MarkUpper(s) == s
    decreases |s|
  {
    if |s| > 0 {
      MarkUpperOfLowercase(s[1..]);
      assert [s[0]] + s[1..] == s;
    }
  }

  /** A key with no upper-case letter is already snake_case. */
  lemma SnakeOfLowercase(key: string)
    requires forall i :: 0 <= i < |key| ==> !IsUpper(key[i])
    ensures SnakeCase(key) == key
  {
    if |key| > 0 {
      MarkUpperOfLowercase(key[1..]);
      assert [key[0]] + key[1..] == key;
      LowerOfLowercase(key);
    }
  }

  /** Converting twice is converting once. */
  lemma SnakeIdempotent(key: string)
    ensures SnakeCase(SnakeCase(key)) == SnakeCase(key)
  {
    SnakeOfLowercase(SnakeCase(key));
  }

  /**
   * `to_camel_case` of src/utils.py: scanning left to right, every "_" followed
   * by an ASCII lower-case letter is replaced by that letter upper-cased; every
   * other character is kept.
   */
  function CamelFromSnake(s: string): (r: string)
    ensures |r| <= |s|
    ensures |s| > 0 ==> |r| > 0
    decreases |s|
  {
    if |s| == 0 then ""
    else if |s| >= 2 && s[0] == '_' && IsLower(s[1]) then [UpperChar(s[1])] + CamelFromSnake(s[2..])
    else [s[0]] + CamelFromSnake(s[1..])
  }

  /** No "_" followed by a lower-case letter. */
  predicate NoSnakeBoundary(s: string) {
    forall i :: 0 <= i < |s| - 1 && s[i] == '_' ==> !IsLower(s[i + 1])
  }

  /** After the conversion no "_" is followed by a lower-case letter. */
  lemma {:induction false} CamelFromSnakeLeavesNoBoundary(s: string)
    ensures NoSnakeBoundary(CamelFromSnake(s))
    ensures |s| > 0 && !IsLower(s[0]) ==> |CamelFromSnake(s)| > 0 && !IsLower(CamelFromSnake(s)[0])
    ensures |s| > 0 && s[0] == '_' ==> |CamelFromSnake(s)| > 0 && !IsLower(CamelFromSnake(s)[0])
    decreases |s|
  {
    if |s| == 0 {
    } else if |s| >= 2 && s[0] == '_' && IsLower(s[1]) {
      CamelFromSnakeLeavesNoBoundary(s[2..]);
    } else {
      CamelFromSnakeLeavesNoBoundary(s[1..]);
      var rest := CamelFromSnake(s[1..]);
      if s[0] == '_' && |rest| > 0 {
        if |s| >= 2 && s[1] == '_' {
          assert !IsLower(rest[0]);
        } else {
          assert |s| >= 2 && !IsLower(s[1]);
          assert !IsLower(rest[0]);
        }
      }
    }
  }

  /** A string without such a boundary is left unchanged. */
  lemma {:induction false} CamelFromSnakeIdentity(s: string)
    requires NoSnakeBoundary(s)
    ensures CamelFromSnake(s) == s
    decreases |s|
  {
    if |s| > 0 {
      assert NoSnakeBoundary(s[1..]) by {
        forall i | 0 <= i < |s[1..]| - 1 && s[1..][i] == '_'
          ensures !IsLower(s[1..][i + 1])
        {
          assert s[i + 1] == '_';
        }
      }
      CamelFromSnakeIdentity(s[1..]);
      assert [s[0]] + s[1..] == s;
    }
  }

  /** The regular-expression camelCase conversion is idempotent. */
  lemma CamelFromSnakeIdempotent(s: string)
    ensures CamelFromSnake(CamelFromSnake(s)) == CamelFromSnake(s)
  {
    CamelFromSnakeLeavesNoBoundary(s);
    CamelFromSnakeIdentity(CamelFromSnake(s));
  }

  lemma {:induction false} CamelUndoesMarkUpper(t: string)
    requires '_' !in t
    ensures CamelFromSnake(Lower(MarkUpper(t))) == t
    decreases |t|
  {
    if |t| > 0 {
      var d := t[0];
      CamelUndoesMarkUpper(t[1..]);
      var tail := Lower(MarkUpper(t[1..]));
      if IsUpper(d) {
        LowerConcat(['_', d], MarkUpper(t[1..]));
        var s := ['_', LowerChar(d)] + tail;
        assert Lower(MarkUpper(t)) == s;
        assert s[2..] == tail;
        assert UpperChar(LowerChar(d)) == d;
      } else {
        LowerConcat([d], MarkUpper(t[1..]));
        var s := [d] + tail;
        assert Lower(MarkUpper(t)) == s;
        assert s[1..] == tail;
      }
      assert [d] + t[1..] == t;
    }
  }

  /**
   * The two conversions of src/utils.py are inverse on camelCase keys: a key that
   * does not start with an upper-case letter and has no "_" comes back unchanged.
   */
  lemma SnakeCamelRoundTrip(key: string)
    requires '_' !in key
    requires |key| > 0 ==> !IsUpper(key[0])
    ensures CamelFromSnake(SnakeCase(key)) == key
  {
    if |key| > 0 {
      var c := key[0];
      CamelUndoesMarkUpper(key[1..]);
      LowerConcat([c], MarkUpper(key[1..]));
      var s := [c] + Lower(MarkUpper(key[1..]));
      assert SnakeCase(key) == s;
      assert s[1..] == Lower(MarkUpper(key[1..]));
      assert [c] + key[1..] == key;
    }
  }

  /** Inserting the separators and lower-casing a key with one inner capital. */
  lemma SnakeOfTwoWords(a: string, b: string)
    requires |a| > 0 && |b| > 0
    requires forall i :: 0 <= i < |a| ==> !IsUpper(a[i])
    requires IsUpper(b[0])
    requires forall i :: 1 <= i < |b| ==> !IsUpper(b[i])
    ensures SnakeCase(a + b) == a + "_" + Lower(b)
  {
    var key := a + b;
    assert key[1..] == a[1..] + b;
    MarkUpperOfLowercase(a[1..]);
    MarkUpperOfLowercase(b[1..]);
    MarkUpperConcat(a[1..], b);
    assert MarkUpper(b) == ['_', b[0]] + b[1..];
    assert [key[0]] + MarkUpper(key[1..]) == a + ['_', b[0]] + b[1..];
    LowerConcat(a, ['_', b[0]] + b[1..]);
    LowerOfLowercase(a);
    assert [b[0]] + b[1..] == b;
    LowerConcat([b[0]], b[1..]);
  }

  lemma {:induction false} MarkUpperConcat(x: string, y: string)
    ensures MarkUpper(x + y) == MarkUpper(x) + MarkUpper(y)
    decreases |x|
  {
    if |x| > 0 {
      assert (x + y)[1..] == x[1..] + y;
      MarkUpperConcat(x[1..], y);
    } else {
      assert x + y == y;
    }
  }
}

=== FILE: open_record.dfy ===
/**
 * The open-record behaviour shared by every API model (src/unmonitorr/types_/base.py,
 * src/types_/base.py): each declared field has a camelCase alias produced by the
 * alias generator; validation reads a field under its alias and, failing that,
 * under its own name; every key of the input that was not read for a field is
 * kept as an extra; dumping by alias writes the extras back together with every
 * field under its alias.
 */
module OpenRecord {
  import opened Wrappers
  import opened Json
  import opened Text
  import opened Naming

  /** A declared field: its attribute name and the JSON key it is dumped under. */
  datatype Field = Field(name: string, alias: string)

  /** The alias is the one the alias generator derives from the name. */
  predicate Generated(f: Field) {
    f.alias == ToCamelCase(f.name)
  }

  lemma OneSegment(f: Field)
    requires '_' !in f.name && f.alias == f.name
    ensures Generated(f)
  {
    CamelWithoutUnderscore(f.name);
  }

  lemma TwoSegments(f: Field, a: string, b: string)
    requires '_' !in a && '_' !in b
    requires f.name == a + "_" + b && f.alias == a + Capitalize(b)
    ensures Generated(f)
  {
    CamelOfTwo(a, b);
  }

  lemma ThreeSegments(f: Field, a: string, b: string, c: string)
    requires '_' !in a && '_' !in b && '_' !in c
    requires f.name == a + "_" + b + "_" + c && f.alias == a + Capitalize(b) + Capitalize(c)
    ensures Generated(f)
  {
    CamelOfThree(a, b, c);
  }

  /** The key validation reads a field from: the alias if present, else the name. */
  function UsedKey(o: Object, f: Field): Option<string> {
    if f.alias in o then Some(f.alias) else if f.name in o then Some(f.name) else None
  }

  /** The raw value of a field, looked up by alias first and by name second. */
  function Lookup(o: Object, f: Field): (r: Option<Json>)
    ensures r.Some? <==> f.alias in o || f.name in o
    ensures f.alias in o ==> r == Some(o[f.alias])
    ensures f.alias !in o && f.name in o ==> r == Some(o[f.name])
  {
    match UsedKey(o, f)
    case None => None
    case Some(k) => Some(o[k])
  }

  function IntField(o: Object, f: Field): Option<int> {
    match Lookup(o, f)
    case None => None
    case Some(j) => AsInt(j)
  }

  function RealField(o: Object, f: Field): Option<real> {
    match Lookup(o, f)
    case None => None
    case Some(j) => AsReal(j)
  }

  function BoolField(o: Object, f: Field): Option<bool> {
    match Lookup(o, f)
    case None => None
    case Some(j) => AsBool(j)
  }

  function StrField(o: Object, f: Field): Option<string> {
    match Lookup(o, f)
    case None => None
    case Some(j) => AsStr(j)
  }

  /** The aliases of a list of fields. */
  function Aliases(fields: seq<Field>): set<string> {
    set i | 0 <= i < |fields| :: fields[i].alias
  }

  /** The keys of `o` that validation consumed for some field. */
  function UsedKeys(o: Object, fields: seq<Field>): (r: set<string>)
    ensures r <= o.Keys
    ensures forall i :: 0 <= i < |fields| && UsedKey(o, fields[i]).Some? ==> UsedKey(o, fields[i]).value in r
    ensures forall k :: k in r ==> exists i :: 0 <= i < |fields| && UsedKey(o, fields[i]) == Some(k)
    decreases |fields|
  {
    if |fields| == 0 then {}
    else
      var rest := UsedKeys(o, fields[1..]);
      assert forall i :: 1 <= i < |fields| ==> fields[i] == fields[1..][i - 1];
      match UsedKey(o, fields[0])
      case None => rest
      case Some(k) => {k} + rest
  }

  /** The extras: every entry of `o` whose key no field consumed. */
  function Extras(o: Object, fields: seq<Field>): (r: Object)
    ensures forall k :: k in r <==> k in o && k !in UsedKeys(o, fields)
    ensures forall k :: k in r ==> r[k] == o[k]
  {
    map k | k in o && k !in UsedKeys(o, fields) :: o[k]
  }

  /** The extras never hold an alias: a present alias is always the key read. */
  lemma ExtrasHoldNoAlias(o: Object, fields: seq<Field>)
    ensures Extras(o, fields).Keys !! Aliases(fields)
  {
    forall i | 0 <= i < |fields| && fields[i].alias in o
      ensures fields[i].alias in UsedKeys(o, fields)
    {
      assert UsedKey(o, fields[i]) == Some(fields[i].alias);
    }
  }

  /** Known-field entries as a JSON object; a later entry overrides an earlier one. */
  function Entries(es: seq<(string, Json)>): (m: Object)
    ensures m.Keys == set i | 0 <= i < |es| :: es[i].0
    decreases |es|
  {
    if |es| == 0 then map[]
    else
      var rest := Entries(es[1..]);
      map[es[0].0 := es[0].1] + rest
  }

  /** The entries of `es` laid out for `fields`: entry i is written under alias i. */
  predicate Aligned(es: seq<(string, Json)>, fields: seq<Field>) {
    |es| == |fields| && forall i :: 0 <= i < |es| ==> es[i].0 == fields[i].alias
  }

  predicate DistinctAliases(fields: seq<Field>) {
    forall i, j :: 0 <= i < j < |fields| ==> fields[i].alias != fields[j].alias
  }

  /** With pairwise distinct keys, each key maps to its own entry's value. */
  lemma {:induction false} EntriesValue(es: seq<(string, Json)>, i: int)
    requires 0 <= i < |es|
    requires forall a, b :: 0 <= a < b < |es| ==> es[a].0 != es[b].0
    ensures Entries(es)[es[i].0] == es[i].1
    decreases |es|
  {
    if i > 0 {
      assert es[1..][i - 1] == es[i];
      EntriesValue(es[1..], i - 1);
    } else if |es| > 1 {
      assert es[0].0 !in Entries(es[1..]) by {
        forall b | 0 <= b < |es[1..]|
          ensures es[1..][b].0 != es[0].0
        {
          assert es[1..][b] == es[b + 1];
        }
      }
    }
  }

  /** When every entry repeats a value of `o`, the entries agree with `o`. */
  lemma {:induction false} EntriesAgree(es: seq<(string, Json)>, o: Object)
    requires forall i :: 0 <= i < |es| ==> es[i].0 in o && es[i].1 == o[es[i].0]
    ensures forall k :: k in Entries(es) ==> k in o && Entries(es)[k] == o[k]
    decreases |es|
  {
    if |es| > 0 {
      assert forall i :: 0 <= i < |es[1..]| ==> es[1..][i] == es[i + 1];
      EntriesAgree(es[1..], o);
    }
  }

  /** When every alias is present, the keys consumed are exactly the aliases. */
  lemma UsedKeysAreAliases(o: Object, fields: seq<Field>)
    requires forall i :: 0 <= i < |fields| ==> fields[i].alias in o
    ensures UsedKeys(o, fields) == Aliases(fields)
  {
    forall i | 0 <= i < |fields|
      ensures fields[i].alias in UsedKeys(o, fields)
    {
      assert UsedKey(o, fields[i]) == Some(fields[i].alias);
    }
  }

  /**
   * Validation followed by a dump by alias gives the input back: the extras plus
   * every field rewritten under its alias, when each field was read from its alias
   * and each entry repeats the value read.
   */
  lemma DumpRestoresInput(o: Object, fields: seq<Field>, es: seq<(string, Json)>)
    requires Aligned(es, fields)
    requires forall i :: 0 <= i < |fields| ==> fields[i].alias in o && es[i].1 == o[fields[i].alias]
    ensures Extras(o, fields) + Entries(es) == o
  {
    UsedKeysAreAliases(o, fields);
    EntriesAgree(es, o);
    EntriesKeys(es, fields);
    var d := Extras(o, fields) + Entries(es);
    assert d.Keys == o.Keys;
    assert forall k :: k in d ==> d[k] == o[k];
  }

  /** Aligned entries are keyed by exactly the aliases. */
  lemma EntriesKeys(es: seq<(string, Json)>, fields: seq<Field>)
    requires Aligned(es, fields)
    ensures Entries(es).Keys == Aliases(fields)
  {
    forall k | k in Aliases(fields)
      ensures k in Entries(es).Keys
    {
      var i :| 0 <= i < |fields| && fields[i].alias == k;
      assert es[i].0 == k;
    }
  }

  /** A dump written from well-formed extras reads back those extras. */
  lemma ExtrasOfDump(extra: Object, fields: seq<Field>, es: seq<(string, Json)>)
    requires Aligned(es, fields)
    requires extra.Keys !! Aliases(fields)
    ensures forall i :: 0 <= i < |fields| ==> fields[i].alias in extra + Entries(es)
    ensures Extras(extra + Entries(es), fields) == extra
  {
    var d := extra + Entries(es);
    EntriesKeys(es, fields);
    forall i | 0 <= i < |fields|
      ensures fields[i].alias in d
    {
      assert fields[i].alias in Aliases(fields);
    }
    UsedKeysAreAliases(d, fields);
    assert forall k :: k in Extras(d, fields) <==> k in extra;
  }

  /** In a dump with distinct aliases, field i reads back entry i's value. */
  lemma LookupOfDump(extra: Object, fields: seq<Field>, es: seq<(string, Json)>, i: int)
    requires Aligned(es, fields) && DistinctAliases(fields)
    requires 0 <= i < |fields|
    ensures Lookup(extra + Entries(es), fields[i]) == Some(es[i].1)
  {
    EntriesValue(es, i);
    assert es[i].0 in Entries(es);
  }

  /**
   * An input key that is neither the name nor the alias of any field changes no
   * field's value and becomes one more extra.
   */
  lemma UnknownKeyIsExtra(o: Object, fields: seq<Field>, k: string, v: Json)
    requires forall i :: 0 <= i < |fields| ==> k != fields[i].name && k != fields[i].alias
    ensures forall i :: 0 <= i < |fields| ==> Lookup(o[k := v], fields[i]) == Lookup(o, fields[i])
    ensures Extras(o[k := v], fields) == Extras(o, fields)[k := v]
  {
    var o' := o[k := v];
    forall i | 0 <= i < |fields|
      ensures UsedKey(o', fields[i]) == UsedKey(o, fields[i])
    {
    }
    assert UsedKeys(o', fields) == UsedKeys(o, fields);
  }

  /** The raw values of the fields, in field order, when every field is present. */
  function RawValues(o: Object, fields: seq<Field>): (r: Option<seq<Json>>)
    ensures r.Some? <==> forall i :: 0 <= i < |fields| ==> Lookup(o, fields[i]).Some?
    ensures r.Some? ==> |r.value| == |fields|
    ensures r.Some? ==> forall i :: 0 <= i < |fields| ==> Lookup(o, fields[i]) == Some(r.value[i])
    decreases |fields|
  {
    if |fields| == 0 then Some([])
    else
      var head := Lookup(o, fields[0]);
      var tail := RawValues(o, fields[1..]);
      assert forall i :: 1 <= i < |fields| ==> fields[i] == fields[1..][i - 1];
      if head.Some? && tail.Some? then Some([head.value] + tail.value) else None
  }

  /** `list[T]` validation: every element must validate; the order is kept. */
  function ParseEach<T>(items: seq<Json>, parse: Json -> Option<T>): (r: Option<seq<T>>)
    ensures r.Some? ==> |r.value| == |items|
    decreases |items|
  {
    if |items| == 0 then Some([])
    else
      var head := parse(items[0]);
      var tail := ParseEach(items[1..], parse);
      if head.Some? && tail.Some? then Some([head.value] + tail.value) else None
  }

  /** Element i of a validated list is what element i of the input validated to. */
  lemma {:induction false} ParseEachAt<T>(items: seq<Json>, parse: Json -> Option<T>, out: seq<T>, i: int)
    requires ParseEach(items, parse) == Some(out) && 0 <= i < |items|
    ensures parse(items[i]) == Some(out[i])
    decreases |items|
  {
    if i > 0 {
      assert items[1..][i - 1] == items[i];
      ParseEachAt(items[1..], parse, out[1..], i - 1);
    }
  }

  /** One element that fails to validate makes the whole list fail. */
  lemma {:induction false} ParseEachFails<T>(items: seq<Json>, parse: Json -> Option<T>, i: int)
    requires 0 <= i < |items| && parse(items[i]).None?
    ensures ParseEach(items, parse).None?
    decreases |items|
  {
    if i > 0 {
      assert items[1..][i - 1] == items[i];
      ParseEachFails(items[1..], parse, i - 1);
    }
  }

  /** A list whose every element validates to the matching output validates to the outputs. */
  lemma {:induction false} ParseEachOfAll<T>(items: seq<Json>, parse: Json -> Option<T>, out: seq<T>)
    requires |out| == |items|
    requires forall i :: 0 <= i < |items| ==> parse(items[i]) == Some(out[i])
    ensures ParseEach(items, parse) == Some(out)
    decreases |items|
  {
    if |items| > 0 {
      assert forall i :: 0 <= i < |items| - 1 ==> items[1..][i] == items[i + 1] && out[1..][i] == out[i + 1];
      ParseEachOfAll(items[1..], parse, out[1..]);
      assert out == [out[0]] + out[1..];
    }
  }

  /** The dump of a list: each element dumped, in order. */
  function DumpEach<T>(out: seq<T>, dump: T -> Json): (items: seq<Json>)
    ensures |items| == |out|
    ensures forall i :: 0 <= i < |out| ==> items[i] == dump(out[i])
  {
    seq(|out|, i requires 0 <= i < |out| => dump(out[i]))
  }

  /** Dumping what a list validated to gives the list back when every element round-trips. */
  lemma DumpEachOfParseEach<T>(items: seq<Json>, parse: Json -> Option<T>, dump: T -> Json, ok: Json -> bool, out: seq<T>)
    requires ParseEach(items, parse) == Some(out)
    requires forall i :: 0 <= i < |items| ==> ok(items[i])
    requires forall j :: ok(j) && parse(j).Some? ==> dump(parse(j).value) == j
    ensures DumpEach(out, dump) == items
  {
    var d := DumpEach(out, dump);
    forall i | 0 <= i < |items|
      ensures d[i] == items[i]
    {
      ParseEachAt(items, parse, out, i);
    }
  }

  /** Validating the dump of a list gives the list back when every element round-trips. */
  lemma ParseEachOfDumpEach<T>(out: seq<T>, parse: Json -> Option<T>, dump: T -> Json, good: T -> bool)
    requires forall i :: 0 <= i < |out| ==> good(out[i])
    requires forall t :: good(t) ==> parse(dump(t)) == Some(t)
    ensures ParseEach(DumpEach(out, dump), parse) == Some(out)
  {
    ParseEachOfAll(DumpEach(out, dump), parse, out);
  }

  /** Two value lists agreeing at every index are equal. */
  lemma EqualByElements(a: seq<Json>, b: seq<Json>)
    requires |a| == |b|
    requires forall i :: 0 <= i < |a| ==> a[i] == b[i]
    ensures a == b
  {
  }

  /** Field i's alias paired with value i. */
  function Zip(fields: seq<Field>, vs: seq<Json>): (es: seq<(string, Json)>)
    requires |vs| == |fields|
    ensures Aligned(es, fields)
    ensures forall i :: 0 <= i < |es| ==> es[i].1 == vs[i]
  {
    seq(|fields|, i requires 0 <= i < |fields| => (fields[i].alias, vs[i]))
  }

  /** `model_dump(by_alias=True)` of a record with these extras and field values. */
  function Dump(extra: Object, fields: seq<Field>, vs: seq<Json>): Object
    requires |vs| == |fields|
  {
    extra + Entries(Zip(fields, vs))
  }

  /** A dump holds the extras' keys and the aliases, and each alias holds its field's value. */
  lemma DumpEntries(extra: Object, fields: seq<Field>, vs: seq<Json>)
    requires |vs| == |fields| && DistinctAliases(fields)
    ensures Dump(extra, fields, vs).Keys == extra.Keys + Aliases(fields)
    ensures forall i :: 0 <= i < |fields| ==> Dump(extra, fields, vs)[fields[i].alias] == vs[i]
  {
    var es := Zip(fields, vs);
    EntriesKeys(es, fields);
    forall i | 0 <= i < |fields|
      ensures Dump(extra, fields, vs)[fields[i].alias] == vs[i]
    {
      EntriesValue(es, i);
    }
  }

  /**
   * Dumping what validation read gives the input back when the input wrote every
   * field under its alias: the extras are the unread keys and every read key is
   * written back with the value read.
   */
  lemma DumpOfRead(o: Object, fields: seq<Field>)
    requires RawValues(o, fields).Some?
    requires forall i :: 0 <= i < |fields| ==> fields[i].alias in o
    ensures Dump(Extras(o, fields), fields, RawValues(o, fields).value) == o
  {
    DumpRestoresInput(o, fields, Zip(fields, RawValues(o, fields).value));
  }

  /** Reading a dump back gives the same field values and the same extras. */
  lemma ReadOfDump(extra: Object, fields: seq<Field>, vs: seq<Json>)
    requires |vs| == |fields| && DistinctAliases(fields)
    requires extra.Keys !! Aliases(fields)
    ensures RawValues(Dump(extra, fields, vs), fields) == Some(vs)
    ensures Extras(Dump(extra, fields, vs), fields) == extra
    ensures forall i :: 0 <= i < |fields| ==> fields[i].alias in Dump(extra, fields, vs)
  {
    var es := Zip(fields, vs);
    ExtrasOfDump(extra, fields, es);
    forall i | 0 <= i < |fields|
      ensures Lookup(Dump(extra, fields, vs), fields[i]) == Some(vs[i])
    {
      LookupOfDump(extra, fields, es, i);
    }
    var r := RawValues(Dump(extra, fields, vs), fields);
    assert r.value == vs;
  }

  /** Setting the value under field k's alias changes exactly value k of those read. */
  lemma ReadAfterSet(o: Object, fields: seq<Field>, k: int, v: Json)
    requires 0 <= k < |fields| && DistinctAliases(fields)
    requires RawValues(o, fields).Some?
    requires forall i :: 0 <= i < |fields| ==> fields[i].alias in o
    ensures RawValues(o[fields[k].alias := v], fields) == Some(RawValues(o, fields).value[k := v])
  {
    var o' := o[fields[k].alias := v];
    var vs := RawValues(o, fields).value;
    forall i | 0 <= i < |fields|
      ensures Lookup(o', fields[i]) == Some(vs[k := v][i])
    {
      if i != k {
        assert fields[i].alias != fields[k].alias;
        assert Lookup(o, fields[i]) == Some(vs[i]);
      }
    }
    var r := RawValues(o', fields).value;
    assert r == vs[k := v];
  }

  /** Setting the value under an alias leaves the extras alone. */
  lemma ExtrasAfterSet(o: Object, fields: seq<Field>, k: int, v: Json)
    requires 0 <= k < |fields|
    requires forall i :: 0 <= i < |fields| ==> fields[i].alias in o
    ensures Extras(o[fields[k].alias := v], fields) == Extras(o, fields)
  {
    var o' := o[fields[k].alias := v];
    var aliases := Aliases(fields);
    UsedKeysAreAliases(o, fields);
    UsedKeysAreAliases(o', fields);
    assert fields[k].alias in aliases;
    forall key | key in o && key !in aliases
      ensures key in o' && o'[key] == o[key]
    {
    }
    assert o'.Keys == o.Keys;
  }
}

=== FILE: policies.dfy ===
/**
 * What the webhook handlers do, as functions of the handling rules in force and
 * of what Radarr and Sonarr answer: the routing of a body (`generic_handler`),
 * the calls of `handle_movie` and of `handle_series`, and whether a validation
 * error of a fetched record ends the handler. The handler methods of modules
 * Server and LegacyServer are proved to make exactly these calls; the lemmas
 * below state what the rules promise about them.
 */
module Policies {
  import opened Wrappers
  import opened Json
  import opened OpenRecord
  import opened ArrBase
  import opened RadarrApi
  import opened RadarrTypes
  import opened SonarrTypes
  import opened Webhook
  import opened Gateway
  import F = FieldNames

  /** The handling rules a handler reads from its configuration for one call. */
  datatype Policy = Policy(
    handleEpisodes: bool,
    handleSeries: bool,
    endedOnly: bool,
    exclude: Option<bool>,
    removeMedia: bool)

  // ---------------------------------------------------------------------------
  // Counting calls.

  /** How many of the calls satisfy `P`. */
  function Count(calls: seq<Call>, P: Call -> bool): (n: nat)
    ensures n <= |calls|
    decreases |calls|
  {
    if |calls| == 0 then 0 else (if P(calls[0]) then 1 else 0) + Count(calls[1..], P)
  }

  lemma {:induction false} CountConcat(a: seq<Call>, b: seq<Call>, P: Call -> bool)
    ensures Count(a + b, P) == Count(a, P) + Count(b, P)
    decreases |a|
  {
    if |a| == 0 {
      assert a + b == b;
    } else {
      assert (a + b)[1..] == a[1..] + b;
      CountConcat(a[1..], b, P);
    }
  }

  lemma {:induction false} CountNone(calls: seq<Call>, P: Call -> bool)
    requires forall i :: 0 <= i < |calls| ==> !P(calls[i])
    ensures Count(calls, P) == 0
    decreases |calls|
  {
    if |calls| > 0 {
      CountNone(calls[1..], P);
    }
  }

  predicate IsMovieCall(c: Call) {
    c.GetMovie? || c.DeleteMovie? || c.PutMovie?
  }

  predicate IsSeriesCall(c: Call) {
    c.UnmonitorEpisodes? || c.GetSeries? || c.DeleteSeries? || c.PutSeries?
  }

  predicate IsEpisodeCall(c: Call) {
    c.UnmonitorEpisodes?
  }

  /** A call that changes the series itself: deleting it or sending it back. */
  predicate IsSeriesMutation(c: Call) {
    c.DeleteSeries? || c.PutSeries?
  }

  // ---------------------------------------------------------------------------
  // handle_movie.

  /** The calls of `handle_movie` once the Radarr client is enabled. */
  function MovieCalls(removeMedia: bool, id: int, fetch: Fetch<MovieRecord>): (calls: seq<Call>)
    ensures 1 <= |calls| <= 2
    ensures forall k :: 0 <= k < |calls| ==> IsMovieCall(calls[k])
  {
    if removeMedia then [DeleteMovie(id)]
    else
      match fetch
      case Found(m) => [GetMovie(id), PutMovie(UnmonitoredMovie(m))]
      case _ => [GetMovie(id)]
  }

  /** `handle_movie` ends with the validation error of a fetched body that does not validate. */
  predicate MovieRaises(removeMedia: bool, fetch: Fetch<MovieRecord>) {
    !removeMedia && fetch.Invalid?
  }

  /** With remove_media the movie is deleted by its webhook id and nothing else is called. */
  lemma MovieRemoveMediaDeletesOnly(id: int, fetch: Fetch<MovieRecord>)
    ensures MovieCalls(true, id, fetch) == [DeleteMovie(id)]
    ensures !MovieRaises(true, fetch)
  {
  }

  /**
   * Without remove_media the movie is fetched once; a record is put back only when
   * the fetch gave one, and that record is the fetched one with monitored false.
   */
  lemma MovieUnmonitorFetchesThenPuts(id: int, fetch: Fetch<MovieRecord>)
    ensures var calls := MovieCalls(false, id, fetch);
            && 1 <= |calls| <= 2 && calls[0] == GetMovie(id)
            && (|calls| == 2 <==> fetch.Found?)
            && (|calls| == 2 ==> calls[1] == PutMovie(UnmonitoredMovie(fetch.value)) && !calls[1].movie.monitored)
            && Count(calls, (c: Call) => c.DeleteMovie?) == 0
  {
    var calls := MovieCalls(false, id, fetch);
    CountNone(calls, (c: Call) => c.DeleteMovie?);
  }

  /**
   * When Radarr answers with a movie object written by alias, the body put back is
   * that object with "monitored" set to false and every other key as Radarr sent it.
   */
  lemma MoviePutIsAnswerUnmonitored(id: int, o: Object)
    requires ParseMovie(JObj(o)).Some? && ByAlias(o)
    ensures var calls := MovieCalls(false, id, MovieFetch(Ok(JObj(o))));
            |calls| == 2 && calls[1].PutMovie?
            && DumpMovie(calls[1].movie) == o[F.Monitored.alias := JBool(false)]
  {
    var m := ParseMovie(JObj(o)).value;
    assert MovieFetch(Ok(JObj(o))) == Found(m);
    assert MovieCalls(false, id, MovieFetch(Ok(JObj(o)))) == [GetMovie(id), PutMovie(UnmonitoredMovie(m))];
    UnmonitoredDump(o);
  }

  // ---------------------------------------------------------------------------
  // handle_series.

  /** The series may be handled: ended (when only ended series are handled) and complete. */
  predicate Eligible(endedOnly: bool, s: SeriesRecord)
    ensures Eligible(endedOnly, s) ==> SeriesComplete(s)
    ensures endedOnly && !SeriesEnded(s) ==> !Eligible(endedOnly, s)
  {
    (!endedOnly || SeriesEnded(s)) && SeriesComplete(s)
  }

  /** The one series-level change: delete it, or put it back unmonitored. */
  function SeriesMutation(p: Policy, series: WebhookSeries, s: SeriesRecord): Call {
    if p.removeMedia then DeleteSeries(series.id, p.exclude) else PutSeries(UnmonitoredSeries(s))
  }

  function EpisodeCalls(p: Policy, payload: SonarrPayload): seq<Call> {
    if p.handleEpisodes then [UnmonitorEpisodes(EpisodeIdsToUnmonitor(payload))] else []
  }

  /** The series stage: fetch, then at most the one change, when series are handled at all. */
  function SeriesStageCalls(p: Policy, payload: SonarrPayload, fetch: Fetch<SeriesRecord>): seq<Call> {
    if !p.handleSeries then []
    else
      [GetSeries(payload.series.id)]
      + match fetch
        case Found(s) => if Eligible(p.endedOnly, s) then [SeriesMutation(p, payload.series, s)] else []
        case _ => []
  }

  /** The calls of `handle_series` once the Sonarr client is enabled. */
  function SeriesCalls(p: Policy, payload: SonarrPayload, fetch: Fetch<SeriesRecord>): (calls: seq<Call>)
    ensures |calls| <= 3
    ensures forall k :: 0 <= k < |calls| ==> IsSeriesCall(calls[k])
  {
    EpisodeCalls(p, payload) + SeriesStageCalls(p, payload, fetch)
  }

  /** The calls when series are handled and the fetch gave no record. */
  lemma SeriesCallsWithoutRecord(p: Policy, payload: SonarrPayload, fetch: Fetch<SeriesRecord>)
    requires p.handleSeries && !fetch.Found?
    ensures SeriesCalls(p, payload, fetch) == EpisodeCalls(p, payload) + [GetSeries(payload.series.id)]
  {
    assert SeriesStageCalls(p, payload, fetch) == [GetSeries(payload.series.id)];
  }

  /** The calls when series are handled and the fetch gave a record. */
  lemma SeriesCallsWithRecord(p: Policy, payload: SonarrPayload, fetch: Fetch<SeriesRecord>)
    requires p.handleSeries && fetch.Found?
    ensures var s := fetch.value;
            SeriesCalls(p, payload, fetch)
            == EpisodeCalls(p, payload) + [GetSeries(payload.series.id)]
               + (if Eligible(p.endedOnly, s) then [SeriesMutation(p, payload.series, s)] else [])
  {
    var s := fetch.value;
    var tail := if Eligible(p.endedOnly, s) then [SeriesMutation(p, payload.series, s)] else [];
    assert SeriesStageCalls(p, payload, fetch) == [GetSeries(payload.series.id)] + tail;
  }

  /** `handle_series` ends with the validation error of a fetched body that does not validate. */
  predicate SeriesRaises(p: Policy, fetch: Fetch<SeriesRecord>) {
    p.handleSeries && fetch.Invalid?
  }

  lemma {:induction false} StageHasNoEpisodeCall(p: Policy, payload: SonarrPayload, fetch: Fetch<SeriesRecord>)
    ensures Count(SeriesStageCalls(p, payload, fetch), IsEpisodeCall) == 0
  {
    CountNone(SeriesStageCalls(p, payload, fetch), IsEpisodeCall);
  }

  /**
   * The episodes are unmonitored, once and first, exactly when handle_episodes is
   * set, whatever handle_series says; the ids sent are the payload's, in order.
   */
  lemma {:induction false} EpisodesIffHandleEpisodes(p: Policy, payload: SonarrPayload, fetch: Fetch<SeriesRecord>)
    ensures var calls := SeriesCalls(p, payload, fetch);
            && Count(calls, IsEpisodeCall) == (if p.handleEpisodes then 1 else 0)
            && (p.handleEpisodes ==> calls[0] == UnmonitorEpisodes(EpisodeIdsToUnmonitor(payload)))
  {
    var e := EpisodeCalls(p, payload);
    var s := SeriesStageCalls(p, payload, fetch);
    CountConcat(e, s, IsEpisodeCall);
    StageHasNoEpisodeCall(p, payload, fetch);
    assert Count(e, IsEpisodeCall) == (if p.handleEpisodes then 1 else 0) by {
      if p.handleEpisodes {
        assert e[1..] == [];
      }
    }
  }

  /** Without handle_series nothing follows the episode call: no fetch and no change. */
  lemma NoSeriesStageWithoutHandleSeries(p: Policy, payload: SonarrPayload, fetch: Fetch<SeriesRecord>)
    requires !p.handleSeries
    ensures SeriesCalls(p, payload, fetch) == EpisodeCalls(p, payload)
    ensures !SeriesRaises(p, fetch)
  {
    assert EpisodeCalls(p, payload) + [] == EpisodeCalls(p, payload);
  }

  /**
   * At most one series-level change is made, and one is made exactly when series
   * are handled, the fetch gave a record, and that record is eligible.
   */
  lemma {:induction false} AtMostOneSeriesMutation(p: Policy, payload: SonarrPayload, fetch: Fetch<SeriesRecord>)
    ensures var n := Count(SeriesCalls(p, payload, fetch), IsSeriesMutation);
            && n <= 1
            && (n == 1 <==> p.handleSeries && fetch.Found? && Eligible(p.endedOnly, fetch.value))
  {
    var e := EpisodeCalls(p, payload);
    var s := SeriesStageCalls(p, payload, fetch);
    CountConcat(e, s, IsSeriesMutation);
    CountNone(e, IsSeriesMutation);
    if p.handleSeries {
      var tail := s[1..];
      assert s == [GetSeries(payload.series.id)] + tail;
      CountConcat([GetSeries(payload.series.id)], tail, IsSeriesMutation);
      assert Count([GetSeries(payload.series.id)], IsSeriesMutation) == 0 by {
        CountNone([GetSeries(payload.series.id)], IsSeriesMutation);
      }
      if |tail| == 1 {
        assert tail[1..] == [];
      }
    }
  }

  /**
   * When the change is made it is the last call and follows the fetch: a delete of
   * the webhook's series id with the configured exclusion under remove_media, and
   * otherwise a put of the fetched record with monitored false.
   */
  lemma {:induction false} SeriesMutationKind(p: Policy, payload: SonarrPayload, fetch: Fetch<SeriesRecord>)
    requires p.handleSeries && fetch.Found? && Eligible(p.endedOnly, fetch.value)
    ensures var calls := SeriesCalls(p, payload, fetch);
            && |calls| >= 2
            && calls[|calls| - 2] == GetSeries(payload.series.id)
            && calls[|calls| - 1] == (if p.removeMedia then DeleteSeries(payload.series.id, p.exclude)
                                      else PutSeries(UnmonitoredSeries(fetch.value)))
  {
    var s := fetch.value;
    var stage := SeriesStageCalls(p, payload, fetch);
    assert stage == [GetSeries(payload.series.id), SeriesMutation(p, payload.series, s)];
    var calls := EpisodeCalls(p, payload) + stage;
    assert calls[|calls| - 2] == stage[0] && calls[|calls| - 1] == stage[1];
  }

  /**
   * When Sonarr answers with a series written by alias at every level and it is
   * put back, the body is that fetch with "monitored" set to false and every
   * other key, nested seasons and statistics included, as Sonarr sent it.
   */
  lemma {:induction false} SeriesPutIsAnswerUnmonitored(p: Policy, payload: SonarrPayload, j: Json)
    requires p.handleSeries && !p.removeMedia
    requires ParseSeries(j).Some? && SeriesByAlias(j) && Eligible(p.endedOnly, ParseSeries(j).value)
    ensures var calls := SeriesCalls(p, payload, SeriesFetch(Ok(j)));
            |calls| >= 1 && calls[|calls| - 1].PutSeries?
            && DumpSeries(calls[|calls| - 1].series) == j.fields[F.Monitored.alias := JBool(false)]
  {
    var s := ParseSeries(j).value;
    var fetch := SeriesFetch(Ok(j));
    assert fetch == Found(s);
    SeriesMutationKind(p, payload, fetch);
    var calls := SeriesCalls(p, payload, fetch);
    assert calls[|calls| - 1] == PutSeries(UnmonitoredSeries(s));
    UnmonitoredSeriesDump(j);
  }

  // ---------------------------------------------------------------------------
  // generic_handler.

  /** Where `generic_handler` sends a body. */
  datatype Route = Dropped | Acknowledged | ToMovie(movie: RadarrPayload) | ToSeries(series: SonarrPayload)

  /**
   * An unrecognised body is dropped; a recognised one whose event type contains
   * "test" in any case is acknowledged; any other goes to the handler of its kind.
   */
  function RouteOf(j: Json): (r: Route)
    ensures r.Dropped? <==> Classify(j).Unrecognized?
    ensures r.Acknowledged? <==> !Classify(j).Unrecognized? && IsTestEvent(EventOf(Classify(j)))
    ensures r.ToMovie? <==> Classify(j).Movie? && !IsTestEvent(Classify(j).movie.eventType)
    ensures r.ToSeries? <==> Classify(j).Series? && !IsTestEvent(Classify(j).series.eventType)
    ensures r.ToMovie? ==> Classify(j) == Movie(r.movie)
    ensures r.ToSeries? ==> Classify(j) == Series(r.series)
  {
    var c := Classify(j);
    if c.Unrecognized? then Dropped
    else if IsTestEvent(EventOf(c)) then Acknowledged
    else if c.Movie? then ToMovie(c.movie)
    else ToSeries(c.series)
  }

  /** The calls a routed body causes, given the rules, the clients' state and the answers. */
  function RouteCalls(p: Policy, radarrDisabled: bool, sonarrDisabled: bool, r: Route,
                      movies: int -> Fetch<MovieRecord>, series: int -> Fetch<SeriesRecord>): (calls: seq<Call>)
    ensures !r.ToMovie? && !r.ToSeries? ==> calls == []
    ensures r.ToMovie? ==> forall k :: 0 <= k < |calls| ==> IsMovieCall(calls[k])
    ensures r.ToSeries? ==> forall k :: 0 <= k < |calls| ==> IsSeriesCall(calls[k])
  {
    match r
    case ToMovie(m) => if radarrDisabled then [] else MovieCalls(p.removeMedia, m.movie.id, movies(m.movie.id))
    case ToSeries(s) => if sonarrDisabled then [] else SeriesCalls(p, s, series(s.series.id))
    case _ => []
  }

  predicate RouteRaises(p: Policy, radarrDisabled: bool, sonarrDisabled: bool, r: Route,
                        movies: int -> Fetch<MovieRecord>, series: int -> Fetch<SeriesRecord>)
  {
    match r
    case ToMovie(m) => !radarrDisabled && MovieRaises(p.removeMedia, movies(m.movie.id))
    case ToSeries(s) => !sonarrDisabled && SeriesRaises(p, series(s.series.id))
    case _ => false
  }

  /** A dropped or test body calls neither handler, so no client call is made. */
  lemma NoCallsForDroppedOrTest(p: Policy, rd: bool, sd: bool, j: Json, movies: int -> Fetch<MovieRecord>, series: int -> Fetch<SeriesRecord>)
    requires Classify(j).Unrecognized? || IsTestEvent(EventOf(Classify(j)))
    ensures RouteCalls(p, rd, sd, RouteOf(j), movies, series) == []
    ensures !RouteRaises(p, rd, sd, RouteOf(j), movies, series)
  {
  }

  /** A disabled client means its handler makes no call at all. */
  lemma DisabledMeansNoCalls(p: Policy, rd: bool, sd: bool, r: Route, movies: int -> Fetch<MovieRecord>, series: int -> Fetch<SeriesRecord>)
    requires (r.ToMovie? && rd) || (r.ToSeries? && sd)
    ensures RouteCalls(p, rd, sd, r, movies, series) == []
    ensures !RouteRaises(p, rd, sd, r, movies, series)
  {
  }

  /**
   * Exactly one handler runs for a recognised non-test body: a movie body makes
   * only Radarr calls, every other recognised body only Sonarr calls, and a body
   * that matches both shapes is a movie body.
   */
  lemma {:induction false} OneHandlerPerBody(p: Policy, rd: bool, sd: bool, j: Json, movies: int -> Fetch<MovieRecord>, series: int -> Fetch<SeriesRecord>)
    ensures var calls := RouteCalls(p, rd, sd, RouteOf(j), movies, series);
            && (RouteOf(j).ToMovie? ==> forall i :: 0 <= i < |calls| ==> IsMovieCall(calls[i]))
            && (RouteOf(j).ToSeries? ==> forall i :: 0 <= i < |calls| ==> IsSeriesCall(calls[i]))
    ensures ParseRadarrPayload(j).Some? && ParseSonarrPayload(j).Some? ==> !RouteOf(j).ToSeries?
  {
    var r := RouteOf(j);
    if r.ToSeries? && !sd {
      var s := r.series;
      var calls := SeriesCalls(p, s, series(s.series.id));
      assert calls == EpisodeCalls(p, s) + SeriesStageCalls(p, s, series(s.series.id));
      forall i | 0 <= i < |calls| ensures IsSeriesCall(calls[i]) {
        if i < |EpisodeCalls(p, s)| {
          assert calls[i] == EpisodeCalls(p, s)[i];
        } else {
          assert calls[i] == SeriesStageCalls(p, s, series(s.series.id))[i - |EpisodeCalls(p, s)|];
        }
      }
    }
  }
}

=== FILE: radarr_client.dfy ===
/**
 * The requests `RadarrClient` (src/unmonitorr/arrs/radarr.py) builds and what it
 * makes of the answers. The client is a `BaseArrClient`; its own `is_disabled`
 * is the same test as `BaseArrClient.disabled` and is not repeated here.
 */
module RadarrApi {
  import opened Wrappers
  import opened Json
  import opened Text
  import opened ArrBase
  import opened OpenRecord
  import opened RadarrTypes
  import F = FieldNames

  /** "{base_url}/movie/{id}". */
  function MovieUrl(base: string, id: int): (url: string)
    ensures |url| > |base| + 7 && url[..|base|] == base
    ensures url[|base|..|base| + 7] == "/movie/" && url[|base| + 7..] == IntToString(id)
  {
    base + "/movie/" + IntToString(id)
  }

  /** `get_movie_by_id`: GET of the movie's URL with the client headers, no body. */
  function GetMovieByIdRequest(c: BaseArrClient, id: int): (r: Request)
    reads c
    ensures r.verb == "GET" && r.url == MovieUrl(c.BaseUrl(), id)
    ensures r.headers == c.Headers() && r.params == map[] && r.body.None?
  {
    Request("GET", MovieUrl(c.BaseUrl(), id), c.Headers(), map[], None)
  }

  /** `delete_movie`: DELETE of the movie's URL, no body. */
  function DeleteMovieRequest(c: BaseArrClient, id: int): (r: Request)
    reads c
    ensures r.verb == "DELETE" && r.url == MovieUrl(c.BaseUrl(), id)
    ensures r.headers == c.Headers() && r.params == map[] && r.body.None?
  {
    Request("DELETE", MovieUrl(c.BaseUrl(), id), c.Headers(), map[], None)
  }

  /** `put_updated_movie`: PUT of the movie's URL with the by-alias dump as the body. */
  function PutUpdatedMovieRequest(c: BaseArrClient, m: MovieRecord): (r: Request)
    reads c
    ensures r.verb == "PUT" && r.url == MovieUrl(c.BaseUrl(), m.id)
    ensures r.headers == c.Headers() && r.params == map[]
    ensures r.body == Some(JObj(DumpMovie(m)))
  {
    Request("PUT", MovieUrl(c.BaseUrl(), m.id), c.Headers(), map[], Some(JObj(DumpMovie(m))))
  }

  /**
   * The body of the PUT validates back to the movie it was built from, so Radarr
   * receives the record the handler holds, unknown keys included.
   */
  lemma PutBodyValidates(c: BaseArrClient, m: MovieRecord)
    requires WellFormed(m)
    ensures ParseMovie(PutUpdatedMovieRequest(c, m).body.value) == Some(m)
  {
    ParseOfDump(m);
  }

  /**
   * `get_movie_by_id` after the request: an HTTP error is logged and gives None; a
   * body that does not validate raises a validation error to the caller; a body
   * that validates gives the record.
   */
  function MovieFetch(answer: Answer): (f: Fetch<MovieRecord>)
    ensures f.NotFound? <==> answer.Err?
    ensures f.Invalid? <==> answer.Ok? && ParseMovie(answer.value).None?
    ensures f.Found? ==> answer.Ok? && ParseMovie(answer.value) == Some(f.value)
  {
    match answer
    case Err(_) => NotFound
    case Ok(body) =>
      match ParseMovie(body)
      case None => Invalid
      case Some(m) => Found(m)
  }

  /** A fetched movie carries the id, title and monitored flag the body gave. */
  lemma FetchedMovieFields(answer: Answer)
    requires MovieFetch(answer).Found?
    ensures answer.Ok? && answer.value.JObj?
    ensures Lookup(answer.value.fields, F.Id) == Some(IntNum(MovieFetch(answer).value.id))
    ensures Lookup(answer.value.fields, F.Title) == Some(JStr(MovieFetch(answer).value.title))
    ensures Lookup(answer.value.fields, F.Monitored) == Some(JBool(MovieFetch(answer).value.monitored))
  {
  }
}

=== FILE: radarr_types.dfy ===
/**
 * The movie record Radarr returns (src/unmonitorr/types_/radarr.py): seven declared
 * fields plus every other key of the response kept as an extra, so that the record
 * can be sent back unchanged apart from what the program sets.
 */
module RadarrTypes {
  import opened Wrappers
  import opened Json
  import opened Text
  import opened OpenRecord
  import F = FieldNames

  /** The declared fields of `RadarrAPIMovie`, in declaration order. */
  const MovieFields: seq<Field> := [F.Title, F.SizeOnDisk, F.Status, F.Year, F.Path, F.Monitored, F.Id]

  /** A validated `RadarrAPIMovie` as a value. */
  datatype MovieRecord = MovieRecord(
    title: string,
    sizeOnDisk: int,
    status: string,
    year: int,
    path: string,
    monitored: bool,
    id: int,
    extra: Object)

  /** No extra is stored under a field's alias (validation never produces one). */
  predicate WellFormed(m: MovieRecord) {
    m.extra.Keys !! Aliases(MovieFields)
  }

  /** Every declared field of the object is written under its alias. */
  predicate ByAlias(o: Object) {
    forall i :: 0 <= i < |MovieFields| ==> MovieFields[i].alias in o
  }

  /** The declared fields' values as JSON, in declaration order. */
  function MovieValues(m: MovieRecord): (vs: seq<Json>)
    ensures |vs| == |MovieFields|
  {
    [JStr(m.title), IntNum(m.sizeOnDisk), JStr(m.status), IntNum(m.year), JStr(m.path), JBool(m.monitored), IntNum(m.id)]
  }

  /** Type-checks the raw field values: str, int, str, int, str, bool, int. */
  function MovieFromValues(vs: seq<Json>, extra: Object): (r: Option<MovieRecord>)
    requires |vs| == |MovieFields|
    ensures r.Some? ==> MovieValues(r.value) == vs && r.value.extra == extra
  {
    var title, size, status, year := AsStr(vs[0]), AsInt(vs[1]), AsStr(vs[2]), AsInt(vs[3]);
    var path, monitored, id := AsStr(vs[4]), AsBool(vs[5]), AsInt(vs[6]);
    if title.Some? && size.Some? && status.Some? && year.Some? && path.Some? && monitored.Some? && id.Some? then
      Some(MovieRecord(title.value, size.value, status.value, year.value, path.value, monitored.value, id.value, extra))
    else None
  }

  lemma MovieFromOwnValues(m: MovieRecord)
    ensures MovieFromValues(MovieValues(m), m.extra) == Some(m)
  {
  }

  /** `model_dump(by_alias=True)`: the extras plus every field under its alias. */
  function DumpMovie(m: MovieRecord): (r: Object)
    ensures r.Keys == m.extra.Keys + Aliases(MovieFields)
    ensures forall i :: 0 <= i < |MovieFields| ==> r[MovieFields[i].alias] == MovieValues(m)[i]
  {
    MovieAliasesDistinct();
    DumpEntries(m.extra, MovieFields, MovieValues(m));
    Dump(m.extra, MovieFields, MovieValues(m))
  }

  /** `RadarrAPIMovie.model_validate`. */
  function ParseMovie(j: Json): (r: Option<MovieRecord>)
    ensures r.Some? ==> j.JObj? && WellFormed(r.value)
    ensures r.Some? ==>
      (Lookup(j.fields, F.Id) == Some(IntNum(r.value.id))
       && Lookup(j.fields, F.Title) == Some(JStr(r.value.title))
       && Lookup(j.fields, F.Monitored) == Some(JBool(r.value.monitored)))
    ensures r.Some? ==>
      (&& RawValues(j.fields, MovieFields).Some?
       && MovieValues(r.value) == RawValues(j.fields, MovieFields).value
       && r.value.extra == Extras(j.fields, MovieFields))
  {
    if !j.JObj? then None
    else
      match RawValues(j.fields, MovieFields)
      case None => None
      case Some(vs) =>
        ExtrasHoldNoAlias(j.fields, MovieFields);
        MovieFromValues(vs, Extras(j.fields, MovieFields))
  }

  lemma MovieAliasesDistinct()
    ensures DistinctAliases(MovieFields)
  {
  }

  /**
   * Dumping a validated movie by alias reproduces the response it was validated
   * from, unknown keys included, when the response wrote every field by alias.
   */
  lemma DumpOfParse(o: Object)
    requires ParseMovie(JObj(o)).Some? && ByAlias(o)
    ensures DumpMovie(ParseMovie(JObj(o)).value) == o
  {
    DumpOfRead(o, MovieFields);
  }

  /** Validating a dump gives the record back. */
  lemma ParseOfDump(m: MovieRecord)
    requires WellFormed(m)
    ensures ParseMovie(JObj(DumpMovie(m))) == Some(m)
  {
    MovieAliasesDistinct();
    ReadOfDump(m.extra, MovieFields, MovieValues(m));
    MovieFromOwnValues(m);
  }

  /** The movie with `monitored` false and every other field, extras included, as it was. */
  function UnmonitoredMovie(m: MovieRecord): (r: MovieRecord)
    ensures !r.monitored && r.(monitored := m.monitored) == m
  {
    m.(monitored := false)
  }

  /** Unmonitoring twice is unmonitoring once. */
  lemma UnmonitorMovieIdempotent(m: MovieRecord)
    ensures UnmonitoredMovie(UnmonitoredMovie(m)) == UnmonitoredMovie(m)
  {
  }

  /** Validating the values with `monitored` set to false gives the unmonitored movie. */
  lemma MovieFromValuesUnmonitored(vs: seq<Json>, extra: Object)
    requires |vs| == |MovieFields| && MovieFromValues(vs, extra).Some?
    ensures MovieFromValues(vs[5 := JBool(false)], extra) == Some(UnmonitoredMovie(MovieFromValues(vs, extra).value))
  {
    var m := MovieFromValues(vs, extra).value;
    assert MovieValues(m.(monitored := false)) == vs[5 := JBool(false)];
    MovieFromOwnValues(m.(monitored := false));
  }

  /**
   * Setting "monitored" to false in a response that wrote every field by alias
   * validates to the unmonitored movie.
   */
  lemma UnmonitoredParse(o: Object)
    requires ParseMovie(JObj(o)).Some? && ByAlias(o)
    ensures ParseMovie(JObj(o[F.Monitored.alias := JBool(false)])) == Some(UnmonitoredMovie(ParseMovie(JObj(o)).value))
  {
    MovieAliasesDistinct();
    assert MovieFields[5] == F.Monitored;
    ReadAfterSet(o, MovieFields, 5, JBool(false));
    ExtrasAfterSet(o, MovieFields, 5, JBool(false));
    MovieFromValuesUnmonitored(RawValues(o, MovieFields).value, Extras(o, MovieFields));
  }

  /**
   * The record sent back after unmonitoring is the response Radarr returned with
   * "monitored" set to false and nothing else changed.
   */
  lemma UnmonitoredDump(o: Object)
    requires ParseMovie(JObj(o)).Some? && ByAlias(o)
    ensures DumpMovie(UnmonitoredMovie(ParseMovie(JObj(o)).value)) == o[F.Monitored.alias := JBool(false)]
  {
    var o' := o[F.Monitored.alias := JBool(false)];
    UnmonitoredParse(o);
    assert ByAlias(o');
    DumpOfParse(o');
  }

  /** Python's `str` of a bool. */
  function BoolToString(b: bool): (r: string)
    ensures r == "True" <==> b
    ensures r == "False" <==> !b
  {
    if b then "True" else "False"
  }

  /** `RadarrAPIMovie`: the fetched record; the program changes only `monitored`. */
  class RadarrAPIMovie {
    const title: string
    const sizeOnDisk: int
    const status: string
    const year: int
    const path: string
    var monitored: bool
    const id: int
    const extra: Object

    /** The record as a value. */
    function Value(): (m: MovieRecord)
      reads this
      ensures m.monitored == monitored && m.id == id
    {
      MovieRecord(title, sizeOnDisk, status, year, path, monitored, id, extra)
    }

    constructor (m: MovieRecord)
      ensures Value() == m
    {
      title, sizeOnDisk, status, year, path := m.title, m.sizeOnDisk, m.status, m.year, m.path;
      monitored, id, extra := m.monitored, m.id, m.extra;
    }

    /** `unmonitor`: `monitored` becomes false; every other field, extras included, stays. */
    method Unmonitor()
      modifies this
      ensures Value() == UnmonitoredMovie(old(Value()))
    {
      monitored := false;
    }

    /** `__str__`: id, title, path, size and monitored, in that order. */
    function ToString(): (r: string)
      reads this
      ensures "id=" + IntToString(id) + ", title=" <= r
      ensures |r| >= |", monitored=" + BoolToString(monitored)|
      ensures r[|r| - |", monitored=" + BoolToString(monitored)|..] == ", monitored=" + BoolToString(monitored)
    {
      "id=" + IntToString(id) + ", title=" + title + ", path=" + path
      + ", size=" + IntToString(sizeOnDisk) + ", monitored=" + BoolToString(monitored)
    }
  }
}

=== FILE: server.dfy ===
/**
 * The web handlers of src/unmonitorr/server.py: `WebhookHandler` (payload
 * validation, routing, the movie and series handlers) and `Configurator` (saving
 * the settings form, testing a server connection). Every client call goes through
 * the gateway, which records it; each handler call reads one snapshot of the
 * configuration.
 */
module Server {
  import opened Wrappers
  import opened Json
  import opened Text
  import opened ArrBase
  import opened RadarrApi
  import opened RadarrTypes
  import opened SonarrTypes
  import opened Webhook
  import opened Gateway
  import opened Policies
  import opened Config

  // ---------------------------------------------------------------------------
  // validate_payload.

  /** The payload models `validate_payload` tries. */
  datatype Shape = RadarrShape | SonarrShape

  /** The models in the order they are tried: movie first. */
  const PayloadShapes: seq<Shape> := [RadarrShape, SonarrShape]

  /** `model.model_validate(payload)` for one model: the payload, or Unrecognized for a validation error. */
  function TryShape(shape: Shape, body: Json): (c: Classified)
    ensures shape == RadarrShape ==> (c.Movie? <==> ParseRadarrPayload(body).Some?) && !c.Series?
    ensures shape == SonarrShape ==> (c.Series? <==> ParseSonarrPayload(body).Some?) && !c.Movie?
    ensures c.Movie? ==> ParseRadarrPayload(body) == Some(c.movie)
    ensures c.Series? ==> ParseSonarrPayload(body) == Some(c.series)
  {
    match shape
    case RadarrShape => (match ParseRadarrPayload(body) case Some(m) => Movie(m) case None => Unrecognized)
    case SonarrShape => (match ParseSonarrPayload(body) case Some(s) => Series(s) case None => Unrecognized)
  }

  /**
   * `validate_payload`: the first model that validates the body wins, and a body no
   * model validates gives None. Shared by both servers.
   */
  method ValidatePayload(body: Json) returns (c: Classified)
    ensures c == Classify(body)
  {
    assert PayloadShapes == [RadarrShape, SonarrShape];
    for k := 0 to |PayloadShapes|
      invariant forall i :: 0 <= i < k ==> TryShape(PayloadShapes[i], body).Unrecognized?
    {
      var attempt := TryShape(PayloadShapes[k], body);
      if !attempt.Unrecognized? {
        assert k == 1 ==> TryShape(PayloadShapes[0], body).Unrecognized?;
        return attempt;
      }
    }
    assert TryShape(PayloadShapes[0], body).Unrecognized? && TryShape(PayloadShapes[1], body).Unrecognized?;
    return Unrecognized;
  }

  // ---------------------------------------------------------------------------
  // handle_movie and handle_series once the client is enabled; shared by both servers.

  /**
   * The body of `handle_movie` after its gate: delete, or fetch, unmonitor and put
   * back. `raised` is the validation error of a fetched body escaping the handler.
   */
  method RunMoviePolicy(gw: Gateway, removeMedia: bool, movie: WebhookMovie) returns (raised: bool)
    modifies gw
    ensures gw.calls == old(gw.calls) + MovieCalls(removeMedia, movie.id, gw.movies(movie.id))
    ensures raised == MovieRaises(removeMedia, gw.movies(movie.id))
  {
    ghost var start := gw.calls;
    ghost var fetch := gw.movies(movie.id);
    raised := false;
    if removeMedia {
      gw.DeleteMovieById(movie.id);
      assert MovieCalls(removeMedia, movie.id, gw.movies(movie.id)) == [DeleteMovie(movie.id)];
    } else {
      var fetched := gw.GetMovieById(movie.id);
      match fetched
      case NotFound =>
        assert MovieCalls(removeMedia, movie.id, gw.movies(movie.id)) == [GetMovie(movie.id)];
      case Invalid =>
        raised := true;
        assert MovieCalls(removeMedia, movie.id, gw.movies(movie.id)) == [GetMovie(movie.id)];
      case Found(apiMovie) =>
        apiMovie.Unmonitor();
        gw.PutUpdatedMovie(apiMovie);
        assert MovieCalls(removeMedia, movie.id, gw.movies(movie.id))
               == [GetMovie(movie.id), PutMovie(UnmonitoredMovie(fetch.value))];
        assert gw.calls == start + [GetMovie(movie.id), PutMovie(UnmonitoredMovie(fetch.value))];
    }
  }

  /**
   * The body of `handle_series` after its gate: the episodes, then the series gate,
   * the fetch, the `can_handle` flag and at most one change to the series.
   */
  method RunSeriesPolicy(gw: Gateway, p: Policy, payload: SonarrPayload) returns (raised: bool)
    modifies gw
    ensures gw.calls == old(gw.calls) + SeriesCalls(p, payload, gw.series(payload.series.id))
    ensures raised == SeriesRaises(p, gw.series(payload.series.id))
  {
    var series := payload.series;
    ghost var fetch := gw.series(series.id);
    ghost var start := gw.calls;
    ghost var episodes := EpisodeCalls(p, payload);
    raised := false;
    if p.handleEpisodes {
      gw.UnmonitorEpisodesOf(payload);
    }
    assert gw.calls == start + episodes;
    if !p.handleSeries {
      NoSeriesStageWithoutHandleSeries(p, payload, fetch);
      assert gw.calls == start + SeriesCalls(p, payload, fetch);
      return;
    }
    var fetched := gw.GetSeriesById(series.id);
    if !fetched.Found? {
      SeriesCallsWithoutRecord(p, payload, fetch);
      raised := fetched.Invalid?;
      assert gw.calls == start + SeriesCalls(p, payload, fetch);
      return;
    }
    var apiSeries := fetched.value;
    ghost var record := fetch.value;
    ghost var mutation := SeriesMutation(p, series, record);
    SeriesCallsWithRecord(p, payload, fetch);
    var canHandle := true;
    if p.endedOnly {
      if !apiSeries.IsEnded() {
        canHandle := false;
      }
    }
    assert canHandle && apiSeries.IsComplete() <==> Eligible(p.endedOnly, record);
    ghost var tail: seq<Call> := [];
    if canHandle && apiSeries.IsComplete() {
      if p.removeMedia {
        gw.DeleteSeriesOf(series, p.exclude);
        assert mutation == DeleteSeries(series.id, p.exclude);
      } else {
        apiSeries.UnmonitorSeries();
        assert apiSeries.Value() == UnmonitoredSeries(record);
        gw.PutUpdatedSeries(apiSeries);
        assert mutation == PutSeries(apiSeries.Value());
      }
      tail := [mutation];
    }
    assert tail == (if Eligible(p.endedOnly, record) then [mutation] else []);
    assert SeriesCalls(p, payload, fetch) == episodes + [GetSeries(series.id)] + tail;
    assert gw.calls == start + episodes + [GetSeries(series.id)] + tail;
    AppendCalls(start, episodes, [GetSeries(series.id)], tail);
    assert gw.calls == start + SeriesCalls(p, payload, fetch);
  }

  /** Regrouping a trace: what was appended piece by piece is the pieces' concatenation. */
  lemma AppendCalls(start: seq<Call>, a: seq<Call>, b: seq<Call>, c: seq<Call>)
    ensures start + a + b + c == start + (a + b + c)
  {
  }

  // ---------------------------------------------------------------------------
  // WebhookHandler.

  /** The handling rules of a configuration; the new server always passes `exclude`. */
  function HandlerPolicy(v: ConfigValues): (p: Policy)
    ensures p.exclude == Some(v.excludeSeries)
    ensures p.handleEpisodes == v.handleEpisodes && p.handleSeries == v.handleSeries
    ensures p.endedOnly == v.handleSeriesEndedOnly && p.removeMedia == v.removeMedia
  {
    Policy(v.handleEpisodes, v.handleSeries, v.handleSeriesEndedOnly, Some(v.excludeSeries), v.removeMedia)
  }

  class WebhookHandler {
    const config: Config
    const radarrApi: BaseArrClient
    const sonarrApi: BaseArrClient
    const gateway: Gateway

    /** `__init__`: one client per server, built from the configuration's uri and api key. */
    constructor (config: Config, gateway: Gateway)
      ensures this.config == config && this.gateway == gateway
      ensures fresh(radarrApi) && fresh(sonarrApi) && radarrApi != sonarrApi
      ensures radarrApi.uri == config.radarrUri && radarrApi.apiKey == config.radarrApiKey
      ensures sonarrApi.uri == config.sonarrUri && sonarrApi.apiKey == config.sonarrApiKey
    {
      this.config := config;
      this.gateway := gateway;
      radarrApi := new BaseArrClient(config.radarrUri, config.radarrApiKey);
      sonarrApi := new BaseArrClient(config.sonarrUri, config.sonarrApiKey);
    }

    /** `handle_movie`: nothing at all while the Radarr client is disabled. */
    method HandleMovie(payload: RadarrPayload) returns (raised: bool)
      modifies gateway
      ensures gateway.calls == old(gateway.calls) + RouteCalls(HandlerPolicy(config.Values()), radarrApi.Disabled(),
                sonarrApi.Disabled(), ToMovie(payload), gateway.movies, gateway.series)
      ensures raised == RouteRaises(HandlerPolicy(config.Values()), radarrApi.Disabled(), sonarrApi.Disabled(),
                ToMovie(payload), gateway.movies, gateway.series)
    {
      if radarrApi.Disabled() {
        return false;
      }
      raised := RunMoviePolicy(gateway, config.removeMedia, payload.movie);
    }

    /** `handle_series`: nothing at all while the Sonarr client is disabled. */
    method HandleSeries(payload: SonarrPayload) returns (raised: bool)
      modifies gateway
      ensures gateway.calls == old(gateway.calls) + RouteCalls(HandlerPolicy(config.Values()), radarrApi.Disabled(),
                sonarrApi.Disabled(), ToSeries(payload), gateway.movies, gateway.series)
      ensures raised == RouteRaises(HandlerPolicy(config.Values()), radarrApi.Disabled(), sonarrApi.Disabled(),
                ToSeries(payload), gateway.movies, gateway.series)
    {
      if sonarrApi.Disabled() {
        return false;
      }
      raised := RunSeriesPolicy(gateway, HandlerPolicy(config.Values()), payload);
    }

    /**
     * `generic_handler`: validate, acknowledge a test event, otherwise run the one
     * handler of the payload's kind. The response is a plain success unless a
     * handler raised.
     */
    method GenericHandler(body: Json) returns (route: Route, raised: bool)
      modifies gateway
      ensures route == RouteOf(body)
      ensures gateway.calls == old(gateway.calls) + RouteCalls(HandlerPolicy(config.Values()), radarrApi.Disabled(),
                sonarrApi.Disabled(), route, gateway.movies, gateway.series)
      ensures raised == RouteRaises(HandlerPolicy(config.Values()), radarrApi.Disabled(), sonarrApi.Disabled(),
                route, gateway.movies, gateway.series)
    {
      var validated := ValidatePayload(body);
      if validated.Unrecognized? {
        route, raised := Dropped, false;
        return;
      }
      if IsTestEvent(EventOf(validated)) {
        route, raised := Acknowledged, false;
        return;
      }
      if validated.Movie? {
        route := ToMovie(validated.movie);
        raised := HandleMovie(validated.movie);
      } else {
        route := ToSeries(validated.series);
        raised := HandleSeries(validated.series);
      }
    }
  }

  // ---------------------------------------------------------------------------
  // Configurator.

  /** `str(data.get(key, "")).strip()`. */
  function FormText(form: map<string, string>, key: string): (r: string)
    ensures key !in form ==> r == ""
    ensures key in form ==> r == Strip(form[key])
  {
    Strip(if key in form then form[key] else "")
  }

  /** `data.get(key) == "on"`. */
  predicate FormFlag(form: map<string, string>, key: string) {
    key in form && form[key] == "on"
  }

  /** The settings a submitted form asks for. */
  function FormValues(form: map<string, string>): ConfigValues
  {
    ConfigValues(
      FormText(form, "radarr_uri"), FormText(form, "radarr_api_key"),
      FormText(form, "sonarr_uri"), FormText(form, "sonarr_api_key"),
      FormFlag(form, "handle_episodes"), FormFlag(form, "handle_series"),
      FormFlag(form, "handle_series_ended_only"), FormFlag(form, "exclude_series"),
      FormFlag(form, "remove_media"))
  }

  /** The Radarr connection settings differ. */
  predicate RadarrChanged(a: ConfigValues, b: ConfigValues) {
    a.radarrUri != b.radarrUri || a.radarrApiKey != b.radarrApiKey
  }

  /** The Sonarr connection settings differ. */
  predicate SonarrChanged(a: ConfigValues, b: ConfigValues) {
    a.sonarrUri != b.sonarrUri || a.sonarrApiKey != b.sonarrApiKey
  }

  /** The handling rules differ. */
  predicate RulesChanged(a: ConfigValues, b: ConfigValues) {
    || a.handleEpisodes != b.handleEpisodes
    || a.handleSeries != b.handleSeries
    || a.excludeSeries != b.excludeSeries
    || a.handleSeriesEndedOnly != b.handleSeriesEndedOnly
    || a.removeMedia != b.removeMedia
  }

  /** The three groups cover every setting: some group changed exactly when the values differ. */
  lemma GroupsCoverSettings(a: ConfigValues, b: ConfigValues)
    ensures RadarrChanged(a, b) || SonarrChanged(a, b) || RulesChanged(a, b) <==> a != b
  {
  }

  /** The page's response to the connection test. */
  datatype WebResponse = WebResponse(status: int, text: string, body: Option<Json>)

  /** `data.get(key) or "MISSING"` for the string values the page sends. */
  function ValueOrMissing(data: map<string, string>, key: string): (r: string)
    ensures key in data && data[key] != "" ==> r == data[key]
    ensures key !in data || data[key] == "" ==> r == "MISSING"
  {
    if key in data && data[key] != "" then data[key] else "MISSING"
  }

  /** The connection test's request: GET of "{uri}/api" with the api key and a JSON content type. */
  function PingRequest(uri: string, apiKey: string): (r: Request)
    ensures r.verb == "GET" && r.url == uri + "/api"
    ensures r.headers.Keys == {"Content-Type", "X-API-Key"}
    ensures r.headers["Content-Type"] == "application/json" && r.headers["X-API-Key"] == apiKey
    ensures r.params == map[] && r.body.None?
  {
    Request("GET", uri + "/api", map["Content-Type" := "application/json", "X-API-Key" := apiKey], map[], None)
  }

  class Configurator {
    const config: Config
    const webhookHandler: WebhookHandler

    constructor (config: Config, webhookHandler: WebhookHandler)
      ensures this.config == config && this.webhookHandler == webhookHandler
    {
      this.config := config;
      this.webhookHandler := webhookHandler;
    }

    /** `update_radarr_client`. */
    method UpdateRadarrClient(uri: string, apiKey: string)
      modifies webhookHandler.radarrApi
      ensures webhookHandler.radarrApi.uri == uri && webhookHandler.radarrApi.apiKey == apiKey
    {
      webhookHandler.radarrApi.UpdateClientConfig(uri, apiKey);
    }

    /** `update_sonarr_client`. */
    method UpdateSonarrClient(uri: string, apiKey: string)
      modifies webhookHandler.sonarrApi
      ensures webhookHandler.sonarrApi.uri == uri && webhookHandler.sonarrApi.apiKey == apiKey
    {
      webhookHandler.sonarrApi.UpdateClientConfig(uri, apiKey);
    }

    /** The Radarr block of `save_config`: new connection settings are stored and passed to the client. */
    method SaveRadarrSettings(v: ConfigValues) returns (changed: bool)
      modifies config`radarrUri, config`radarrApiKey, webhookHandler.radarrApi
      ensures changed == RadarrChanged(old(config.Values()), v)
      ensures config.radarrUri == v.radarrUri && config.radarrApiKey == v.radarrApiKey
      ensures changed ==> webhookHandler.radarrApi.uri == v.radarrUri && webhookHandler.radarrApi.apiKey == v.radarrApiKey
      ensures !changed ==> unchanged(webhookHandler.radarrApi)
    {
      changed := false;
      if v.radarrUri != config.radarrUri || v.radarrApiKey != config.radarrApiKey {
        config.radarrUri := v.radarrUri;
        config.radarrApiKey := v.radarrApiKey;
        UpdateRadarrClient(v.radarrUri, v.radarrApiKey);
        changed := true;
      }
    }

    /** The Sonarr block of `save_config`: new connection settings are stored and passed to the client. */
    method SaveSonarrSettings(v: ConfigValues) returns (changed: bool)
      modifies config`sonarrUri, config`sonarrApiKey, webhookHandler.sonarrApi
      ensures changed == SonarrChanged(old(config.Values()), v)
      ensures config.sonarrUri == v.sonarrUri && config.sonarrApiKey == v.sonarrApiKey
      ensures changed ==> webhookHandler.sonarrApi.uri == v.sonarrUri && webhookHandler.sonarrApi.apiKey == v.sonarrApiKey
      ensures !changed ==> unchanged(webhookHandler.sonarrApi)
    {
      changed := false;
      if v.sonarrUri != config.sonarrUri || v.sonarrApiKey != config.sonarrApiKey {
        config.sonarrUri := v.sonarrUri;
        config.sonarrApiKey := v.sonarrApiKey;
        UpdateSonarrClient(v.sonarrUri, v.sonarrApiKey);
        changed := true;
      }
    }

    /** The handling-rules block of `save_config`: the five flags are stored together when any differs. */
    method SaveRules(v: ConfigValues) returns (changed: bool)
      modifies config`handleEpisodes, config`handleSeries, config`excludeSeries
      modifies config`handleSeriesEndedOnly, config`removeMedia
      ensures changed <==> || old(config.handleEpisodes) != v.handleEpisodes
                           || old(config.handleSeries) != v.handleSeries
                           || old(config.excludeSeries) != v.excludeSeries
                           || old(config.handleSeriesEndedOnly) != v.handleSeriesEndedOnly
                           || old(config.removeMedia) != v.removeMedia
      ensures config.handleEpisodes == v.handleEpisodes && config.handleSeries == v.handleSeries
      ensures config.handleSeriesEndedOnly == v.handleSeriesEndedOnly
      ensures config.excludeSeries == v.excludeSeries && config.removeMedia == v.removeMedia
    {
      changed := false;
      if || config.handleEpisodes != v.handleEpisodes
         || config.handleSeries != v.handleSeries
         || config.excludeSeries != v.excludeSeries
         || config.handleSeriesEndedOnly != v.handleSeriesEndedOnly
         || config.removeMedia != v.removeMedia
      {
        config.handleEpisodes := v.handleEpisodes;
        config.handleSeries := v.handleSeries;
        config.excludeSeries := v.excludeSeries;
        config.handleSeriesEndedOnly := v.handleSeriesEndedOnly;
        config.removeMedia := v.removeMedia;
        changed := true;
      }
    }

    /**
     * The three blocks of `save_config` in turn; `updated` is the source's
     * `is_updated`: some setting differed from the form.
     */
    method StoreForm(v: ConfigValues) returns (updated: bool)
      requires webhookHandler.radarrApi != webhookHandler.sonarrApi
      modifies config, webhookHandler.radarrApi, webhookHandler.sonarrApi
      ensures config.Values() == v && config.saved == old(config.saved)
      ensures updated <==> old(config.Values()) != v
      ensures RadarrChanged(old(config.Values()), v) ==>
                webhookHandler.radarrApi.uri == v.radarrUri && webhookHandler.radarrApi.apiKey == v.radarrApiKey
      ensures !RadarrChanged(old(config.Values()), v) ==> unchanged(webhookHandler.radarrApi)
      ensures SonarrChanged(old(config.Values()), v) ==>
                webhookHandler.sonarrApi.uri == v.sonarrUri && webhookHandler.sonarrApi.apiKey == v.sonarrApiKey
      ensures !SonarrChanged(old(config.Values()), v) ==> unchanged(webhookHandler.sonarrApi)
    {
      ghost var before := config.Values();
      var radarrUpdated := SaveRadarrSettings(v);
      var sonarrUpdated := SaveSonarrSettings(v);
      var rulesUpdated := SaveRules(v);
      GroupsCoverSettings(before, v);
      updated := radarrUpdated || sonarrUpdated || rulesUpdated;
    }

    /**
     * The POST branch of `save_config`: the settings become `v` group by group, a
     * client is updated only when its own group changed, and the settings are
     * saved only when some group changed.
     */
    method ApplyForm(v: ConfigValues)
      requires webhookHandler.radarrApi != webhookHandler.sonarrApi
      modifies config, webhookHandler.radarrApi, webhookHandler.sonarrApi
      ensures config.Values() == v
      ensures old(config.Values()) == v ==> config.saved == old(config.saved)
      ensures old(config.Values()) != v ==> config.saved == old(config.saved) + [ToDict(v)]
      ensures RadarrChanged(old(config.Values()), v) ==>
                webhookHandler.radarrApi.uri == v.radarrUri && webhookHandler.radarrApi.apiKey == v.radarrApiKey
      ensures !RadarrChanged(old(config.Values()), v) ==> unchanged(webhookHandler.radarrApi)
      ensures SonarrChanged(old(config.Values()), v) ==>
                webhookHandler.sonarrApi.uri == v.sonarrUri && webhookHandler.sonarrApi.apiKey == v.sonarrApiKey
      ensures !SonarrChanged(old(config.Values()), v) ==> unchanged(webhookHandler.sonarrApi)
    {
      var isUpdated := StoreForm(v);
      if isUpdated {
        config.Save();
      }
    }

    /**
     * `save_config`: a POST makes the settings what the form asks for (see
     * `ApplyForm`) and is answered 200; any other method is refused with 405 and
     * changes nothing.
     */
    method SaveConfig(verb: string, form: map<string, string>) returns (status: int)
      requires webhookHandler.radarrApi != webhookHandler.sonarrApi
      modifies config, webhookHandler.radarrApi, webhookHandler.sonarrApi
      ensures verb != "POST" ==> status == 405 && unchanged(config)
                                 && unchanged(webhookHandler.radarrApi) && unchanged(webhookHandler.sonarrApi)
      ensures verb == "POST" ==> status == 200 && config.Values() == FormValues(form)
      ensures verb == "POST" && old(config.Values()) == FormValues(form) ==> config.saved == old(config.saved)
      ensures verb == "POST" && old(config.Values()) != FormValues(form) ==>
                config.saved == old(config.saved) + [ToDict(FormValues(form))]
      ensures verb == "POST" && RadarrChanged(old(config.Values()), FormValues(form)) ==>
                webhookHandler.radarrApi.uri == config.radarrUri && webhookHandler.radarrApi.apiKey == config.radarrApiKey
      ensures verb == "POST" && !RadarrChanged(old(config.Values()), FormValues(form)) ==> unchanged(webhookHandler.radarrApi)
      ensures verb == "POST" && SonarrChanged(old(config.Values()), FormValues(form)) ==>
                webhookHandler.sonarrApi.uri == config.sonarrUri && webhookHandler.sonarrApi.apiKey == config.sonarrApiKey
      ensures verb == "POST" && !SonarrChanged(old(config.Values()), FormValues(form)) ==> unchanged(webhookHandler.sonarrApi)
    {
      if verb != "POST" {
        return 405;
      }
      ApplyForm(FormValues(form));
      return 200;
    }

    /**
     * `ping_arr_server`: a missing (absent or empty) uri or api key, or one that is
     * the text "MISSING", is answered 401 without any request; otherwise the server
     * is asked through the Radarr client's session, and its error status and reason,
     * or its answer, are passed back.
     */
    method PingArrServer(data: map<string, string>) returns (response: WebResponse)
      modifies webhookHandler.gateway
      ensures var uri, apiKey := ValueOrMissing(data, "uri"), ValueOrMissing(data, "api_key");
              var gw := webhookHandler.gateway;
              if uri == "MISSING" || apiKey == "MISSING" then
                response == WebResponse(401, "URI or API KEY missing.", None) && gw.calls == old(gw.calls)
              else
                var request := PingRequest(uri, apiKey);
                && gw.calls == old(gw.calls) + [Ping(request.url, request.headers["X-API-Key"])]
                && match gw.pings(request.url, apiKey)
                   case Err(e) => response == WebResponse(e.status, e.reason, None)
                   case Ok(j) => response == WebResponse(200, "", Some(j))
    {
      var uri := ValueOrMissing(data, "uri");
      var apiKey := ValueOrMissing(data, "api_key");
      if uri == "MISSING" || apiKey == "MISSING" {
        return WebResponse(401, "URI or API KEY missing.", None);
      }
      var request := PingRequest(uri, apiKey);
      var answer := webhookHandler.gateway.PingServer(request.url, request.headers["X-API-Key"]);
      match answer
      case Err(e) =>
        response := WebResponse(e.status, e.reason, None);
      case Ok(j) =>
        response := WebResponse(200, "", Some(j));
    }
  }
}

=== FILE: sonarr_types.dfy ===
/**
 * The series record Sonarr returns (src/unmonitorr/types_/sonarr.py): a series
 * with its statistics and its seasons, each season with its own statistics. Every
 * level is an open record that keeps the keys it does not declare.
 */
module SonarrTypes {
  import opened Wrappers
  import opened Json
  import opened OpenRecord
  import F = FieldNames

  const SeasonStatsFields: seq<Field> := [F.EpisodeCount, F.TotalEpisodeCount, F.SizeOnDisk, F.PercentOfEpisodes]
  const SeasonFields: seq<Field> := [F.SeasonNumber, F.Monitored, F.Statistics]
  const SeriesStatsFields: seq<Field> :=
    [F.SeasonCount, F.EpisodeCount, F.TotalEpisodeCount, F.SizeOnDisk, F.PercentOfEpisodes]
  const SeriesFields: seq<Field> :=
    [F.Title, F.Status, F.Ended, F.Seasons, F.Year, F.Path, F.Monitored, F.MonitorNewItems, F.Statistics, F.Id]

  datatype SeasonStats = SeasonStats(
    episodeCount: int,
    totalEpisodeCount: int,
    sizeOnDisk: int,
    percentOfEpisodes: real,
    extra: Object)

  datatype SeasonRecord = SeasonRecord(
    seasonNumber: int,
    monitored: bool,
    statistics: SeasonStats,
    extra: Object)

  datatype SeriesStats = SeriesStats(
    seasonCount: int,
    episodeCount: int,
    totalEpisodeCount: int,
    sizeOnDisk: int,
    percentOfEpisodes: real,
    extra: Object)

  datatype SeriesRecord = SeriesRecord(
    title: string,
    status: string,
    ended: bool,
    seasons: seq<SeasonRecord>,
    year: int,
    path: string,
    monitored: bool,
    monitorNewItems: string,
    statistics: SeriesStats,
    id: int,
    extra: Object)

  // ---------------------------------------------------------------------------
  // The completeness and status predicates.

  /** `SeasonStatistics.is_complete`: exactly 100 percent of the episodes. */
  predicate SeasonStatsComplete(s: SeasonStats) {
    s.percentOfEpisodes == 100.0
  }

  /** `Season.is_complete`: the season's statistics report exactly 100 percent. */
  predicate SeasonComplete(s: SeasonRecord) {
    s.statistics.percentOfEpisodes == 100.0
  }

  /** `SonarrAPISeries.is_complete`: the series statistics report exactly 100 percent. */
  predicate SeriesComplete(s: SeriesRecord) {
    s.statistics.percentOfEpisodes == 100.0
  }

  /** `SonarrAPISeries.is_ended`. */
  predicate SeriesEnded(s: SeriesRecord) {
    s.ended
  }

  /** A season is complete exactly when its statistics are. */
  lemma {:induction false} SeasonCompleteIsStatsComplete(s: SeasonRecord)
    ensures SeasonComplete(s) <==> SeasonStatsComplete(s.statistics)
  {
  }

  // ---------------------------------------------------------------------------
  // Season statistics.

  lemma {:induction false} SeasonStatsAliasesDistinct()
    ensures DistinctAliases(SeasonStatsFields)
  {
  }

  function SeasonStatsValues(s: SeasonStats): (vs: seq<Json>)
    ensures |vs| == |SeasonStatsFields|
  {
    [IntNum(s.episodeCount), IntNum(s.totalEpisodeCount), IntNum(s.sizeOnDisk), JNum(s.percentOfEpisodes)]
  }

  /** Type-checks the raw field values: int, int, int, float. */
  function SeasonStatsFromValues(vs: seq<Json>, extra: Object): (r: Option<SeasonStats>)
    requires |vs| == |SeasonStatsFields|
    ensures r.Some? ==> SeasonStatsValues(r.value) == vs && r.value.extra == extra
  {
    var episodes, total, size, percent := AsInt(vs[0]), AsInt(vs[1]), AsInt(vs[2]), AsReal(vs[3]);
    if episodes.Some? && total.Some? && size.Some? && percent.Some? then
      Some(SeasonStats(episodes.value, total.value, size.value, percent.value, extra))
    else None
  }

  lemma {:induction false} SeasonStatsFromOwnValues(s: SeasonStats)
    ensures SeasonStatsFromValues(SeasonStatsValues(s), s.extra) == Some(s)
  {
  }

  predicate SeasonStatsWellFormed(s: SeasonStats) {
    s.extra.Keys !! Aliases(SeasonStatsFields)
  }

  /** Every declared field, at this level, is written under its alias. */
  predicate SeasonStatsByAlias(j: Json) {
    j.JObj? && forall i :: 0 <= i < |SeasonStatsFields| ==> SeasonStatsFields[i].alias in j.fields
  }

  function DumpSeasonStats(s: SeasonStats): Object {
    Dump(s.extra, SeasonStatsFields, SeasonStatsValues(s))
  }

  /** `SeasonStatistics.model_validate`. */
  function ParseSeasonStats(j: Json): (r: Option<SeasonStats>)
    ensures r.Some? ==> j.JObj? && SeasonStatsWellFormed(r.value)
    ensures r.Some? ==> Lookup(j.fields, F.PercentOfEpisodes) == Some(JNum(r.value.percentOfEpisodes))
  {
    if !j.JObj? then None
    else
      match RawValues(j.fields, SeasonStatsFields)
      case None => None
      case Some(vs) =>
        ExtrasHoldNoAlias(j.fields, SeasonStatsFields);
        assert Lookup(j.fields, SeasonStatsFields[3]) == Some(vs[3]);
        SeasonStatsFromValues(vs, Extras(j.fields, SeasonStatsFields))
  }

  lemma {:induction false} DumpOfParseSeasonStats(j: Json)
    requires ParseSeasonStats(j).Some? && SeasonStatsByAlias(j)
    ensures DumpSeasonStats(ParseSeasonStats(j).value) == j.fields
  {
    DumpOfRead(j.fields, SeasonStatsFields);
  }

  lemma {:induction false} ParseOfDumpSeasonStats(s: SeasonStats)
    requires SeasonStatsWellFormed(s)
    ensures ParseSeasonStats(JObj(DumpSeasonStats(s))) == Some(s)
    ensures SeasonStatsByAlias(JObj(DumpSeasonStats(s)))
  {
    SeasonStatsAliasesDistinct();
    ReadOfDump(s.extra, SeasonStatsFields, SeasonStatsValues(s));
    SeasonStatsFromOwnValues(s);
  }

  // ---------------------------------------------------------------------------
  // Seasons.

  lemma {:induction false} SeasonAliasesDistinct()
    ensures DistinctAliases(SeasonFields)
  {
  }

  function SeasonValues(s: SeasonRecord): (vs: seq<Json>)
    ensures |vs| == |SeasonFields|
  {
    [IntNum(s.seasonNumber), JBool(s.monitored), JObj(DumpSeasonStats(s.statistics))]
  }

  /** Type-checks the raw field values: int, bool, season statistics. */
  function SeasonFromValues(vs: seq<Json>, extra: Object): (r: Option<SeasonRecord>)
    requires |vs| == |SeasonFields|
    ensures r.Some? ==> r.value.extra == extra && ParseSeasonStats(vs[2]) == Some(r.value.statistics)
    ensures r.Some? ==> vs[0] == IntNum(r.value.seasonNumber) && vs[1] == JBool(r.value.monitored)
  {
    var number, monitored, stats := AsInt(vs[0]), AsBool(vs[1]), ParseSeasonStats(vs[2]);
    if number.Some? && monitored.Some? && stats.Some? then
      Some(SeasonRecord(number.value, monitored.value, stats.value, extra))
    else None
  }

  lemma {:induction false} SeasonStatsValueOfFromValues(vs: seq<Json>, extra: Object)
    requires |vs| == |SeasonFields| && SeasonFromValues(vs, extra).Some? && SeasonStatsByAlias(vs[2])
    ensures JObj(DumpSeasonStats(SeasonFromValues(vs, extra).value.statistics)) == vs[2]
  {
    DumpOfParseSeasonStats(vs[2]);
  }

  /** With nested statistics written by alias, the values of the result are the inputs. */
  lemma {:induction false} SeasonValuesOfFromValues(vs: seq<Json>, extra: Object)
    requires |vs| == |SeasonFields| && SeasonFromValues(vs, extra).Some? && SeasonStatsByAlias(vs[2])
    ensures SeasonValues(SeasonFromValues(vs, extra).value) == vs
  {
    var ws := SeasonValues(SeasonFromValues(vs, extra).value);
    SeasonStatsValueOfFromValues(vs, extra);
    forall k | 0 <= k < |vs|
      ensures ws[k] == vs[k]
    {
      if k == 0 {} else if k == 1 {} else {}
    }
    EqualByElements(ws, vs);
  }

  lemma {:induction false} SeasonFromValuesOf(number: int, monitored: bool, stats: Json, st: SeasonStats, extra: Object)
    requires ParseSeasonStats(stats) == Some(st)
    ensures SeasonFromValues([IntNum(number), JBool(monitored), stats], extra) == Some(SeasonRecord(number, monitored, st, extra))
  {
  }

  lemma {:induction false} SeasonFromOwnValues(s: SeasonRecord)
    requires SeasonStatsWellFormed(s.statistics)
    ensures SeasonFromValues(SeasonValues(s), s.extra) == Some(s)
  {
    ParseOfDumpSeasonStats(s.statistics);
    SeasonFromValuesOf(s.seasonNumber, s.monitored, JObj(DumpSeasonStats(s.statistics)), s.statistics, s.extra);
  }

  predicate SeasonWellFormed(s: SeasonRecord) {
    s.extra.Keys !! Aliases(SeasonFields) && SeasonStatsWellFormed(s.statistics)
  }

  predicate SeasonByAlias(j: Json) {
    && j.JObj?
    && (forall i :: 0 <= i < |SeasonFields| ==> SeasonFields[i].alias in j.fields)
    && F.Statistics.alias in j.fields
    && SeasonStatsByAlias(j.fields[F.Statistics.alias])
  }

  function DumpSeason(s: SeasonRecord): Object {
    Dump(s.extra, SeasonFields, SeasonValues(s))
  }

  /** `Season.model_validate`. */
  function ParseSeason(j: Json): (r: Option<SeasonRecord>)
    ensures r.Some? ==> j.JObj? && SeasonWellFormed(r.value)
    ensures r.Some? ==> Lookup(j.fields, F.Monitored) == Some(JBool(r.value.monitored))
  {
    if !j.JObj? then None
    else
      match RawValues(j.fields, SeasonFields)
      case None => None
      case Some(vs) =>
        ExtrasHoldNoAlias(j.fields, SeasonFields);
        assert Lookup(j.fields, SeasonFields[1]) == Some(vs[1]);
        SeasonFromValues(vs, Extras(j.fields, SeasonFields))
  }

  lemma {:induction false} DumpOfParseSeason(j: Json)
    requires ParseSeason(j).Some? && SeasonByAlias(j)
    ensures DumpSeason(ParseSeason(j).value) == j.fields
  {
    var o := j.fields;
    var vs := RawValues(o, SeasonFields).value;
    assert Lookup(o, SeasonFields[2]) == Some(vs[2]);
    SeasonValuesOfFromValues(vs, Extras(o, SeasonFields));
    DumpOfRead(o, SeasonFields);
  }

  lemma {:induction false} ParseOfDumpSeason(s: SeasonRecord)
    requires SeasonWellFormed(s)
    ensures ParseSeason(JObj(DumpSeason(s))) == Some(s)
    ensures SeasonByAlias(JObj(DumpSeason(s)))
  {
    SeasonAliasesDistinct();
    ReadOfDump(s.extra, SeasonFields, SeasonValues(s));
    SeasonFromOwnValues(s);
    ParseOfDumpSeasonStats(s.statistics);
    assert Lookup(DumpSeason(s), SeasonFields[2]) == Some(SeasonValues(s)[2]);
  }

  /** A season as the JSON object it is dumped to. */
  function SeasonJson(s: SeasonRecord): Json {
    JObj(DumpSeason(s))
  }

  lemma {:induction false} SeasonDumpsBack()
    ensures forall j :: SeasonByAlias(j) && ParseSeason(j).Some? ==> SeasonJson(ParseSeason(j).value) == j
  {
    forall j | SeasonByAlias(j) && ParseSeason(j).Some?
      ensures SeasonJson(ParseSeason(j).value) == j
    {
      DumpOfParseSeason(j);
    }
  }

  lemma {:induction false} SeasonParsesBack()
    ensures forall s :: SeasonWellFormed(s) ==> ParseSeason(SeasonJson(s)) == Some(s)
    ensures forall s :: SeasonWellFormed(s) ==> SeasonByAlias(SeasonJson(s))
  {
    forall s | SeasonWellFormed(s)
      ensures ParseSeason(SeasonJson(s)) == Some(s) && SeasonByAlias(SeasonJson(s))
    {
      ParseOfDumpSeason(s);
    }
  }

  /** Dumping a validated season list writes back the list it came from. */
  lemma {:induction false} DumpOfParseSeasonList(items: seq<Json>, ss: seq<SeasonRecord>)
    requires ParseEach(items, ParseSeason) == Some(ss)
    requires forall i :: 0 <= i < |items| ==> SeasonByAlias(items[i])
    ensures DumpEach(ss, SeasonJson) == items
  {
    forall i | 0 <= i < |items|
      ensures SeasonJson(ss[i]) == items[i]
    {
      DumpSeasonAt(items, ss, i);
    }
    EqualByElements(DumpEach(ss, SeasonJson), items);
  }

  lemma {:induction false} DumpSeasonAt(items: seq<Json>, ss: seq<SeasonRecord>, i: int)
    requires ParseEach(items, ParseSeason) == Some(ss) && 0 <= i < |items| && SeasonByAlias(items[i])
    ensures i < |ss| && SeasonJson(ss[i]) == items[i]
  {
    ParseEachAt(items, ParseSeason, ss, i);
    DumpOfParseSeason(items[i]);
  }

  /** Validating a dumped season list gives the seasons back. */
  lemma {:induction false} ParseOfDumpSeasonList(ss: seq<SeasonRecord>)
    requires forall i :: 0 <= i < |ss| ==> SeasonWellFormed(ss[i])
    ensures ParseEach(DumpEach(ss, SeasonJson), ParseSeason) == Some(ss)
    ensures forall i :: 0 <= i < |ss| ==> SeasonByAlias(DumpEach(ss, SeasonJson)[i])
  {
    SeasonParsesBack();
    ParseEachOfDumpEach(ss, ParseSeason, SeasonJson, SeasonWellFormed);
  }

  // ---------------------------------------------------------------------------
  // Series statistics.

  lemma {:induction false} SeriesStatsAliasesDistinct()
    ensures DistinctAliases(SeriesStatsFields)
  {
  }

  function SeriesStatsValues(s: SeriesStats): (vs: seq<Json>)
    ensures |vs| == |SeriesStatsFields|
  {
    [IntNum(s.seasonCount), IntNum(s.episodeCount), IntNum(s.totalEpisodeCount), IntNum(s.sizeOnDisk),
     JNum(s.percentOfEpisodes)]
  }

  /** Type-checks the raw field values: int, int, int, int, float. */
  function SeriesStatsFromValues(vs: seq<Json>, extra: Object): (r: Option<SeriesStats>)
    requires |vs| == |SeriesStatsFields|
    ensures r.Some? ==> SeriesStatsValues(r.value) == vs && r.value.extra == extra
  {
    var seasons, episodes, total, size := AsInt(vs[0]), AsInt(vs[1]), AsInt(vs[2]), AsInt(vs[3]);
    var percent := AsReal(vs[4]);
    if seasons.Some? && episodes.Some? && total.Some? && size.Some? && percent.Some? then
      Some(SeriesStats(seasons.value, episodes.value, total.value, size.value, percent.value, extra))
    else None
  }

  lemma {:induction false} SeriesStatsFromOwnValues(s: SeriesStats)
    ensures SeriesStatsFromValues(SeriesStatsValues(s), s.extra) == Some(s)
  {
  }

  predicate SeriesStatsWellFormed(s: SeriesStats) {
    s.extra.Keys !! Aliases(SeriesStatsFields)
  }

  predicate SeriesStatsByAlias(j: Json) {
    j.JObj? && forall i :: 0 <= i < |SeriesStatsFields| ==> SeriesStatsFields[i].alias in j.fields
  }

  function DumpSeriesStats(s: SeriesStats): Object {
    Dump(s.extra, SeriesStatsFields, SeriesStatsValues(s))
  }

  /** `SeriesStatistics.model_validate`. */
  function ParseSeriesStats(j: Json): (r: Option<SeriesStats>)
    ensures r.Some? ==> j.JObj? && SeriesStatsWellFormed(r.value)
    ensures r.Some? ==> Lookup(j.fields, F.PercentOfEpisodes) == Some(JNum(r.value.percentOfEpisodes))
  {
    if !j.JObj? then None
    else
      match RawValues(j.fields, SeriesStatsFields)
      case None => None
      case Some(vs) =>
        ExtrasHoldNoAlias(j.fields, SeriesStatsFields);
        assert Lookup(j.fields, SeriesStatsFields[4]) == Some(vs[4]);
        SeriesStatsFromValues(vs, Extras(j.fields, SeriesStatsFields))
  }

  lemma {:induction false} DumpOfParseSeriesStats(j: Json)
    requires ParseSeriesStats(j).Some? && SeriesStatsByAlias(j)
    ensures DumpSeriesStats(ParseSeriesStats(j).value) == j.fields
  {
    DumpOfRead(j.fields, SeriesStatsFields);
  }

  lemma {:induction false} ParseOfDumpSeriesStats(s: SeriesStats)
    requires SeriesStatsWellFormed(s)
    ensures ParseSeriesStats(JObj(DumpSeriesStats(s))) == Some(s)
    ensures SeriesStatsByAlias(JObj(DumpSeriesStats(s)))
  {
    SeriesStatsAliasesDistinct();
    ReadOfDump(s.extra, SeriesStatsFields, SeriesStatsValues(s));
    SeriesStatsFromOwnValues(s);
  }

  // ---------------------------------------------------------------------------
  // Series.

  lemma {:induction false} SeriesAliasesDistinct()
    ensures DistinctAliases(SeriesFields)
  {
  }

  /** The field values of a series, given the JSON its seasons and statistics are written as. */
  function SeriesValuesWith(s: SeriesRecord, seasons: Json, statistics: Json): (vs: seq<Json>)
    ensures |vs| == |SeriesFields|
  {
    [JStr(s.title), JStr(s.status), JBool(s.ended), seasons, IntNum(s.year),
     JStr(s.path), JBool(s.monitored), JStr(s.monitorNewItems), statistics, IntNum(s.id)]
  }

  function SeriesValues(s: SeriesRecord): (vs: seq<Json>)
    ensures |vs| == |SeriesFields|
  {
    SeriesValuesWith(s, JArr(DumpEach(s.seasons, SeasonJson)), JObj(DumpSeriesStats(s.statistics)))
  }

  /** The seasons value: a list whose every element is a valid season. */
  function SeasonsOf(j: Json): (r: Option<seq<SeasonRecord>>)
    ensures r.Some? ==> j.JArr? && ParseEach(j.items, ParseSeason) == r
  {
    if j.JArr? then ParseEach(j.items, ParseSeason) else None
  }

  /** Type-checks the raw field values, the nested records included. */
  function SeriesFromValues(vs: seq<Json>, extra: Object): (r: Option<SeriesRecord>)
    requires |vs| == |SeriesFields|
    ensures r.Some? ==> r.value.extra == extra
    ensures r.Some? ==> SeasonsOf(vs[3]) == Some(r.value.seasons) && ParseSeriesStats(vs[8]) == Some(r.value.statistics)
    ensures r.Some? ==>
      (&& vs[0] == JStr(r.value.title) && vs[1] == JStr(r.value.status) && vs[2] == JBool(r.value.ended)
       && vs[4] == IntNum(r.value.year) && vs[5] == JStr(r.value.path) && vs[6] == JBool(r.value.monitored)
       && vs[7] == JStr(r.value.monitorNewItems) && vs[9] == IntNum(r.value.id))
  {
    var title, status, ended, seasons := AsStr(vs[0]), AsStr(vs[1]), AsBool(vs[2]), SeasonsOf(vs[3]);
    var year, path, monitored, monitorNew := AsInt(vs[4]), AsStr(vs[5]), AsBool(vs[6]), AsStr(vs[7]);
    var stats, id := ParseSeriesStats(vs[8]), AsInt(vs[9]);
    if title.Some? && status.Some? && ended.Some? && seasons.Some? && year.Some? && path.Some?
       && monitored.Some? && monitorNew.Some? && stats.Some? && id.Some?
    then
      Some(SeriesRecord(title.value, status.value, ended.value, seasons.value, year.value, path.value,
                        monitored.value, monitorNew.value, stats.value, id.value, extra))
    else None
  }

  /** The nested records of the raw values are written by alias at every level. */
  predicate NestedByAlias(vs: seq<Json>)
    requires |vs| == |SeriesFields|
  {
    && SeriesStatsByAlias(vs[8])
    && vs[3].JArr?
    && forall i :: 0 <= i < |vs[3].items| ==> SeasonByAlias(vs[3].items[i])
  }

  lemma {:induction false} SeriesSeasonsOfFromValues(vs: seq<Json>, extra: Object)
    requires |vs| == |SeriesFields| && SeriesFromValues(vs, extra).Some? && NestedByAlias(vs)
    ensures JArr(DumpEach(SeriesFromValues(vs, extra).value.seasons, SeasonJson)) == vs[3]
  {
    DumpOfParseSeasonList(vs[3].items, SeriesFromValues(vs, extra).value.seasons);
  }

  lemma {:induction false} SeriesStatsOfFromValues(vs: seq<Json>, extra: Object)
    requires |vs| == |SeriesFields| && SeriesFromValues(vs, extra).Some? && NestedByAlias(vs)
    ensures JObj(DumpSeriesStats(SeriesFromValues(vs, extra).value.statistics)) == vs[8]
  {
    DumpOfParseSeriesStats(vs[8]);
  }

  lemma {:induction false} SeriesValuesWithOf(vs: seq<Json>, s: SeriesRecord)
    requires |vs| == |SeriesFields|
    requires vs[0] == JStr(s.title) && vs[1] == JStr(s.status) && vs[2] == JBool(s.ended)
    requires vs[4] == IntNum(s.year) && vs[5] == JStr(s.path) && vs[6] == JBool(s.monitored)
    requires vs[7] == JStr(s.monitorNewItems) && vs[9] == IntNum(s.id)
    ensures SeriesValuesWith(s, vs[3], vs[8]) == vs
  {
    var ws := SeriesValuesWith(s, vs[3], vs[8]);
    assert forall k :: 0 <= k < |vs| ==> ws[k] == vs[k];
    EqualByElements(ws, vs);
  }

  /** With nested records written by alias, the values of the result are the inputs. */
  lemma {:induction false} SeriesValuesOfFromValues(vs: seq<Json>, extra: Object)
    requires |vs| == |SeriesFields| && SeriesFromValues(vs, extra).Some? && NestedByAlias(vs)
    ensures SeriesValues(SeriesFromValues(vs, extra).value) == vs
  {
    SeriesSeasonsOfFromValues(vs, extra);
    SeriesStatsOfFromValues(vs, extra);
    SeriesValuesWithOf(vs, SeriesFromValues(vs, extra).value);
  }

  lemma {:induction false} SeriesFromValuesOf(s: SeriesRecord, seasons: Json, statistics: Json)
    requires SeasonsOf(seasons) == Some(s.seasons) && ParseSeriesStats(statistics) == Some(s.statistics)
    ensures SeriesFromValues(SeriesValuesWith(s, seasons, statistics), s.extra) == Some(s)
  {
  }

  lemma {:induction false} SeriesFromOwnValues(s: SeriesRecord)
    requires SeriesWellFormed(s)
    ensures SeriesFromValues(SeriesValues(s), s.extra) == Some(s)
  {
    ParseOfDumpSeasonList(s.seasons);
    ParseOfDumpSeriesStats(s.statistics);
    SeriesFromValuesOf(s, JArr(DumpEach(s.seasons, SeasonJson)), JObj(DumpSeriesStats(s.statistics)));
  }

  /** No level of the record stores an extra under one of its own aliases. */
  predicate SeriesWellFormed(s: SeriesRecord) {
    && s.extra.Keys !! Aliases(SeriesFields)
    && SeriesStatsWellFormed(s.statistics)
    && forall i :: 0 <= i < |s.seasons| ==> SeasonWellFormed(s.seasons[i])
  }

  /** Every level of the object writes its declared fields under their aliases. */
  predicate SeriesByAlias(j: Json) {
    && j.JObj?
    && (forall i :: 0 <= i < |SeriesFields| ==> SeriesFields[i].alias in j.fields)
    && F.Statistics.alias in j.fields && F.Seasons.alias in j.fields
    && SeriesStatsByAlias(j.fields[F.Statistics.alias])
    && j.fields[F.Seasons.alias].JArr?
    && forall i :: 0 <= i < |j.fields[F.Seasons.alias].items| ==> SeasonByAlias(j.fields[F.Seasons.alias].items[i])
  }

  /** `model_dump(by_alias=True)` of the series, nested records included. */
  function DumpSeries(s: SeriesRecord): (r: Object)
    ensures r.Keys == s.extra.Keys + Aliases(SeriesFields)
    ensures forall i :: 0 <= i < |SeriesFields| ==> r[SeriesFields[i].alias] == SeriesValues(s)[i]
  {
    SeriesAliasesDistinct();
    DumpEntries(s.extra, SeriesFields, SeriesValues(s));
    Dump(s.extra, SeriesFields, SeriesValues(s))
  }

  /** `SonarrAPISeries.model_validate`. */
  function ParseSeries(j: Json): (r: Option<SeriesRecord>)
    ensures r.Some? ==> j.JObj?
    ensures r.Some? ==>
      (Lookup(j.fields, F.Id) == Some(IntNum(r.value.id))
       && Lookup(j.fields, F.Title) == Some(JStr(r.value.title))
       && Lookup(j.fields, F.Monitored) == Some(JBool(r.value.monitored))
       && Lookup(j.fields, F.Ended) == Some(JBool(r.value.ended)))
  {
    if !j.JObj? then None
    else
      match RawValues(j.fields, SeriesFields)
      case None => None
      case Some(vs) => SeriesFromValues(vs, Extras(j.fields, SeriesFields))
  }

  /**
   * Every field of a validated series is the value read from the input: the scalars
   * as read, the seasons and statistics validated from the nested values, and the
   * unread keys as extras.
   */
  lemma ParseSeriesReadsFields(j: Json)
    requires ParseSeries(j).Some?
    ensures var vs := RawValues(j.fields, SeriesFields);
            && vs.Some?
            && SeriesValuesWith(ParseSeries(j).value, vs.value[3], vs.value[8]) == vs.value
            && SeasonsOf(vs.value[3]) == Some(ParseSeries(j).value.seasons)
            && ParseSeriesStats(vs.value[8]) == Some(ParseSeries(j).value.statistics)
            && ParseSeries(j).value.extra == Extras(j.fields, SeriesFields)
  {
    SeriesValuesWithOf(RawValues(j.fields, SeriesFields).value, ParseSeries(j).value);
  }

  /** What validation produces is well formed at every level. */
  lemma {:induction false} ParsedSeriesWellFormed(j: Json)
    requires ParseSeries(j).Some?
    ensures SeriesWellFormed(ParseSeries(j).value)
  {
    var vs := RawValues(j.fields, SeriesFields).value;
    ExtrasHoldNoAlias(j.fields, SeriesFields);
    FromValuesWellFormed(vs, Extras(j.fields, SeriesFields));
  }

  lemma {:induction false} FromValuesWellFormed(vs: seq<Json>, extra: Object)
    requires |vs| == |SeriesFields| && SeriesFromValues(vs, extra).Some?
    ensures SeriesStatsWellFormed(SeriesFromValues(vs, extra).value.statistics)
    ensures var ss := SeriesFromValues(vs, extra).value.seasons;
            forall i :: 0 <= i < |ss| ==> SeasonWellFormed(ss[i])
  {
    ParsedSeasonsWellFormed(vs[3].items, SeriesFromValues(vs, extra).value.seasons);
  }

  lemma {:induction false} ParsedSeasonsWellFormed(items: seq<Json>, ss: seq<SeasonRecord>)
    requires ParseEach(items, ParseSeason) == Some(ss)
    ensures forall i :: 0 <= i < |ss| ==> SeasonWellFormed(ss[i])
  {
    forall i | 0 <= i < |ss|
      ensures SeasonWellFormed(ss[i])
    {
      ParseEachAt(items, ParseSeason, ss, i);
    }
  }

  /**
   * Dumping a validated series by alias reproduces the response it was validated
   * from, nested records and unknown keys included.
   */
  lemma {:induction false} DumpOfParseSeries(j: Json)
    requires ParseSeries(j).Some? && SeriesByAlias(j)
    ensures DumpSeries(ParseSeries(j).value) == j.fields
  {
    var o := j.fields;
    var vs := RawValues(o, SeriesFields).value;
    assert Lookup(o, SeriesFields[3]) == Some(vs[3]);
    assert Lookup(o, SeriesFields[8]) == Some(vs[8]);
    SeriesValuesOfFromValues(vs, Extras(o, SeriesFields));
    DumpOfRead(o, SeriesFields);
  }

  /** Validating a dump gives the series back. */
  lemma {:induction false} ParseOfDumpSeries(s: SeriesRecord)
    requires SeriesWellFormed(s)
    ensures ParseSeries(JObj(DumpSeries(s))) == Some(s)
  {
    SeriesAliasesDistinct();
    ReadOfDump(s.extra, SeriesFields, SeriesValues(s));
    SeriesFromOwnValues(s);
  }

  // ---------------------------------------------------------------------------
  // Unmonitoring.

  /** The series with `monitored` false and every other field, extras included, as it was. */
  function UnmonitoredSeries(s: SeriesRecord): (r: SeriesRecord)
    ensures !r.monitored && r.(monitored := s.monitored) == s
  {
    s.(monitored := false)
  }

  /** Unmonitoring twice is unmonitoring once. */
  lemma {:induction false} UnmonitorSeriesIdempotent(s: SeriesRecord)
    ensures UnmonitoredSeries(UnmonitoredSeries(s)) == UnmonitoredSeries(s)
  {
  }

  lemma {:induction false} SeriesFromValuesUnmonitored(vs: seq<Json>, extra: Object)
    requires |vs| == |SeriesFields| && SeriesFromValues(vs, extra).Some?
    ensures SeriesFromValues(vs[6 := JBool(false)], extra) == Some(UnmonitoredSeries(SeriesFromValues(vs, extra).value))
  {
    var s := UnmonitoredSeries(SeriesFromValues(vs, extra).value);
    var ws := vs[6 := JBool(false)];
    SeriesValuesWithOf(ws, s);
    SeriesFromValuesOf(s, ws[3], ws[8]);
  }

  /** Writing false under "monitored" in a response validates to the unmonitored record. */
  lemma {:induction false} UnmonitoredSeriesParse(j: Json)
    requires ParseSeries(j).Some? && SeriesByAlias(j)
    ensures ParseSeries(JObj(j.fields[F.Monitored.alias := JBool(false)])) == Some(UnmonitoredSeries(ParseSeries(j).value))
  {
    var o := j.fields;
    var vs := RawValues(o, SeriesFields).value;
    SeriesAliasesDistinct();
    assert SeriesFields[6] == F.Monitored;
    ReadAfterSet(o, SeriesFields, 6, JBool(false));
    ExtrasAfterSet(o, SeriesFields, 6, JBool(false));
    SeriesFromValuesUnmonitored(vs, Extras(o, SeriesFields));
  }

  /**
   * The series sent back after unmonitoring is the response Sonarr returned with
   * "monitored" set to false and nothing else changed, nested records included.
   */
  lemma {:induction false} UnmonitoredSeriesDump(j: Json)
    requires ParseSeries(j).Some? && SeriesByAlias(j)
    ensures DumpSeries(UnmonitoredSeries(ParseSeries(j).value)) == j.fields[F.Monitored.alias := JBool(false)]
  {
    var j' := JObj(j.fields[F.Monitored.alias := JBool(false)]);
    UnmonitoredSeriesParse(j);
    assert SeriesByAlias(j') by {
      assert j'.fields[F.Statistics.alias] == j.fields[F.Statistics.alias];
      assert j'.fields[F.Seasons.alias] == j.fields[F.Seasons.alias];
    }
    DumpOfParseSeries(j');
  }

  // ---------------------------------------------------------------------------
  // The objects the handler mutates.

  /** `Season`: only `monitored` is ever reassigned. */
  class Season {
    const seasonNumber: int
    var monitored: bool
    const statistics: SeasonStats
    const extra: Object

    function Value(): (s: SeasonRecord)
      reads this
      ensures s.monitored == monitored
    {
      SeasonRecord(seasonNumber, monitored, statistics, extra)
    }

    constructor (s: SeasonRecord)
      ensures Value() == s
    {
      seasonNumber, monitored, statistics, extra := s.seasonNumber, s.monitored, s.statistics, s.extra;
    }

    /** `Season.is_complete`: the season's statistics say exactly 100 percent. */
    predicate IsComplete()
      reads this
      ensures IsComplete() <==> statistics.percentOfEpisodes == 100.0
    {
      SeasonComplete(Value())
    }

    /** `Season.unmonitor`: this season's `monitored` becomes false; nothing else changes. */
    method Unmonitor()
      modifies this
      ensures Value() == old(Value()).(monitored := false)
    {
      monitored := false;
    }
  }

  /** `SonarrAPISeries`: only `monitored` of the series itself is ever reassigned. */
  class SonarrAPISeries {
    const title: string
    const status: string
    const ended: bool
    const seasons: seq<Season>
    const year: int
    const path: string
    var monitored: bool
    const monitorNewItems: string
    const statistics: SeriesStats
    const id: int
    const extra: Object

    function Value(): (s: SeriesRecord)
      reads this, seasons
      ensures s.monitored == monitored && s.id == id && s.ended == ended
    {
      var ss := seq(|seasons|, i reads seasons requires 0 <= i < |seasons| => seasons[i].Value());
      SeriesRecord(title, status, ended, ss, year, path, monitored, monitorNewItems, statistics, id, extra)
    }

    constructor (s: SeriesRecord)
      ensures Value() == s
      ensures forall i :: 0 <= i < |seasons| ==> fresh(seasons[i])
    {
      var objs: seq<Season> := [];
      for k := 0 to |s.seasons|
        invariant |objs| == k
        invariant forall i :: 0 <= i < k ==> fresh(objs[i]) && objs[i].Value() == s.seasons[i]
      {
        var season := new Season(s.seasons[k]);
        objs := objs + [season];
      }
      title, status, ended, seasons, year := s.title, s.status, s.ended, objs, s.year;
      path, monitored, monitorNewItems, statistics, id, extra := s.path, s.monitored, s.monitorNewItems, s.statistics, s.id, s.extra;
      new;
      assert Value().seasons == s.seasons;
    }

    /** `is_complete`: the series statistics say exactly 100 percent. */
    predicate IsComplete()
      reads this, seasons
      ensures IsComplete() <==> statistics.percentOfEpisodes == 100.0
    {
      SeriesComplete(Value())
    }

    /** `is_ended`: the `ended` field. */
    predicate IsEnded()
      reads this, seasons
      ensures IsEnded() <==> ended
    {
      SeriesEnded(Value())
    }

    /** `unmonitor_series`: the series' `monitored` becomes false; nothing else changes. */
    method UnmonitorSeries()
      modifies this
      ensures Value() == UnmonitoredSeries(old(Value()))
    {
      monitored := false;
    }
  }
}

=== FILE: text.dfy ===
/**
 * The string operations the source leans on: ASCII case mapping, `str.split` on one
 * character, `str.join`, substring search, `str(int)` and `str.strip()`.
 * Case mapping covers ASCII letters only; every other character maps to itself, where
 * Python's `lower()` and `capitalize()` also map other alphabets (and may change the
 * length). The program applies them only to its own ASCII field names and keys.
 */
module Text {

  predicate IsUpper(c: char) {
    'A' <= c <= 'Z'
  }

  predicate IsLower(c: char) {
    'a' <= c <= 'z'
  }

  function UpperChar(c: char): (r: char)
    ensures !IsLower(r)
    ensures !IsLower(c) ==> r == c
  {
    if IsLower(c) then (c as int - 32) as char else c
  }

  function LowerChar(c: char): (r: char)
    ensures !IsUpper(r)
    ensures !IsUpper(c) ==> r == c
  {
    if IsUpper(c) then (c as int + 32) as char else c
  }

  /** `s.lower()` restricted to ASCII letters. */
  function Lower(s: string): (r: string)
    ensures |r| == |s|
    ensures forall i :: 0 <= i < |s| ==> r[i] == LowerChar(s[i])
  {
    seq(|s|, i requires 0 <= i < |s| => LowerChar(s[i]))
  }

  lemma LowerConcat(a: string, b: string)
    ensures Lower(a + b) == Lower(a) + Lower(b)
  {
  }

  lemma {:induction false} LowerOfLowercase(s: string)
    requires forall i :: 0 <= i < |s| ==> !IsUpper(s[i])
    ensures Lower(s) == s
  {
  }

  /** `word.capitalize()`: first character upper-cased, the rest lower-cased. */
  function Capitalize(w: string): (r: string)
    ensures |r| == |w|
    ensures |w| > 0 ==> r[0] == UpperChar(w[0])
    ensures forall i :: 0 < i < |w| ==> r[i] == LowerChar(w[i])
  {
    if |w| == 0 then "" else [UpperChar(w[0])] + Lower(w[1..])
  }

  /** A lower-case word is capitalized by upper-casing its first letter alone. */
  lemma CapitalizeOfLowercase(w: string)
    requires |w| > 0 && forall i :: 0 <= i < |w| ==> !IsUpper(w[i])
    ensures Capitalize(w) == [UpperChar(w[0])] + w[1..]
  {
    LowerOfLowercase(w[1..]);
  }

  /** `s.split(sep)` for a one-character separator: never empty, no part holds `sep`. */
  function Split(s: string, sep: char): (parts: seq<string>)
    ensures |parts| >= 1
    ensures forall k :: 0 <= k < |parts| ==> sep !in parts[k]
    decreases |s|
  {
    if |s| == 0 then [""]
    else
      var rest := Split(s[1..], sep);
      if s[0] == sep then [""] + rest
      else [[s[0]] + rest[0]] + rest[1..]
  }

  /** `sep.join(parts)`. */
  function Join(parts: seq<string>, sep: string): string
    decreases |parts|
  {
    if |parts| == 0 then ""
    else if |parts| == 1 then parts[0]
    else parts[0] + sep + Join(parts[1..], sep)
  }

  lemma {:induction false} SplitWithoutSeparator(a: string, sep: char)
    requires sep !in a
    ensures Split(a, sep) == [a]
  {
    if |a| > 0 {
      SplitWithoutSeparator(a[1..], sep);
      assert [a[0]] + a[1..] == a;
    }
  }

  lemma {:induction false} SplitAtSeparator(a: string, sep: char, b: string)
    requires sep !in a
    ensures Split(a + [sep] + b, sep) == [a] + Split(b, sep)
  {
    var s := a + [sep] + b;
    if |a| == 0 {
      assert s[1..] == b;
    } else {
      assert s[1..] == a[1..] + [sep] + b;
      SplitAtSeparator(a[1..], sep, b);
      assert [a[0]] + a[1..] == a;
    }
  }

  /** Splitting a join of separator-free parts gives the parts back. */
  lemma {:induction false} SplitJoin(parts: seq<string>, sep: char)
    requires |parts| >= 1
    requires forall k :: 0 <= k < |parts| ==> sep !in parts[k]
    ensures Split(Join(parts, [sep]), sep) == parts
    decreases |parts|
  {
    if |parts| == 1 {
      SplitWithoutSeparator(parts[0], sep);
    } else {
      SplitJoin(parts[1..], sep);
      SplitAtSeparator(parts[0], sep, Join(parts[1..], [sep]));
      assert [parts[0]] + parts[1..] == parts;
    }
  }

  /** Joining the parts of a split gives the string back. */
  lemma {:induction false} JoinSplit(s: string, sep: char)
    ensures Join(Split(s, sep), [sep]) == s
    decreases |s|
  {
    if |s| > 0 {
      JoinSplit(s[1..], sep);
      var rest := Split(s[1..], sep);
      if s[0] == sep {
        assert ([""] + rest)[1..] == rest;
      } else {
        var parts := Split(s, sep);
        assert parts[0] == [s[0]] + rest[0];
        assert parts[1..] == rest[1..];
        if |rest| > 1 {
          assert Join(rest, [sep]) == rest[0] + [sep] + Join(rest[1..], [sep]);
        }
      }
    }
  }

  /** `needle in hay` for strings: some suffix of `hay` starts with `needle`. */
  predicate Contains(hay: string, needle: string)
    ensures Contains(hay, needle) ==> |needle| <= |hay|
    decreases |hay|
  {
    needle <= hay || (|hay| > 0 && Contains(hay[1..], needle))
  }

  function DigitChar(d: nat): char
    requires d < 10
  {
    ('0' as int + d) as char
  }

  function NatToString(n: nat): (r: string)
    ensures |r| >= 1
    ensures forall k :: 0 <= k < |r| ==> '0' <= r[k] <= '9'
    decreases n
  {
    if n < 10 then [DigitChar(n)] else NatToString(n / 10) + [DigitChar(n % 10)]
  }

  /** `str(i)` for a Python int. */
  function IntToString(i: int): (r: string)
    ensures |r| >= 1
  {
    if i < 0 then "-" + NatToString(-i) else NatToString(i)
  }

  /** The characters `str.isspace()` accepts. */
  predicate IsSpace(c: char) {
    || '\t' <= c <= '\r'
    || '\U{1C}' <= c <= ' '
    || c == '\U{85}' || c == '\U{A0}' || c == '\U{1680}'
    || '\U{2000}' <= c <= '\U{200A}'
    || c == '\U{2028}' || c == '\U{2029}' || c == '\U{202F}' || c == '\U{205F}' || c == '\U{3000}'
  }

  /** Every character of `s` is white space. */
  predicate AllSpace(s: string) {
    forall k :: 0 <= k < |s| ==> IsSpace(s[k])
  }

  /** `s.lstrip()`: only white space is removed, and what is left does not start with it. */
  function TrimStart(s: string): (r: string)
    ensures |r| <= |s| && r == s[|s| - |r|..]
    ensures AllSpace(s[..|s| - |r|])
    ensures |r| > 0 ==> !IsSpace(r[0])
    decreases |s|
  {
    if |s| > 0 && IsSpace(s[0]) then
      var r := TrimStart(s[1..]);
      assert s[..|s| - |r|] == [s[0]] + s[1..][..|s[1..]| - |r|];
      r
    else s
  }

  /** `s.rstrip()`: only white space is removed, and what is left does not end with it. */
  function TrimEnd(s: string): (r: string)
    ensures |r| <= |s| && r == s[..|r|]
    ensures AllSpace(s[|r|..])
    ensures |r| > 0 ==> !IsSpace(r[|r| - 1])
    decreases |s|
  {
    if |s| > 0 && IsSpace(s[|s| - 1]) then
      var r := TrimEnd(s[..|s| - 1]);
      assert s[|r|..] == s[..|s| - 1][|r|..] + [s[|s| - 1]];
      r
    else s
  }

  /**
   * `s.strip()`: a substring `s[a..b]` with only white space outside it and none at
   * either of its ends, so an all-white-space string strips to "".
   */
  function Strip(s: string): (r: string)
    ensures exists a, b :: 0 <= a <= b <= |s| && r == s[a..b] && AllSpace(s[..a]) && AllSpace(s[b..])
    ensures |r| > 0 ==> !IsSpace(r[0]) && !IsSpace(r[|r| - 1])
  {
    var t := TrimStart(s);
    var r := TrimEnd(t);
    var a := |s| - |t|;
    assert r == s[a..a + |r|];
    assert s[a + |r|..] == t[|r|..];
    r
  }
}

=== FILE: webhook.dfy ===
/**
 * The webhook payloads Radarr and Sonarr post (src/unmonitorr/types_/webhook.py)
 * and the classification of an incoming body as one of them. Each payload shape is
 * a structural matcher over the JSON body: a field is read under its alias or its
 * name, must have the declared JSON kind, and unknown keys are ignored.
 */
module Webhook {
  import opened Wrappers
  import opened Json
  import opened Text
  import opened OpenRecord
  import F = FieldNames

  datatype WebhookMovie = WebhookMovie(id: int, title: string, year: int, folderPath: string)

  datatype RadarrPayload = RadarrPayload(
    movie: WebhookMovie,
    eventType: string,
    instanceName: string,
    applicationUrl: string)

  datatype WebhookSeries = WebhookSeries(id: int, title: string, path: string, year: int)

  datatype WebhookEpisode = WebhookEpisode(
    id: int,
    episodeNumber: int,
    seasonNumber: int,
    title: string,
    seriesId: int)

  datatype SonarrPayload = SonarrPayload(
    series: WebhookSeries,
    episodes: seq<WebhookEpisode>,
    eventType: string,
    instanceName: string,
    applicationUrl: string)

  /** What `validate_payload` makes of a body. */
  datatype Classified = Movie(movie: RadarrPayload) | Series(series: SonarrPayload) | Unrecognized

  /** `WebhookMovie.model_validate`. */
  function ParseWebhookMovie(j: Json): (r: Option<WebhookMovie>)
    ensures r.Some? ==> j.JObj?
    ensures r.Some? ==>
      (Lookup(j.fields, F.Id) == Some(IntNum(r.value.id))
       && Lookup(j.fields, F.Title) == Some(JStr(r.value.title))
       && Lookup(j.fields, F.Year) == Some(IntNum(r.value.year))
       && Lookup(j.fields, F.FolderPath) == Some(JStr(r.value.folderPath)))
  {
    if !j.JObj? then None
    else
      var o := j.fields;
      var id, title, year, path := IntField(o, F.Id), StrField(o, F.Title), IntField(o, F.Year), StrField(o, F.FolderPath);
      if id.Some? && title.Some? && year.Some? && path.Some? then
        Some(WebhookMovie(id.value, title.value, year.value, path.value))
      else None
  }

  /** `RadarrWebhookPayload.model_validate`. */
  function ParseRadarrPayload(j: Json): (r: Option<RadarrPayload>)
    ensures r.Some? ==> j.JObj? && Lookup(j.fields, F.Movie).Some?
    ensures r.Some? ==> ParseWebhookMovie(Lookup(j.fields, F.Movie).value) == Some(r.value.movie)
    ensures r.Some? ==>
      (Lookup(j.fields, F.EventType) == Some(JStr(r.value.eventType))
       && Lookup(j.fields, F.InstanceName) == Some(JStr(r.value.instanceName))
       && Lookup(j.fields, F.ApplicationUrl) == Some(JStr(r.value.applicationUrl)))
  {
    if !j.JObj? then None
    else
      var o := j.fields;
      var movie := match Lookup(o, F.Movie) case Some(m) => ParseWebhookMovie(m) case None => None;
      var event, instance, url := StrField(o, F.EventType), StrField(o, F.InstanceName), StrField(o, F.ApplicationUrl);
      if movie.Some? && event.Some? && instance.Some? && url.Some? then
        Some(RadarrPayload(movie.value, event.value, instance.value, url.value))
      else None
  }

  /** `WebhookSeries.model_validate`. */
  function ParseWebhookSeries(j: Json): (r: Option<WebhookSeries>)
    ensures r.Some? ==> j.JObj?
    ensures r.Some? ==>
      (Lookup(j.fields, F.Id) == Some(IntNum(r.value.id))
       && Lookup(j.fields, F.Title) == Some(JStr(r.value.title))
       && Lookup(j.fields, F.Path) == Some(JStr(r.value.path))
       && Lookup(j.fields, F.Year) == Some(IntNum(r.value.year)))
  {
    if !j.JObj? then None
    else
      var o := j.fields;
      var id, title, path, year := IntField(o, F.Id), StrField(o, F.Title), StrField(o, F.Path), IntField(o, F.Year);
      if id.Some? && title.Some? && path.Some? && year.Some? then
        Some(WebhookSeries(id.value, title.value, path.value, year.value))
      else None
  }

  /** `WebhookEpisode.model_validate`. */
  function ParseWebhookEpisode(j: Json): (r: Option<WebhookEpisode>)
    ensures r.Some? ==> j.JObj?
    ensures r.Some? ==>
      (Lookup(j.fields, F.Id) == Some(IntNum(r.value.id))
       && Lookup(j.fields, F.EpisodeNumber) == Some(IntNum(r.value.episodeNumber))
       && Lookup(j.fields, F.SeasonNumber) == Some(IntNum(r.value.seasonNumber))
       && Lookup(j.fields, F.Title) == Some(JStr(r.value.title))
       && Lookup(j.fields, F.SeriesId) == Some(IntNum(r.value.seriesId)))
  {
    if !j.JObj? then None
    else
      var o := j.fields;
      var id, episode, season := IntField(o, F.Id), IntField(o, F.EpisodeNumber), IntField(o, F.SeasonNumber);
      var title, series := StrField(o, F.Title), IntField(o, F.SeriesId);
      if id.Some? && episode.Some? && season.Some? && title.Some? && series.Some? then
        Some(WebhookEpisode(id.value, episode.value, season.value, title.value, series.value))
      else None
  }

  /** `list[WebhookEpisode]`: every element must validate; the order is kept. */
  function ParseEpisodeList(items: seq<Json>): (r: Option<seq<WebhookEpisode>>)
    ensures r.Some? <==> forall i :: 0 <= i < |items| ==> ParseWebhookEpisode(items[i]).Some?
    ensures r.Some? ==> |r.value| == |items|
    ensures r.Some? ==> forall i :: 0 <= i < |items| ==> ParseWebhookEpisode(items[i]) == Some(r.value[i])
    decreases |items|
  {
    if |items| == 0 then Some([])
    else
      var head := ParseWebhookEpisode(items[0]);
      var tail := ParseEpisodeList(items[1..]);
      assert forall i :: 1 <= i < |items| ==> items[i] == items[1..][i - 1];
      if head.Some? && tail.Some? then Some([head.value] + tail.value) else None
  }

  /** A one-element episode list validates iff its element does. */
  lemma ParseSingletonEpisodeList(e: Json)
    ensures ParseEpisodeList([e]) == (match ParseWebhookEpisode(e) case Some(x) => Some([x]) case None => None)
  {
    assert [e][0] == e && [e][1..] == [];
    assert ParseEpisodeList([]) == Some([]);
    if ParseWebhookEpisode(e).Some? {
      assert [ParseWebhookEpisode(e).value] + [] == [ParseWebhookEpisode(e).value];
    }
  }

  /** `SonarrWebhookPayload.model_validate`. */
  function ParseSonarrPayload(j: Json): (r: Option<SonarrPayload>)
    ensures r.Some? ==> j.JObj? && Lookup(j.fields, F.Series).Some? && Lookup(j.fields, F.Episodes).Some?
    ensures r.Some? ==> ParseWebhookSeries(Lookup(j.fields, F.Series).value) == Some(r.value.series)
    ensures r.Some? ==>
      (Lookup(j.fields, F.Episodes).value.JArr?
       && ParseEpisodeList(Lookup(j.fields, F.Episodes).value.items) == Some(r.value.episodes))
    ensures r.Some? ==>
      (Lookup(j.fields, F.EventType) == Some(JStr(r.value.eventType))
       && Lookup(j.fields, F.InstanceName) == Some(JStr(r.value.instanceName))
       && Lookup(j.fields, F.ApplicationUrl) == Some(JStr(r.value.applicationUrl)))
  {
    if !j.JObj? then None
    else
      var o := j.fields;
      var series := match Lookup(o, F.Series) case Some(s) => ParseWebhookSeries(s) case None => None;
      var episodes := match Lookup(o, F.Episodes) case Some(JArr(items)) => ParseEpisodeList(items) case _ => None;
      var event, instance, url := StrField(o, F.EventType), StrField(o, F.InstanceName), StrField(o, F.ApplicationUrl);
      if series.Some? && episodes.Some? && event.Some? && instance.Some? && url.Some? then
        Some(SonarrPayload(series.value, episodes.value, event.value, instance.value, url.value))
      else None
  }

  // The converse of the parsers' contracts: the declared fields, present with the
  // declared kinds, are all a body needs to validate, whatever else it holds.

  /** A movie object with its four fields present validates to their values. */
  lemma WebhookMovieValidates(o: Object, m: WebhookMovie)
    requires Lookup(o, F.Id) == Some(IntNum(m.id)) && Lookup(o, F.Title) == Some(JStr(m.title))
    requires Lookup(o, F.Year) == Some(IntNum(m.year)) && Lookup(o, F.FolderPath) == Some(JStr(m.folderPath))
    ensures ParseWebhookMovie(JObj(o)) == Some(m)
  {
  }

  /** A body with a valid movie object and the three envelope strings validates as a movie payload. */
  lemma RadarrPayloadValidates(o: Object, p: RadarrPayload)
    requires Lookup(o, F.Movie).Some? && ParseWebhookMovie(Lookup(o, F.Movie).value) == Some(p.movie)
    requires Lookup(o, F.EventType) == Some(JStr(p.eventType))
    requires Lookup(o, F.InstanceName) == Some(JStr(p.instanceName))
    requires Lookup(o, F.ApplicationUrl) == Some(JStr(p.applicationUrl))
    ensures ParseRadarrPayload(JObj(o)) == Some(p)
  {
  }

  /** A series object with its four fields present validates to their values. */
  lemma WebhookSeriesValidates(o: Object, s: WebhookSeries)
    requires Lookup(o, F.Id) == Some(IntNum(s.id)) && Lookup(o, F.Title) == Some(JStr(s.title))
    requires Lookup(o, F.Path) == Some(JStr(s.path)) && Lookup(o, F.Year) == Some(IntNum(s.year))
    ensures ParseWebhookSeries(JObj(o)) == Some(s)
  {
  }

  /** An episode object with its five fields present validates to their values. */
  lemma WebhookEpisodeValidates(o: Object, e: WebhookEpisode)
    requires Lookup(o, F.Id) == Some(IntNum(e.id)) && Lookup(o, F.Title) == Some(JStr(e.title))
    requires Lookup(o, F.EpisodeNumber) == Some(IntNum(e.episodeNumber))
    requires Lookup(o, F.SeasonNumber) == Some(IntNum(e.seasonNumber))
    requires Lookup(o, F.SeriesId) == Some(IntNum(e.seriesId))
    ensures ParseWebhookEpisode(JObj(o)) == Some(e)
  {
  }

  /**
   * A body with a valid series object, a list of valid episode objects and the
   * three envelope strings validates as a series payload.
   */
  lemma SonarrPayloadValidates(o: Object, items: seq<Json>, p: SonarrPayload)
    requires Lookup(o, F.Series).Some? && ParseWebhookSeries(Lookup(o, F.Series).value) == Some(p.series)
    requires Lookup(o, F.Episodes) == Some(JArr(items)) && ParseEpisodeList(items) == Some(p.episodes)
    requires Lookup(o, F.EventType) == Some(JStr(p.eventType))
    requires Lookup(o, F.InstanceName) == Some(JStr(p.instanceName))
    requires Lookup(o, F.ApplicationUrl) == Some(JStr(p.applicationUrl))
    ensures ParseSonarrPayload(JObj(o)) == Some(p)
  {
  }

  /** `episode_ids_to_unmonitor`: one id per episode, in payload order. */
  function EpisodeIdsToUnmonitor(p: SonarrPayload): (ids: seq<int>)
    ensures |ids| == |p.episodes|
  {
    seq(|p.episodes|, i requires 0 <= i < |p.episodes| => p.episodes[i].id)
  }

  /**
   * The ids sent for a validated body are the "id" values of the body's episode
   * objects, one for each object and in the order the body lists them.
   */
  lemma EpisodeIdsFollowBody(j: Json, p: SonarrPayload)
    requires ParseSonarrPayload(j) == Some(p)
    ensures var items := Lookup(j.fields, F.Episodes).value.items;
            |EpisodeIdsToUnmonitor(p)| == |items|
            && forall i :: 0 <= i < |items| ==>
                 items[i].JObj? && Lookup(items[i].fields, F.Id) == Some(IntNum(EpisodeIdsToUnmonitor(p)[i]))
  {
  }

  /** The shape tried first wins: movie, then series, else nothing. */
  function Classify(j: Json): (c: Classified)
    ensures c.Movie? <==> ParseRadarrPayload(j).Some?
    ensures c.Series? <==> ParseRadarrPayload(j).None? && ParseSonarrPayload(j).Some?
    ensures c.Unrecognized? <==> ParseRadarrPayload(j).None? && ParseSonarrPayload(j).None?
    ensures c.Movie? ==> Some(c.movie) == ParseRadarrPayload(j)
    ensures c.Series? ==> Some(c.series) == ParseSonarrPayload(j)
  {
    match ParseRadarrPayload(j)
    case Some(m) => Movie(m)
    case None =>
      match ParseSonarrPayload(j)
      case Some(s) => Series(s)
      case None => Unrecognized
  }

  /** A body without a "movie" key never validates as a movie payload. */
  lemma NoMovieKeyNoMovie(j: Json)
    requires j.JObj? && "movie" !in j.fields
    ensures ParseRadarrPayload(j).None?
  {
  }

  /** A body missing "series" or "episodes" never validates as a series payload. */
  lemma NoSeriesKeysNoSeries(j: Json)
    requires j.JObj? && ("series" !in j.fields || "episodes" !in j.fields)
    ensures ParseSonarrPayload(j).None?
  {
  }

  /** The event type of either payload kind. */
  function EventOf(c: Classified): string
    requires !c.Unrecognized?
  {
    if c.Movie? then c.movie.eventType else c.series.eventType
  }

  /** `"test" in event_type.lower()`. */
  predicate IsTestEvent(eventType: string)
    ensures IsTestEvent(eventType) ==> |eventType| >= 4
  {
    Contains(Lower(eventType), "test")
  }
}

=== FILE: webhook_examples.dfy ===
/**
 * The two test payloads of tests/test_webhook_payloads.py, written out as JSON
 * values: both carry keys the models do not declare and both validate.
 */
module WebhookExamples {
  import opened Wrappers
  import opened Json
  import opened Text
  import opened Webhook
  import opened OpenRecord
  import F = FieldNames

  function RadarrTestBody(): Json {
    JObj(map[
      "movie" := JObj(map[
        "id" := JNum(1.0),
        "title" := JStr("Test Title"),
        "year" := JNum(1970.0),
        "releaseDate" := JStr("1970-01-01"),
        "folderPath" := JStr("C:\\testpath"),
        "tmdbId" := JNum(0.0),
        "tags" := JArr([JStr("test-tag")])]),
      "remoteMovie" := JObj(map[
        "tmdbId" := JNum(1234.0), "imdbId" := JStr("5678"), "title" := JStr("Test title"), "year" := JNum(1970.0)]),
      "release" := JObj(map[
        "quality" := JStr("Test Quality"),
        "qualityVersion" := JNum(1.0),
        "releaseGroup" := JStr("Test Group"),
        "releaseTitle" := JStr("Test Title"),
        "indexer" := JStr("Test Indexer"),
        "size" := JNum(9999999.0),
        "customFormatScore" := JNum(0.0)]),
      "eventType" := JStr("Test"),
      "instanceName" := JStr("Radarr"),
      "applicationUrl" := JStr("")])
  }

  /** The Radarr test payload validates with its title, year and event type kept. */
  lemma RadarrTestPayloadValidates()
    ensures ParseRadarrPayload(RadarrTestBody())
         == Some(RadarrPayload(WebhookMovie(1, "Test Title", 1970, "C:\\testpath"), "Test", "Radarr", ""))
  {
  }

  function SonarrTestEpisode(): Json {
    JObj(map[
      "id" := JNum(123.0),
      "episodeNumber" := JNum(1.0),
      "seasonNumber" := JNum(1.0),
      "title" := JStr("Test title"),
      "seriesId" := JNum(0.0),
      "tvdbId" := JNum(0.0)])
  }

  function SonarrTestSeries(): Json {
    JObj(map[
      "id" := JNum(1.0),
      "title" := JStr("Test Title"),
      "path" := JStr("C:\\testpath"),
      "tvdbId" := JNum(1234.0),
      "tvMazeId" := JNum(0.0),
      "tmdbId" := JNum(0.0),
      "type" := JStr("standard"),
      "year" := JNum(0.0),
      "tags" := JArr([JStr("test-tag")])])
  }

  function SonarrTestBody(): Json {
    JObj(map[
      "series" := SonarrTestSeries(),
      "episodes" := JArr([SonarrTestEpisode()]),
      "eventType" := JStr("Test"),
      "instanceName" := JStr("Sonarr"),
      "applicationUrl" := JStr("")])
  }

  lemma SonarrTestEpisodeValidates()
    ensures ParseWebhookEpisode(SonarrTestEpisode()) == Some(WebhookEpisode(123, 1, 1, "Test title", 0))
  {
  }

  lemma SonarrTestSeriesValidates()
    ensures ParseWebhookSeries(SonarrTestSeries()) == Some(WebhookSeries(1, "Test Title", "C:\\testpath", 0))
  {
  }

  /** The Sonarr test payload validates with its series, episode id and event type kept. */
  lemma SonarrTestPayloadValidates()
    ensures ParseSonarrPayload(SonarrTestBody())
         == Some(SonarrPayload(
              WebhookSeries(1, "Test Title", "C:\\testpath", 0),
              [WebhookEpisode(123, 1, 1, "Test title", 0)],
              "Test", "Sonarr", ""))
  {
    var o := SonarrTestBody().fields;
    assert Lookup(o, F.Series) == Some(SonarrTestSeries());
    assert Lookup(o, F.Episodes) == Some(JArr([SonarrTestEpisode()]));
    assert StrField(o, F.EventType) == Some("Test");
    assert StrField(o, F.InstanceName) == Some("Sonarr");
    assert StrField(o, F.ApplicationUrl) == Some("");
    SonarrTestSeriesValidates();
    SonarrTestEpisodeValidates();
    ParseSingletonEpisodeList(SonarrTestEpisode());
  }

  /** The Radarr test body is classified as a movie payload, the Sonarr one as a series payload. */
  lemma TestBodiesClassified()
    ensures Classify(RadarrTestBody()).Movie?
    ensures Classify(SonarrTestBody()).Series?
  {
    RadarrTestPayloadValidates();
    SonarrTestPayloadValidates();
    assert ParseRadarrPayload(SonarrTestBody()).None? by {
      NoMovieKeyNoMovie(SonarrTestBody());
    }
  }

  /** The event type "Test" is recognised as a test event. */
  lemma TestEventRecognised(e: string)
    requires e == "Test"
    ensures IsTestEvent(e)
  {
    assert Lower(e) == "test";
  }
}

=== FILE: wrappers.dfy ===
/** Option and Result: the "None" returns and caught exceptions of the source, as values. */
module Wrappers {

  datatype Option<+T> = None | Some(value: T)

  /** A call that either produced a value or failed with an error the caller can inspect. */
  datatype Result<+T, +E> = Ok(value: T) | Err(error: E)

  /** A check that either passes or fails with a message (a raised ValueError). */
  datatype Outcome<+E> = Pass | Fail(error: E)
}
